=== FILE: README.md ===
# Cloud cost management: a Dafny model

This project models the discrete core of a two-part cloud cost monitor.

- **The batch pipeline** (`cost-management`):
  - It cleans an AWS and a GCP billing export into two daily cost reports.
  - For each of ten services, it calibrates an outlier threshold on the service's costs with an isolation forest.
  - It appends that threshold to the ledger `outliers.csv`.
  - It writes a seven-day ARIMA forecast to `forecasted_<name>_costs.csv`.
- **The alert API** (`cost-management-api`):
  - It loads the forecast files and the latest threshold of each service.
  - On a request, it runs the diagnostic probe of every AWS service that has a forecast above its threshold.
  - Four of those probes are modelled: Kubernetes Engine, Amazon VPC, Amazon S3 and AWS KMS. Their cloud responses are inputs.

The numerical libraries are parameters of the model, and so are the file system and the cloud clients:

- isolation-forest scores and labels;
- ADF p-values, pacf/acf arrays and ARIMA forecasts;
- date parsing;
- the float-to-text conversion.

The modules follow the program:

| module | file | models |
|---|---|---|
| `Base`, `Dict`, `Numbers` | base.dfy, dict.dfy, numbers.dfy | Python exceptions as `Result`; insertion-ordered dicts; `int()` and `str()` on integers |
| `Tables`, `Grouping`, `Sorting` | tables.dfy, grouping.dfy, sorting.dfy | the pandas operations the pipeline uses: column access, drop, groupby-first, drop_duplicates, sort_values |
| `Cleaning` | cleaning.dfy | `data_processing()` |
| `Calibration`, `Forecasting` | calibration.dfy, forecasting.dfy | `anomaly_detection` and `ARIMA_model` |
| `Ledger`, `World` | ledger.dfy, world.dfy | the ledger lines and the files the stages share |
| `Drivers`, `Pipeline` | drivers.dfy, pipeline.dfy | the ten service drivers (one generic driver plus a record of constants each) and `main()` |
| `Alerts` | alerts.dfy | the API's start-up loads and `compare_values` |
| `KubernetesProbe`, `VpcProbe`, `S3Probe`, `KmsProbe` | probe_k8s.dfy, probe_vpc.dfy, probe_s3.dfy, probe_kms.dfy | the decision and aggregation logic of the four probes |

Some conventions hold throughout:

- An exception is an `Err` of the `Failure` the Python code would raise: `KeyError(name)`, `TypeError`, `ZeroDivisionError`, `AttributeError`, and so on.
- A stage that raises stops the batch run. The files it changed before raising stay changed.
- The ten driver files differ only in constants, and each driver is one `Drivers.Driver` value:
  - the group key;
  - the initial threshold;
  - the ledger label;
  - the forecast name;
  - for `networking.py`, the discarded warm-up run.

## Model

| member | source | states |
|---|---|---|
| Numbers.ParseIntAccepts | cost-management-api/metrics_kubernetes_engine.py:48 | `int(text)` succeeds exactly on an optional sign followed by digits; every other text raises ValueError |
| Numbers.ParseShow | cost-management-api/metrics_kubernetes_engine.py:48 | `int(str(n)) == n` for every integer |
| Numbers.QuantityRoundTrip | cost-management-api/metrics_kubernetes_engine.py:49 | a quantity written as an integer followed by a unit suffix reads back as that integer once the suffix is removed |
| Dict.Put | cost-management-api/metrics_awskms.py:87-90 | `d[k] = v` keeps the keys in insertion order, appends a new key at the end, stores `v` under `k` and leaves every other key's value alone |
| Dict.GetAt | cost-management-api/metrics_awskms.py:95 | iterating over `items()` of a dict pairs each key with the value a lookup finds |
| Dict.FromPairsLastWins | cost-management-api/metrics_kubernetes_engine.py:47-50 | after a sequence of assignments, a key holds the value of its last assignment |
| Dict.GroupConcatKeys | cost-management-api/metrics_amazons3.py:58-71 | a `defaultdict(list)` filled by appends lists its keys once each, in order of first appearance |
| Dict.GroupConcatValues | cost-management-api/metrics_amazons3.py:67-71 | under each key it holds everything appended for that key, in order, and absent keys are absent |
| Tables.ColumnOfSetColumn | cost-management/methods.py:14-22 | a column assigned with `df[c] = vals` reads back as `vals`, and every other column reads as it did before |
| Tables.DropColumns | cost-management/data_processing.py:13-51 | `drop(cols)` succeeds iff every column exists; it removes exactly those columns, keeps all rows and leaves the other cells unchanged; otherwise it raises KeyError on a missing column |
| Tables.SetColumn | cost-management/data_processing.py:62 | assigning a column adds or overwrites exactly that column in every row |
| Tables.SelectGroup | cost-management/aws_config.py:8-10 | selecting a service group raises KeyError(service) when no row belongs to it, and otherwise yields exactly the group's rows, in order, and at least one |
| Tables.GroupRows | cost-management/kubernetes_engine.py:8-9 | a group holds every row with the group's key and no other row |
| Tables.ToDatetime | cost-management/amazon_ec2.py:18 | `pd.to_datetime` on a column raises KeyError if the column is missing, and otherwise succeeds exactly when every text cell parses, raising the ValueError of the first one that does not; on success each text cell becomes its parsed day, a day stays the same day, NaN becomes NaT, and no other column changes |
| Ledger.LineRoundTrip | cost-management/amazon_s3.py:15-16 | a ledger line `name, value` is filed under `name` and carries `value` |
| Ledger.LatestEntryFound | cost-management-api/main.py:29-38 | a column's latest entry exists iff some line is filed under it, and it is the value of the last such line |
| Ledger.AppendIsLatest | cost-management/amazon_vpc.py:15-16 | appending a line makes it the latest entry of its own column and leaves every other column's latest entry unchanged |
| Grouping.GroupKeys | cost-management/data_processing.py:57 | the groups are the distinct keys of the rows that have a value in every key column |
| Grouping.FirstValue | cost-management/data_processing.py:57 | `.first()` takes, per column, the group's first non-missing value, and NaN when the group has none |
| Grouping.GroupFirst | cost-management/data_processing.py:57 | `groupby(keys).first()` raises KeyError on a missing key column; otherwise it yields one aggregated row per group and no two rows share a key |
| Grouping.AggregateKey | cost-management/data_processing.py:57 | the aggregated row of a group carries that group's key |
| Grouping.PermutationKeepsUniqueKeys | cost-management/data_processing.py:90 | reordering rows keeps the one-row-per-key property |
| Grouping.DropDuplicates | cost-management/data_processing.py:86 | `drop_duplicates` leaves no repeated row, drops no distinct row and adds none |
| Grouping.DropDuplicatesOfDistinct | cost-management/data_processing.py:86 | on a table without repeated rows `drop_duplicates` changes nothing |
| Sorting.CellTotal | cost-management/data_processing.py:90-91 | any two cells of a sortable column are comparable |
| Sorting.CellTrans | cost-management/data_processing.py:90-91 | the cell order is transitive |
| Sorting.LexTrans | cost-management/data_processing.py:90-91 | string comparison, used for the AWS date strings, is transitive |
| Sorting.Sort | cost-management/data_processing.py:90-91 | sorting yields the same rows (as a multiset), ascending by the column |
| Sorting.SortBy | cost-management/data_processing.py:91 | `sort_values(by=c)` raises KeyError on a missing column and TypeError on incomparable cells; otherwise it yields a permutation of the rows that ascends by `c` |
| Cleaning.FillNumeric | cost-management/data_processing.py:9-10 | filling the numeric columns makes every cell in them a number, keeps every non-missing cell and every other column unchanged |
| Cleaning.FillNumericIdempotent | cost-management/data_processing.py:9-10 | filling twice is the same as filling once |
| Cleaning.SplitDates | cost-management/data_processing.py:54 | `date` is the text before the first 'T' of the interval (all of it when there is none); KeyError without the interval column, AttributeError on a non-text cell |
| Cleaning.NetCell | cost-management/data_processing.py:61 | the net cost is `total - (less1 + less2)`; NaN propagates and text raises TypeError |
| Cleaning.NetCost | cost-management/data_processing.py:61-62 | the cost column is added row by row as the net of its three parts; a missing part column raises KeyError, checked in source order |
| Cleaning.NumericCell | cost-management/data_processing.py:70 | `to_numeric(errors='coerce')` turns text into a number or NaN and leaves numbers and NaN alone |
| Cleaning.ToNumeric | cost-management/data_processing.py:70-72 | coercing a column changes only that column and raises KeyError when it is missing |
| Cleaning.NonZeroRows | cost-management/data_processing.py:83 | the filter keeps exactly the rows whose cost is not 0 |
| Cleaning.NonZeroKeepsUniqueKeys | cost-management/data_processing.py:83 | dropping rows keeps one row per key |
| Cleaning.DropKeepsUniqueKeys | cost-management/data_processing.py:65-67 | dropping non-key columns keeps one row per key |
| Cleaning.NetCostKeepsUniqueKeys | cost-management/data_processing.py:61-62 | adding the cost column keeps one row per key |
| Cleaning.AwsGroupedUnique | cost-management/data_processing.py:57-58 | after grouping there is at most one AWS row per (date, product, region) |
| Cleaning.AwsDailyShape | cost-management/data_processing.py:57-67 | the daily AWS table keeps one row per key and carries the net cost |
| Cleaning.AwsReportShape | cost-management/data_processing.py:83-90 | the cleaned AWS report is sorted by date, has one row per key, and holds exactly the daily rows whose cost is not 0 |
| Cleaning.GcpReportShape | cost-management/data_processing.py:86-91 | the cleaned GCP report is sorted by date, has no repeated row, and holds exactly the rows of the net table, without a cost filter |
| Cleaning.DataProcessingShape | cost-management/data_processing.py:54-91 | in a successful run, the AWS report is sorted by day, has unique keys, and holds exactly the daily rows with non-zero cost; the GCP report is sorted by day, has no repeated row, and holds exactly the rows of the net-cost table |
| Calibration.CountBelowMonotone | cost-management/methods.py:19 | the number of scores below a threshold never decreases as the threshold rises |
| Calibration.AccuracyMonotone | cost-management/methods.py:17-24 | accuracy is monotone in the threshold, so a decrement never raises it |
| Calibration.Calibrate | cost-management/methods.py:26-36 | the search makes at most `max_iterations` decrements of 0.0001; the threshold is `initial - k*0.0001` and the accuracy is `evaluate_accuracy` of it; it stops at the target or at the budget; every earlier threshold missed the target; it raises ZeroDivisionError exactly when some score lies below the initial threshold and no point is labelled -1 |
| Calibration.BelowTargetExhaustsBudget | cost-management/methods.py:32-35 | if the initial accuracy misses the target, the loop uses the whole budget and ends below the target |
| Calibration.CalibrateLoop | cost-management/methods.py:27-36 | the while loop computes the same result as the recursive search |
| Calibration.AnomalyDetection | cost-management/methods.py:8-36 | `anomaly_detection` raises KeyError on a missing column and otherwise adds only the `scores` and `anomaly` columns (values ±1), returning the calibrated threshold |
| Calibration.Annotate | cost-management/methods.py:14-15 | the scores and the ±1 predictions are stored row by row and every other column is untouched |
| Forecasting.RawDiffs | cost-management/methods.py:66 | `diff()` without its leading NaN is one shorter and holds successive differences |
| Forecasting.DropNaN | cost-management/methods.py:66 | `dropna()` leaves no missing value and changes nothing on a series without one |
| Forecasting.DiffDense | cost-management/methods.py:66 | one difference of a gap-free series is one element shorter and numeric |
| Forecasting.DifferencedLength | cost-management/methods.py:64-67 | after `k` differences a gap-free series is `k` elements shorter |
| Forecasting.DiffLoop | cost-management/methods.py:61-67 | the differencing loop keeps `d <= 2`, its series is always the `d`-fold difference, and every order it passes had p-value above 0.05 |
| Forecasting.DifferencingOrder | cost-management/methods.py:61-67 | d is between 0 and 2; the loop stops once p <= 0.05 or d == 2, and every smaller order had p > 0.05 |
| Forecasting.NLagsValues | cost-management/methods.py:69 | `int(len/2 - 1)` truncates toward zero: `n/2 - 1` for n >= 2, 0 for n == 1 and -1 for n == 0 |
| Forecasting.FirstInside | cost-management/methods.py:72 | finds the first index whose value lies below the band, or reports that there is none |
| Forecasting.ArgmaxInside | cost-management/methods.py:71-72 | `argmax(values < band)` is the first index below the band, or 0 when none is; an empty array raises |
| Forecasting.LagOrder | cost-management/methods.py:71-77 | p (and q) is `max(0, i - 1)` for the first index `i` below the band, and 0 when none is |
| Forecasting.SelectOrder | cost-management/methods.py:56-77 | the order (p, d, q) takes d from the differencing loop and p, q from the pacf and acf of the differenced series, with `nlags = int(len/2 - 1)` |
| Forecasting.MaxDay | cost-management/methods.py:86 | the latest date of the column, skipping missing dates |
| Forecasting.ArimaModel | cost-management/methods.py:39-93 | KeyError without the value column; otherwise exactly seven rows (`steps=7`) carrying the forecaster's values in order and the service-code argument, on consecutive days from the day after the table's latest date |
| Drivers.Prepare | cost-management/amazon_cloud_watch.py:8-11 | KeyError for the group column when the report lacks it, KeyError(service) when no row belongs to the service, KeyError for a missing dropped column; otherwise exactly the service's rows in report order, each without the dropped columns and with every other cell kept |
| Drivers.GroupCalibration | cost-management/compute_engine.py:5-12 | without a warm-up, the call is `anomaly_detection(group, value, initial, target, budget)` on the prepared group; in every case the recorded threshold is the threshold search over the forest's scores of the group's cost column, from the driver's initial value towards its target (95 for all ten drivers) within its budget (100), and the group gains only the two forest columns |
| Drivers.ForecastGroup | cost-management/amazon_eks.py:19-20 | the forecast is `ARIMA_model` on the date-converted group with the converted date column as the order-selection series: seven rows for the group column on consecutive days, or the first failure of the conversion or the model |
| Drivers.CalibratedScores | cost-management/networking.py:12-13 | warm-up or not, the recorded calibration searches over the forest's scores of the group's own cost column, and the table keeps every cell but the two forest columns |
| Drivers.RunDriver | cost-management/amazon_eks.py:4-20 | a driver never changes the reports. It appends exactly one ledger line `label, threshold` once calibration succeeds, and nothing when calibration fails. It completes exactly when the calibration and the forecast of the calibrated group (Drivers.ForecastGroup) both succeed; it then writes that forecast, seven rows, as its file and leaves the other files alone |
| Drivers.DriverLedgerEntry | cost-management/awskms.py:14-16 | after a driver calibrates, its ledger column reads back the threshold it wrote and every other column reads what it read before |
| Drivers.AnnotateTwice | cost-management/methods.py:14-15 | writing the forest's two columns a second time changes nothing |
| Drivers.WarmupCalibrationIsDiscarded | cost-management/networking.py:12-13 | a warm-up calibration from the same initial value does not change the calibrated group or threshold |
| Drivers.WarmupRunIsDiscarded | cost-management/networking.py:4-19 | such a warm-up run leaves the whole driver run unchanged |
| Drivers.NetworkingWarmupIsDiscarded | cost-management/networking.py:12-15 | the networking driver's first calibration is discarded: its run equals one without it |
| Pipeline.CleanStep | cost-management/data_processing.py:5-93 | the cleaning stage needs both raw exports, writes the two cleaned reports on success, and touches neither the ledger nor the forecasts |
| Pipeline.Step | cost-management/main.py:17-30 | a preparation stage never touches the ledger or the forecasts; a driver stage keeps the reports, appends at most one line under its own label, exactly one when it completes, and then adds its forecast file |
| Pipeline.AbortIsFinal | cost-management/main.py:17-30 | there is no failure isolation: once a stage raises, no later stage runs |
| Pipeline.CompletedRunCompletedPrefixes | cost-management/main.py:17-30 | a completed run completed every prefix of its stages |
| Pipeline.CompletedLedger | cost-management/main.py:21-30 | a completed run keeps the old ledger as a prefix and appends one line per driver, labelled in driver order |
| Pipeline.UntouchedColumn | cost-management/main.py:21-30 | a column no driver writes keeps its latest entry |
| Pipeline.MainLedgerNames | cost-management/main.py:21-30 | `main()` writes the ten labels in the order of its calls |
| Pipeline.MainLedger | cost-management/main.py:17-30 | a completed `main()` appends exactly ten lines after the old ledger, labelled CloudWatch, EKS (as 'AmazpnEKS'), VPC, S3, EC2, Config, KMS, Compute Engine, Kubernetes Engine, Networking |
| Pipeline.CompletedForecasts | cost-management/main.py:21-30 | a completed run keeps every old forecast file and writes the file of every driver |
| Pipeline.ColumnWritten | cost-management/main.py:21-30 | after a completed run, every label a driver writes has a latest entry appended by this run |
| Alerts.LoadForecasts | cost-management-api/main.py:15-24 | the API loads all ten forecast files or raises FileNotFoundError on the first missing one |
| Alerts.ThresholdReadsBack | cost-management-api/main.py:26-37 | the threshold a driver appends as `name, str(x)` is loaded at start-up as the number `x`, provided the number parser reads back what `str()` wrote |
| Alerts.LoadThresholds | cost-management-api/main.py:29-38 | every threshold is the latest ledger entry of its column; the first column without an entry raises KeyError |
| Alerts.LoadApi | cost-management-api/main.py:15-38 | start-up fails on a missing forecast file first, then on a missing ledger, then on a missing column |
| Alerts.CompareValues | cost-management-api/main.py:43-80 | the gates run in order and the first one that raises ends the request with its exception: TypeError for a threshold that is not a number, or the probe's own exception for an overspent service whose probe raises; otherwise the response holds the probe answer of exactly the overspent services |
| Alerts.RaisingProbeFails | cost-management-api/main.py:78-80 | an overspent service whose probe raises fails the request, with that probe's exception when no earlier gate raised (so every request with an overspent AWSKMS forecast fails, since `get_kms_key_operations` always raises: KmsProbe.KeyOperations) |
| Alerts.AnswersStep | cost-management-api/main.py:52-80 | one more check keeps the response in step with the checks made |
| Alerts.OverspentAnswered | cost-management-api/main.py:54-80 | in a successful response, an overspent service's probe answered and its key holds that answer |
| Alerts.RequestAnswers | cost-management-api/main.py:54-80 | for the seven AWS services, a successful response holds an overspent one's answer under its fixed key, 'AWSConfig' included |
| Alerts.ApiForecastsWritten | cost-management-api/main.py:15-24 | after a completed `main()` the API finds all ten forecast files |
| Alerts.StaleColumns | cost-management-api/main.py:31-37 | five of the columns the API reads are never written by `main()`, so they keep whatever the ledger held before |
| Alerts.LoadApiMissingColumn | cost-management-api/main.py:29-38 | the first column without a ledger entry is the KeyError the API raises |
| Alerts.MainWritesColumn | cost-management/main.py:21-30 | every label `main()` writes has a latest entry after a completed run |
| Alerts.MainFeedsFiles | cost-management/main.py:21-30 | a completed `main()` leaves the forecast files and a non-empty ledger for the API |
| Alerts.FreshLedgerStopsApi | cost-management-api/main.py:31 | after a completed `main()` on a ledger that never had an 'AmazonEKS' line, API start-up raises KeyError('AmazonEKS') |
| Alerts.StopsAtThirdColumn | cost-management-api/main.py:29-31 | with the first two columns present and 'AmazonEKS' missing, start-up raises KeyError on it |
| Alerts.ApiColumnsCorrected | cost-management-api/main.py:29-38 | the corrected run writes every column the API reads |
| Alerts.CorrectedFeedsFiles | cost-management-api/main.py:15-24 | after a completed corrected run the API finds all ten forecast files |
| Alerts.CorrectedWritesColumn | cost-management/main.py:21-30 | every column the corrected run writes has a latest entry appended by that run |
| Alerts.ApiReadsLatest | cost-management-api/main.py:29-38 | when every column has an entry, start-up succeeds and each threshold is read from its column's last line |
| Alerts.CorrectedLedgerFeedsApi | cost-management-api/main.py:29-38 | after a completed corrected run, API start-up succeeds and every threshold comes from a line that run appended |
| Alerts.MainLinesStopApi | cost-management-api/main.py:15-30 | a ledger of old lines without 'AmazonEKS', followed by the ten lines labelled as the drivers of `main()` label them, makes API start-up raise KeyError('AmazonEKS') |
| Alerts.CorrectedLinesFeedApi | cost-management-api/main.py:15-38 | a ledger whose last ten lines carry the API's column names lets API start-up succeed, and each threshold is the value of its column's latest line, which lies among those ten |
| KubernetesProbe.NodeCapacityReads | cost-management-api/metrics_kubernetes_engine.py:45-50 | capacity cpu is `int(cpu)`; memory is `int(memory without 'Ki') // 1024`; a missing field is KeyError and unparsable text ValueError |
| KubernetesProbe.Capacities | cost-management-api/metrics_kubernetes_engine.py:44-51 | the capacity table is built iff every node's capacity reads, otherwise the first bad node's error is raised |
| KubernetesProbe.CapacitiesKeys | cost-management-api/metrics_kubernetes_engine.py:44-51 | the capacity table has an entry for exactly the listed node names |
| KubernetesProbe.CapacitiesLastWins | cost-management-api/metrics_kubernetes_engine.py:47-50 | a name's capacity is read from the last node carrying it |
| KubernetesProbe.ContainerDemandsAre | cost-management-api/metrics_kubernetes_engine.py:54-57 | only containers with present, non-empty requests contribute |
| KubernetesProbe.DemandsAre | cost-management-api/metrics_kubernetes_engine.py:53-57 | the demands are exactly those of the pods' requesting containers |
| KubernetesProbe.AddDemands | cost-management-api/metrics_kubernetes_engine.py:53-59 | adding the demands succeeds iff every demand reads; otherwise the first failure raises; the node set is unchanged |
| KubernetesProbe.AccumulateTotals | cost-management-api/metrics_kubernetes_engine.py:58-59 | each node's usage grows by exactly the sum of the additions to it |
| KubernetesProbe.TotalIsRequested | cost-management-api/metrics_kubernetes_engine.py:53-59 | the additions to a node sum to the reference total of its requests |
| KubernetesProbe.AddDemandsTotals | cost-management-api/metrics_kubernetes_engine.py:53-59 | after the pod loop, each node's usage is its start value plus its requested total |
| KubernetesProbe.CalculateNodeUsage | cost-management-api/metrics_kubernetes_engine.py:40-61 | the usage table has exactly the capacity table's nodes |
| KubernetesProbe.NodeUsageIsRequested | cost-management-api/metrics_kubernetes_engine.py:40-61 | every node's usage is the sum of the cpu (without 'm') and memory (without 'Mi') requests of containers scheduled on it |
| KubernetesProbe.UsageOfNode | cost-management-api/metrics_kubernetes_engine.py:53-61 | the usage of any listed node name is its requested total |
| KubernetesProbe.NodeCapacityEntries | cost-management-api/metrics_kubernetes_engine.py:44-50 | the returned capacity of each node is the one read from its last listing |
| KubernetesProbe.NodeUsageSucceeds | cost-management-api/metrics_kubernetes_engine.py:40-61 | the function returns iff every capacity reads and every demand reads and names a listed node |
| KubernetesProbe.DemandsDecide | cost-management-api/metrics_kubernetes_engine.py:53-59 | once capacities read, the demands alone decide success |
| KubernetesProbe.UnknownNodeFails | cost-management-api/metrics_kubernetes_engine.py:57-58 | a pod on an unlisted node raises KeyError with that node's name |
| KubernetesProbe.RequestedElsewhere | cost-management-api/metrics_kubernetes_engine.py:58-59 | requests on other nodes leave a node's total alone |
| KubernetesProbe.Unmeasured | cost-management-api/metrics_kubernetes_engine.py:64-65 | finds the first capacity entry without a usage entry, or reports that there is none |
| KubernetesProbe.NodeOverProvisioning | cost-management-api/metrics_kubernetes_engine.py:63-72 | an empty capacity table raises UnboundLocalError; a node without usage raises KeyError; otherwise only the last node is judged, flagged iff usage cpu < capacity cpu // 2 |
| KubernetesProbe.OnlyLastNodeJudged | cost-management-api/metrics_kubernetes_engine.py:64-67 | the nodes before the last affect only whether the loop raises, never the verdict |
| KubernetesProbe.ClusterNames | cost-management-api/metrics_kubernetes_engine.py:182-186 | the names come in input order, one per cluster; a cluster without a name raises KeyError |
| VpcProbe.UnusedIps | cost-management-api/metrics_amazonvpc.py:45-48 | the list is empty iff no address is unused; an unused address without a public IP raises KeyError |
| VpcProbe.UnusedIpsAre | cost-management-api/metrics_amazonvpc.py:45-48 | the list holds exactly the public IPs of the unused addresses |
| VpcProbe.UnusedIpsAppend | cost-management-api/metrics_amazonvpc.py:45-48 | the IPs are collected in input order |
| VpcProbe.ListUnusedEips | cost-management-api/metrics_amazonvpc.py:40-59 | reports the unused IPs, and nothing iff there are none |
| VpcProbe.EndpointsAre | cost-management-api/metrics_amazonvpc.py:98-105 | the endpoint list holds exactly the endpoints of all pages |
| VpcProbe.EndpointCount | cost-management-api/metrics_amazonvpc.py:103-105 | the endpoint count is the sum of the page sizes |
| VpcProbe.CountVpcEndpoints | cost-management-api/metrics_amazonvpc.py:107-119 | flags the endpoint count iff it is strictly above 100 |
| VpcProbe.CheckRoute | cost-management-api/metrics_amazonvpc.py:128-146 | a route with none of the four target keys is unused, and that takes precedence over a blackhole; a flagged route without a destination raises KeyError |
| VpcProbe.AnalyzeRouteTables | cost-management-api/metrics_amazonvpc.py:121-147 | no tables gives nothing; only the first table is examined, and its first suspicious route decides |
| VpcProbe.Rule | cost-management-api/metrics_amazonvpc.py:160 | the message fields: rule number, protocol, port range (All when absent) and action |
| VpcProbe.CheckAclEntry | cost-management-api/metrics_amazonvpc.py:159-177 | an allow from 0.0.0.0/0 is flagged first, then any egress rule for 0.0.0.0/0; missing fields raise KeyError |
| VpcProbe.DenyEgressFlagged | cost-management-api/metrics_amazonvpc.py:170-177 | an egress rule for 0.0.0.0/0 is flagged as permissive even when it denies |
| VpcProbe.AnalyzeNetworkAcls | cost-management-api/metrics_amazonvpc.py:149-178 | no ACLs gives nothing; only the first ACL is examined, and its first flagged or unreadable entry decides |
| VpcProbe.FirstComplex | cost-management-api/metrics_amazonvpc.py:199-207 | finds the first permission with more than ten IP ranges |
| VpcProbe.CheckGroup | cost-management-api/metrics_amazonvpc.py:184-218 | a group is flagged iff it has over 50 ingress or over 10 egress rules, or a permission with over 10 ranges (absent counts as 0); the rule count comes first, ingress before egress |
| VpcProbe.AnalyzeSecurityGroups | cost-management-api/metrics_amazonvpc.py:180-219 | groups are checked in order and the first flagged one is reported |
| S3Probe.ReadVersion | cost-management-api/metrics_amazons3.py:62-71 | a version record yields its key and (version id, size, is-latest) iff complete; a missing field raises KeyError |
| S3Probe.GroupVersions | cost-management-api/metrics_amazons3.py:60-72 | grouping succeeds iff every record is complete; otherwise the first incomplete record raises |
| S3Probe.ObjectVersionsGrouped | cost-management-api/metrics_amazons3.py:55-72 | the versions are grouped by key in order of first appearance, each key holding its versions in page order |
| S3Probe.MergeKeys | cost-management-api/metrics_amazons3.py:106-113 | the merged table lists each key once, in order of first appearance |
| S3Probe.MergeEntry | cost-management-api/metrics_amazons3.py:106-113 | under each key the merge holds the per-bucket lists built from that key's versions |
| S3Probe.ReplicationEntry | cost-management-api/metrics_amazons3.py:97-113 | `replication_info[key][bucket]` is that bucket's versions of the key, buckets in order, and a key is present iff some bucket holds it |
| S3Probe.FirstReplicated | cost-management-api/metrics_amazons3.py:125-137 | finds the first key held in more than one bucket, or reports that there is none |
| S3Probe.Listings | cost-management-api/metrics_amazons3.py:106-107 | succeeds iff every bucket's listing succeeds, giving each bucket's versions in bucket order; otherwise the error of the first bucket whose listing fails |
| S3Probe.AnalyzeReplication | cost-management-api/metrics_amazons3.py:97-137 | reports the first merged key that spans more than one bucket; a failing listing fails the analysis with the first failing bucket's error |
| S3Probe.ReportedKeySpansBuckets | cost-management-api/metrics_amazons3.py:125-137 | a reported key is held by more than one distinct bucket; every merged key is held by some bucket and has one list per distinct bucket holding it |
| S3Probe.LogStats | cost-management-api/metrics_amazons3.py:89-92 | the total is the sum of the logs' sizes and the count is the number of logs; a log without a size raises KeyError |
| S3Probe.LogStatsAppend | cost-management-api/metrics_amazons3.py:89-92 | total size and count add up across batches |
| S3Probe.DaysSinceBound | cost-management-api/metrics_amazons3.py:41-43 | more than 30 whole days have passed iff at least 31·86400 seconds have |
| S3Probe.CheckObject | cost-management-api/metrics_amazons3.py:38-43 | an object is flagged iff its class (STANDARD when absent) is STANDARD and it is older than 30 days; no modification time raises KeyError |
| S3Probe.InefficientObjects | cost-management-api/metrics_amazons3.py:31-53 | nothing is reported iff every object is readable and not stale; otherwise the first hit decides, and reports the bucket |
| S3Probe.ExcessiveRequests | cost-management-api/metrics_amazons3.py:159-162 | the request rate is flagged iff total/24 > 10000 |
| KmsProbe.TallyCount | cost-management-api/metrics_awskms.py:87-90 | after counting, each name's count is its start count plus its number of occurrences |
| KmsProbe.BumpCount | cost-management-api/metrics_awskms.py:87-90 | one bump adds one to its own name and leaves the others alone |
| KmsProbe.TallyTotal | cost-management-api/metrics_awskms.py:83-90 | the counts grow in total by one per counted name |
| KmsProbe.TallyFreshKeys | cost-management-api/metrics_awskms.py:87-90 | counting into an empty dict lists each name once, in order of first occurrence |
| KmsProbe.TallyKnownKeys | cost-management-api/metrics_awskms.py:59-62 | counting names already present adds no key |
| KmsProbe.CheckNumberOfKeys | cost-management-api/metrics_awskms.py:21-33 | the key count is the sum of the page sizes and is flagged iff above 5 |
| KmsProbe.RotatedKey | cost-management-api/metrics_awskms.py:84-86 | a 'RotateKey' event names the key of its first resource; missing fields raise KeyError and an empty resource list IndexError |
| KmsProbe.CountRotations | cost-management-api/metrics_awskms.py:83-90 | counting succeeds iff every event is readable |
| KmsProbe.CountRotationsFails | cost-management-api/metrics_awskms.py:83-90 | a failing count raises the error of the first unreadable event |
| KmsProbe.CountRotationsTally | cost-management-api/metrics_awskms.py:83-90 | the loop counts the key of each rotation event, in order, and only those |
| KmsProbe.RotationCounts | cost-management-api/metrics_awskms.py:72-91 | only RotateKey events count, each under its first resource; each key appears once with its number of rotations, and the counts sum to the number of rotation events |
| KmsProbe.RotationCountsPositive | cost-management-api/metrics_awskms.py:87-90 | every count is at least one |
| KmsProbe.FirstRepeated | cost-management-api/metrics_awskms.py:95-96 | finds the first key, in insertion order, with a count above one |
| KmsProbe.KeyRotation | cost-management-api/metrics_awskms.py:93-101 | over a 365-day window, nothing is reported iff no key was rotated twice; otherwise the first such key is reported |
| KmsProbe.KeyRotationReported | cost-management-api/metrics_awskms.py:93-101 | a reported key's count is its number of rotations in the window and is above one |
| KmsProbe.ZerosCount | cost-management-api/metrics_awskms.py:51 | every operation starts at zero |
| KmsProbe.ZerosKeys | cost-management-api/metrics_awskms.py:51 | the operation counts are listed in the operations' order |
| KmsProbe.ZerosTotal | cost-management-api/metrics_awskms.py:51 | the initial counts add up to zero |
| KmsProbe.CountOperations | cost-management-api/metrics_awskms.py:59-62 | counting succeeds iff every event has a name, and raises KeyError otherwise |
| KmsProbe.CountOperationsTally | cost-management-api/metrics_awskms.py:59-62 | the counts are the zero counts bumped once per listed operation event |
| KmsProbe.ListedNamesListed | cost-management-api/metrics_awskms.py:61-62 | only the nine listed operation names are counted |
| KmsProbe.OperationKeys | cost-management-api/metrics_awskms.py:51-62 | no key beyond the nine operations is ever added |
| KmsProbe.OperationCount | cost-management-api/metrics_awskms.py:59-62 | each operation's count is its number of events |
| KmsProbe.OperationTotal | cost-management-api/metrics_awskms.py:59-62 | the counts add up to the number of listed operation events |
| KmsProbe.KeyOperations | cost-management-api/metrics_awskms.py:35-70 | the function always raises: AttributeError from `.items()` on the list once counting succeeds, KeyError before that |

## Left out

- The numerical libraries are parameters of the model, and their outputs are taken as given. The exceptions they raise themselves are not modelled, for example IsolationForest on NaN input or `adfuller` on a series that is too short:
  - isolation-forest fitting, scoring and prediction;
  - `adfuller`, `pacf`, `acf`;
  - ARIMA fitting and forecasting. The forecaster's result type (`Forecasting.Week`) holds the seven values `forecast(steps=7)` returns.
- The square-root/difference diagnostic block at the start of `ARIMA_model` (cost-management/methods.py:41-54) is left out. Its result is never used.
- The in-sample `Forecast` column added at cost-management/methods.py:82 is left out. Nothing reads it.
- Floating point: costs, scores and thresholds are `real`. The repeated 0.0001 decrement is exact and is not rounded.
- `str(float)` is a parameter (`show`) and is not modelled.
- Python's int/float distinction in a driver's initial value is not kept. compute_engine.py:12 passes the int `14`. Every forest score lies below it, so the search keeps that value and the source writes the ledger line `Compute Engine, 14`. The model holds 14.0 there, and for Compute Engine `show` stands for `str(int)`. Nothing reads that label, so nothing downstream changes.
- File and CSV I/O are modelled as the `Files` record:
  - `read_csv` and `to_csv` are not modelled;
  - the gzip merges `update_csv_aws` and `update_csv_gcp` are left out, and their effects are abstracted;
  - the long drop lists are data;
  - pandas' header reading of the ledger is replaced by "the lines whose first comma-separated field is the column". `outliers.csv` has no header line, so `pd.read_csv` takes its first line as the header and gives two columns. With that reading the API's start-up fails by its second lookup (`'AmazonEC2'`, cost-management-api/main.py:30) whatever the labels are. The line-label reading is the one the drivers' appends are evidently written for.
- An empty ledger stands for a missing `outliers.csv`.
- Dates are whole days, and `pd.to_datetime` is a parameter.
- `pd.date_range` is consecutive integers.
- Flask routing, `jsonify` and the dashboard are left out.
- The language-model prompts, the problem strings and the answer text are left out. A probe's verdict is returned as a finding value.
- The cloud clients are left out. Their responses and pagination are inputs:
  - `lookup` for CloudTrail, already restricted to the time window;
  - `now` for the clock. The model reads it once, whereas `datetime.now` is called again for every object the S3 storage-class check visits (cost-management-api/metrics_amazons3.py:40).
- The excluded probe modules are left out, and so are these functions: `identify_excessive_high_performance_use`, the NAT/VPN/traffic checks and the `check_*` orchestration of each probe. At the gate a probe's outcome, its answer or the exception it raises, is an input (`Alerts.Check`).
- The probes' response-level keys are assumed present, so their KeyErrors are not modelled: `Addresses`, `RouteTables`, `Routes`, `NetworkAcls`, `Entries`, `SecurityGroups`, `GroupId`, `IpPermissions`, `IpPermissionsEgress`, `VpcEndpoints`, `Keys`, `Events`, `Datapoints` and `Sum`.
- The `drop_duplicates` call on the raw AWS table (cost-management/data_processing.py:87) is left out. No output reads that table after the call.
- Grouping.GroupFirst: lists the groups in order of first appearance, whereas pandas sorts the group keys. The order is discarded by the later sort on `date`.
- Sorting.SortBy: pandas' default quicksort fixes no order for rows with equal keys. The model's insertion sort puts such rows in reverse input order, so the contract promises only sortedness and a permutation, never a tie order.
- Numbers.ParseIntAccepts: `int()` is modelled on ASCII digits with an optional sign. Surrounding whitespace, underscores and non-ASCII Unicode digits, all of which `int()` accepts, are not accepted.
- Tables.ToDatetime: a numeric cell becomes NaT, whereas `pd.to_datetime` reads it as nanoseconds since the epoch. The date columns the drivers convert hold text.
- Ledger.LatestEntry: its own contract only names the error. The promise that the value comes from the column's last line is stated by Ledger.LatestEntryFound.
- S3Probe.ObjectVersions: its contract is stated by S3Probe.GroupVersions and S3Probe.ObjectVersionsGrouped.
- Cleaning.GcpNet: its own contract gives only the length. The column-level promises are stated by Cleaning.ToNumeric, Cleaning.NetCost and Tables.DropColumns, which it chains.
- KmsProbe.CheckUnnecessaryKeyRotations: its contract is stated by KmsProbe.RotationCounts.
- The batch run is sequential and has no concurrency.

## Findings

| source | as written | input that shows it | evidently intended | confidence | as-written member | corrected member |
|---|---|---|---|---|---|---|
| cost-management/amazon_eks.py:16 | Five drivers write ledger labels that the API never reads: 'AmazpnEKS', 'AWSConfig', 'awskms', 'Compute Engine', 'Kubernetes Engine'. The API reads 'AmazonEKS', 'AwsConfig', 'AWSKMS', 'ComputeEngine', 'KubernetesEngine' (cost-management-api/main.py:31-37). | Under the ledger reading described in "## Left out" (a column's lines are those whose first field is its name): a ledger with no 'AmazonEKS' line, followed by a completed `main()`, makes API start-up raise KeyError('AmazonEKS'). With older lines present, those five thresholds stay stale forever. With pandas' own header reading of the headerless `outliers.csv`, start-up fails even earlier, at 'AmazonEC2'. | Each driver labels its line with the column the API reads. | not executed | Alerts.MainLinesStopApi | Alerts.CorrectedLinesFeedApi |

The as-written run is `Pipeline.MainStages`. `Alerts.StaleColumns` shows that the five API columns keep whatever the ledger held before the run. `Alerts.MainLinesStopApi` states the failure on the ledger alone: old lines without 'AmazonEKS', then the ten lines `main()` appends (`Pipeline.MainLedger`). `Alerts.FreshLedgerStopsApi` states it end to end, for a completed `main()`.

The corrected run is `Pipeline.CorrectedStages`, in which the drivers write the API's column names (`Pipeline.CorrectedLedgerNames`). `Alerts.CorrectedLedgerFeedsApi` proves that after it completes, API start-up succeeds with every threshold taken from a line that run appended. `Alerts.CorrectedLinesFeedApi` states the same on the ledger alone. Both halves hold under the line-label reading of the ledger; the API as written, which lets `pd.read_csv` take the first ledger line as its header, fails for any labels.

=== FILE: alerts.dfy ===
/** The alerting API (cost-management-api/main.py): at start-up it loads
    ten forecast files and the latest threshold of ten ledger columns; a
    request compares each of seven AWS services' forecasts with its
    threshold and calls that service's probe when some forecast exceeds
    it.  The probes' answers are parameters here. */
module Alerts {
  import opened Base
  import opened Dict
  import opened Tables
  import opened Forecasting
  import opened Ledger
  import opened World
  import opened Pipeline

  const LedgerFile := "outliers.csv"

  /** The forecast files loaded at start-up, in load order. */
  const ApiForecasts: seq<string> :=
    ["amazoncloudwatch", "amazonEC2", "amazonEKS", "amazonS3", "amazonVPC",
     "awsConfig", "awskms", "compute_engine", "kubernetes_engine", "networking"]

  /** The ledger columns the thresholds are read from, in the same order. */
  const ApiColumns: seq<string> :=
    ["AmazonCloudWatch", "AmazonEC2", "AmazonEKS", "AmazonS3", "AmazonVPC",
     "AwsConfig", "AWSKMS", "ComputeEngine", "KubernetesEngine", "Networking"]

  /** The response keys of the seven services a request checks. */
  const ResultKeys: seq<string> :=
    ["AmazonCloudWatch", "AmazonEC2", "AmazonEKS", "AmazonS3", "AmazonVPC", "AWSConfig", "AWSKMS"]

  /** What the API holds after start-up: per service its forecast rows and
      its threshold cell. */
  datatype Api = Api(forecasts: seq<seq<ForecastRow>>, thresholds: seq<Cell>)

  /** `pd.read_csv` of each forecast file in turn: the first missing one
      raises FileNotFoundError. */
  function LoadForecasts(files: map<string, seq<ForecastRow>>, names: seq<string>): (r: Result<seq<seq<ForecastRow>>>)
    ensures r.Ok? <==> forall i :: 0 <= i < |names| ==> ForecastFileName(names[i]) in files
    ensures r.Ok? ==> |r.value| == |names|
    ensures r.Ok? ==> forall i :: 0 <= i < |names| ==> r.value[i] == files[ForecastFileName(names[i])]
    ensures forall i :: FirstMissing(files, names, i) ==> r == Err(FileNotFoundError(ForecastFileName(names[i])))
  {
    if |names| == 0 then Ok([])
    else
      var file := ForecastFileName(names[0]);
      var rest := LoadForecasts(files, names[1..]);
      assert forall i :: 1 <= i < |names| ==> names[i] == names[1..][i - 1];
      if file !in files then Err(FileNotFoundError(file))
      else
        match rest
        case Err(e) =>
          assert exists i :: 1 <= i < |names| && ForecastFileName(names[i]) !in files;
          Err(e)
        case Ok(tables) => Ok([files[file]] + tables)
  }

  /** `names[i]` names the first forecast file that does not exist. */
  predicate FirstMissing(files: map<string, seq<ForecastRow>>, names: seq<string>, i: int)
  {
    && 0 <= i < |names| && ForecastFileName(names[i]) !in files
    && forall j :: 0 <= j < i ==> ForecastFileName(names[j]) in files
  }

  /** `columns[i]` is the first column without a ledger line. */
  predicate FirstAbsent(ledger: seq<string>, columns: seq<string>, i: int)
  {
    && 0 <= i < |columns| && LatestEntry(ledger, columns[i]).Err?
    && forall j :: 0 <= j < i ==> LatestEntry(ledger, columns[j]).Ok?
  }

  /** The threshold cell of a ledger value: a number if the value parses
      as one, otherwise the text itself. */
  function Threshold(text: string, parse: string -> Option<real>): (c: Cell)
    ensures c.Num? <==> parse(text).Some?
    ensures c.Num? ==> c.x == parse(text).value
  {
    match parse(text)
    case Some(x) => Num(x)
    case None => Str(text)
  }
  /** The threshold a driver appends, `name, str(x)`, reads back at
      start-up as the number `x` whenever the number parser reads back the
      text `str()` wrote (after the space that follows the comma). */
  lemma {:induction false} ThresholdReadsBack(ledger: seq<string>, name: string, x: real,
                                              show: real -> string, parse: string -> Option<real>)
    requires ',' !in name
    requires parse(" " + show(x)) == Some(x)
    ensures LatestEntry(ledger + [Line(name, show(x))], name).Ok?
    ensures Threshold(LatestEntry(ledger + [Line(name, show(x))], name).value, parse) == Num(x)
  {
    AppendIsLatest(ledger, name, show(x), name);
  }


  /** `outliers[column].iloc[-1]` for each column in turn: the first column
      without a line raises KeyError. */
  function LoadThresholds(ledger: seq<string>, columns: seq<string>, parse: string -> Option<real>): (r: Result<seq<Cell>>)
    ensures r.Ok? <==> forall i :: 0 <= i < |columns| ==> LatestEntry(ledger, columns[i]).Ok?
    ensures r.Ok? ==> |r.value| == |columns|
    ensures r.Ok? ==> forall i :: 0 <= i < |columns| ==>
      r.value[i] == Threshold(LatestEntry(ledger, columns[i]).value, parse)
    ensures forall i :: FirstAbsent(ledger, columns, i) ==> r == Err(KeyError(columns[i]))
  {
    if |columns| == 0 then Ok([])
    else
      var first := LatestEntry(ledger, columns[0]);
      var rest := LoadThresholds(ledger, columns[1..], parse);
      assert forall i :: 1 <= i < |columns| ==> columns[i] == columns[1..][i - 1];
      match first
      case Err(e) => Err(e)
      case Ok(text) =>
        match rest
        case Err(e) =>
          assert exists i :: 1 <= i < |columns| && LatestEntry(ledger, columns[i]).Err?;
          Err(e)
        case Ok(cells) => Ok([Threshold(text, parse)] + cells)
  }

  /** The module-level code of the API: the forecast files, then the ledger
      file, then the thresholds.  A ledger nobody has written to does not
      exist as a file. */
  function LoadApi(f: Files, parse: string -> Option<real>): (r: Result<Api>)
    ensures r.Ok? ==> |r.value.forecasts| == |ApiForecasts| && |r.value.thresholds| == |ApiColumns|
    ensures LoadForecasts(f.forecasts, ApiForecasts).Err? ==> r == LoadForecasts(f.forecasts, ApiForecasts).PropagateFailure()
    ensures LoadForecasts(f.forecasts, ApiForecasts).Ok? && |f.ledger| == 0 ==> r == Err(FileNotFoundError(LedgerFile))
    ensures LoadForecasts(f.forecasts, ApiForecasts).Ok? && |f.ledger| > 0 ==>
      (r.Ok? <==> LoadThresholds(f.ledger, ApiColumns, parse).Ok?)
    ensures LoadForecasts(f.forecasts, ApiForecasts).Ok? && |f.ledger| > 0 && r.Err? ==>
      r.error == LoadThresholds(f.ledger, ApiColumns, parse).error
    ensures r.Ok? ==> r.value.thresholds == LoadThresholds(f.ledger, ApiColumns, parse).value
  {
    var forecasts :- LoadForecasts(f.forecasts, ApiForecasts);
    if |f.ledger| == 0 then Err(FileNotFoundError(LedgerFile))
    else
      var thresholds :- LoadThresholds(f.ledger, ApiColumns, parse);
      Ok(Api(forecasts, thresholds))
  }

  /** One `if any(forecasts['forecast'] > threshold)` of a request, with
      what its probe `check_*()` would do when called: answer, or raise. */
  datatype Check<V> = Check(key: string, forecasts: seq<ForecastRow>, threshold: Cell, probe: Result<V>)

  /** Some forecast exceeds the (numeric) threshold. */
  predicate Overspent<V>(c: Check<V>)
  {
    c.threshold.Num? && exists i :: 0 <= i < |c.forecasts| && c.forecasts[i].forecast > c.threshold.x
  }

  /** The check raises: comparing with a threshold that is not a number is
      a TypeError, and an overspent service's probe may raise. */
  predicate Raises<V>(c: Check<V>)
  {
    !c.threshold.Num? || (Overspent(c) && c.probe.Err?)
  }

  /** What a raising check raises. */
  function Raised<V>(c: Check<V>): Failure
  {
    if !c.threshold.Num? then TypeError else if c.probe.Err? then c.probe.error else TypeError
  }

  /** Check `i` is the first check that raises. */
  predicate FirstRaising<V>(checks: seq<Check<V>>, i: int)
  {
    0 <= i < |checks| && Raises(checks[i]) && forall j :: 0 <= j < i ==> !Raises(checks[j])
  }

  /** The response `r` holds, under the key of each overspent check, the
      answer of one of the overspent checks with that key, and nothing else. */
  ghost predicate Answers<V>(r: Dict<string, V>, checks: seq<Check<V>>)
  {
    && Valid(r)
    && (forall k :: Get(r, k).Some? <==> exists i :: 0 <= i < |checks| && checks[i].key == k && Overspent(checks[i]))
    && (forall k :: Get(r, k).Some? ==>
          exists i :: 0 <= i < |checks| && checks[i].key == k && Overspent(checks[i]) && checks[i].probe == Ok(Get(r, k).value))
  }

  /** `compare_values()`: the checks in order; the first check that raises
      ends the request with its exception; otherwise the response holds
      the probe answer of exactly the overspent services. */
  function CompareValues<V>(checks: seq<Check<V>>): (r: Result<Dict<string, V>>)
    ensures r.Ok? <==> forall i :: 0 <= i < |checks| ==> !Raises(checks[i])
    ensures forall i :: FirstRaising(checks, i) ==> r == Err(Raised(checks[i]))
    ensures r.Ok? ==> Answers(r.value, checks)
  {
    if |checks| == 0 then Ok([])
    else
      var init := checks[..|checks| - 1];
      var c := checks[|checks| - 1];
      assert checks == init + [c];
      match CompareValues(init)
      case Err(e) =>
        assert forall i :: FirstRaising(checks, i) ==> FirstRaising(init, i);
        Err(e)
      case Ok(results) =>
        assert forall i :: FirstRaising(checks, i) ==> i == |checks| - 1;
        if !c.threshold.Num? then Err(TypeError)
        else if !Overspent(c) then
          AnswersStep(results, init, c);
          Ok(results)
        else
          match c.probe
          case Err(e) => Err(e)
          case Ok(answer) =>
            AnswersStep(results, init, c);
            Ok(Put(results, c.key, answer))
  }

  /** One more check keeps the response in step with the checks. */
  lemma {:induction false} AnswersStep<V>(r: Dict<string, V>, checks: seq<Check<V>>, c: Check<V>)
    requires Answers(r, checks) && !Raises(c)
    ensures Answers(if Overspent(c) then Put(r, c.key, c.probe.value) else r, checks + [c])
  {
    var all := checks + [c];
    var next := if Overspent(c) then Put(r, c.key, c.probe.value) else r;
    forall k
      ensures Get(next, k).Some? <==> exists i :: 0 <= i < |all| && all[i].key == k && Overspent(all[i])
      ensures Get(next, k).Some? ==>
        exists i :: 0 <= i < |all| && all[i].key == k && Overspent(all[i]) && all[i].probe == Ok(Get(next, k).value)
    {
      if Overspent(c) && k == c.key {
        assert all[|checks|] == c;
      } else {
        assert Get(next, k) == Get(r, k);
        if exists i :: 0 <= i < |all| && all[i].key == k && Overspent(all[i]) {
          var i :| 0 <= i < |all| && all[i].key == k && Overspent(all[i]);
          assert i < |checks| && all[i] == checks[i];
        }
        if Get(r, k).Some? {
          var i :| 0 <= i < |checks| && checks[i].key == k && Overspent(checks[i]) && checks[i].probe == Ok(Get(r, k).value);
          assert all[i] == checks[i];
        }
      }
    }
  }

  /** An overspent service whose probe raises fails the whole request:
      with the probe's exception when no earlier check raised. */
  lemma {:induction false} RaisingProbeFails<V>(checks: seq<Check<V>>, i: int)
    requires 0 <= i < |checks| && Overspent(checks[i]) && checks[i].probe.Err?
    ensures CompareValues(checks).Err?
    ensures (forall j :: 0 <= j < i ==> !Raises(checks[j])) ==> CompareValues(checks) == Err(checks[i].probe.error)
  {
    assert Raises(checks[i]);
    if forall j :: 0 <= j < i ==> !Raises(checks[j]) {
      assert FirstRaising(checks, i);
    }
  }

  /** The seven checks of a request, in the order the source makes them. */
  function ApiChecks<V>(api: Api, probes: seq<Result<V>>): (checks: seq<Check<V>>)
    requires |api.forecasts| == |ApiForecasts| && |api.thresholds| == |ApiColumns| && |probes| == |ResultKeys|
    ensures |checks| == |ResultKeys|
    ensures forall i :: 0 <= i < |checks| ==> checks[i] == Check(ResultKeys[i], api.forecasts[i], api.thresholds[i], probes[i])
  {
    seq(|ResultKeys|, i requires 0 <= i < |ResultKeys| => Check(ResultKeys[i], api.forecasts[i], api.thresholds[i], probes[i]))
  }

  /** No two checks share a response key. */
  predicate DistinctKeys<V>(checks: seq<Check<V>>)
  {
    forall i, j :: 0 <= i < j < |checks| ==> checks[i].key != checks[j].key
  }

  /** With distinct keys, every overspent service's answer is in the
      response under its key. */
  lemma {:induction false} OverspentAnswered<V>(checks: seq<Check<V>>, i: int)
    requires DistinctKeys(checks)
    requires CompareValues(checks).Ok? && 0 <= i < |checks| && Overspent(checks[i])
    ensures checks[i].probe.Ok? && Get(CompareValues(checks).value, checks[i].key) == Some(checks[i].probe.value)
  {
    var r := CompareValues(checks).value;
    var j :| 0 <= j < |checks| && checks[j].key == checks[i].key && Overspent(checks[j])
      && checks[j].probe == Ok(Get(r, checks[i].key).value);
    assert j == i;
  }

  /** The seven response keys are distinct. */
  lemma {:induction false} ResultKeysDistinct()
    ensures forall a, b :: 0 <= a < b < |ResultKeys| ==> ResultKeys[a] != ResultKeys[b]
  {
  }

  /** Since the seven response keys are distinct, a request's response has
      the answer of every overspent service under its key. */
  lemma {:induction false} RequestAnswers<V>(api: Api, probes: seq<Result<V>>, i: int)
    requires |api.forecasts| == |ApiForecasts| && |api.thresholds| == |ApiColumns| && |probes| == |ResultKeys|
    requires CompareValues(ApiChecks(api, probes)).Ok? && 0 <= i < |ResultKeys|
    requires Overspent(ApiChecks(api, probes)[i])
    ensures probes[i].Ok? && Get(CompareValues(ApiChecks(api, probes)).value, ResultKeys[i]) == Some(probes[i].value)
  {
    var checks := ApiChecks(api, probes);
    ResultKeysDistinct();
    assert DistinctKeys(checks) by {
      forall a, b | 0 <= a < b < |checks|
        ensures checks[a].key != checks[b].key
      {
        assert checks[a].key == ResultKeys[a] && checks[b].key == ResultKeys[b];
      }
    }
    OverspentAnswered(checks, i);
  }

  /** For each forecast file the API loads, the stage of `main()` whose
      driver writes it. */
  const ApiForecastStages: seq<int> := [3, 7, 4, 6, 5, 8, 9, 10, 11, 12]

  /** Every forecast file the API loads is the forecast file of a driver
      of `main()`. */
  lemma {:induction false} ApiForecastDrivers()
    ensures |ApiForecastStages| == |ApiForecasts|
    ensures forall i :: 0 <= i < |ApiForecasts| ==>
      && 0 <= ApiForecastStages[i] < |MainStages| && MainStages[ApiForecastStages[i]].Service?
      && MainStages[ApiForecastStages[i]].driver.forecastName == ApiForecasts[i]
  {
  }

  /** After a completed `main()` the API finds all ten forecast files. */
  lemma {:induction false} ApiForecastsWritten(f: Files, env: Env)
    requires Main(f, env).Completed?
    ensures LoadForecasts(Main(f, env).files.forecasts, ApiForecasts).Ok?
  {
    var files := Main(f, env).files.forecasts;
    CompletedForecasts(MainStages, f, env);
    ApiForecastDrivers();
    forall i | 0 <= i < |ApiForecasts|
      ensures ForecastFileName(ApiForecasts[i]) in files
    {
      var j := ApiForecastStages[i];
    }
  }

  /** Five of the ten columns the API reads are never written by `main()`:
      whatever the batch run does, they read what the ledger held before. */
  lemma {:induction false} StaleColumns(f: Files, env: Env)
    ensures forall c :: c in ["AmazonEKS", "AwsConfig", "AWSKMS", "ComputeEngine", "KubernetesEngine"] ==>
      LatestEntry(Main(f, env).files.ledger, c) == LatestEntry(f.ledger, c)
  {
    MainLedgerNames();
    MainCleanNames();
    StaleNames();
    forall c | c in ["AmazonEKS", "AwsConfig", "AWSKMS", "ComputeEngine", "KubernetesEngine"]
      ensures LatestEntry(Main(f, env).files.ledger, c) == LatestEntry(f.ledger, c)
    {
      UntouchedColumn(MainStages, f, env, c);
    }
  }

  /** None of the five columns the corrected labels name is among the
      labels `main()` writes. */
  lemma {:induction false} StaleNames()
    ensures forall c :: c in ["AmazonEKS", "AwsConfig", "AWSKMS", "ComputeEngine", "KubernetesEngine"] ==> c !in MainLedgerOrder
  {
  }

  /** The API fails to start with the KeyError of the first column it
      cannot find, once the forecast files and the ledger file exist. */
  lemma {:induction false} LoadApiMissingColumn(f: Files, parse: string -> Option<real>, i: int)
    requires LoadForecasts(f.forecasts, ApiForecasts).Ok? && |f.ledger| > 0
    requires FirstAbsent(f.ledger, ApiColumns, i)
    ensures LoadApi(f, parse) == Err(KeyError(ApiColumns[i]))
  {
  }

  /** After a completed `main()`, every column a driver of `main()` writes
      has a line. */
  lemma {:induction false} MainWritesColumn(f: Files, env: Env, column: string)
    requires Main(f, env).Completed? && column in MainLedgerOrder
    ensures LatestEntry(Main(f, env).files.ledger, column).Ok?
  {
    MainLedgerNames();
    MainCleanNames();
    ColumnWritten(MainStages, f, env, column);
  }

  /** The first two columns the API reads are written by `main()`; the
      third is not. */
  lemma {:induction false} FirstApiColumns()
    ensures ApiColumns[0] in MainLedgerOrder && ApiColumns[1] in MainLedgerOrder
    ensures ApiColumns[2] == "AmazonEKS"
  {
    assert ApiColumns[0] == MainLedgerOrder[0] && ApiColumns[1] == MainLedgerOrder[4];
  }

  /** After a completed `main()` the API finds its forecast files and a
      ledger file. */
  lemma {:induction false} MainFeedsFiles(f: Files, env: Env)
    requires Main(f, env).Completed?
    ensures LoadForecasts(Main(f, env).files.forecasts, ApiForecasts).Ok?
    ensures |Main(f, env).files.ledger| > 0
  {
    ApiForecastsWritten(f, env);
    MainLedger(f, env);
  }

  /** After a completed `main()` on a ledger without an 'AmazonEKS' line
      (a fresh one, say), the API cannot start: it raises KeyError for the
      third threshold it reads, because the EKS driver files its threshold
      under 'AmazpnEKS'. */
  lemma {:induction false} FreshLedgerStopsApi(f: Files, env: Env, parse: string -> Option<real>)
    requires Main(f, env).Completed?
    requires forall i :: 0 <= i < |f.ledger| ==> !FiledUnder(f.ledger[i], "AmazonEKS")
    ensures LoadApi(Main(f, env).files, parse) == Err(KeyError("AmazonEKS"))
  {
    var after := Main(f, env).files;
    FirstApiColumns();
    MainFeedsFiles(f, env);
    MainWritesColumn(f, env, ApiColumns[0]);
    MainWritesColumn(f, env, ApiColumns[1]);
    LatestEntryFound(f.ledger, "AmazonEKS");
    StaleColumns(f, env);
    assert LatestEntry(after.ledger, ApiColumns[2]).Err?;
    StopsAtThirdColumn(after, parse);
  }

  /** The step of the proof above that no longer needs the batch run. */
  lemma {:induction false} StopsAtThirdColumn(after: Files, parse: string -> Option<real>)
    requires LoadForecasts(after.forecasts, ApiForecasts).Ok? && |after.ledger| > 0
    requires LatestEntry(after.ledger, ApiColumns[0]).Ok? && LatestEntry(after.ledger, ApiColumns[1]).Ok?
    requires LatestEntry(after.ledger, ApiColumns[2]).Err?
    ensures LoadApi(after, parse) == Err(KeyError(ApiColumns[2]))
  {
    assert FirstAbsent(after.ledger, ApiColumns, 2);
    LoadApiMissingColumn(after, parse, 2);
  }

  /** The corrected run writes the same forecast files as `main()`. */
  lemma {:induction false} CorrectedForecastDrivers()
    ensures |ApiForecastStages| == |ApiForecasts|
    ensures forall i :: 0 <= i < |ApiForecasts| ==>
      && 0 <= ApiForecastStages[i] < |CorrectedStages| && CorrectedStages[ApiForecastStages[i]].Service?
      && CorrectedStages[ApiForecastStages[i]].driver.forecastName == ApiForecasts[i]
  {
  }

  /** Every column the API reads is one the corrected run writes. */
  lemma {:induction false} ApiColumnsCorrected()
    ensures forall k :: 0 <= k < |ApiColumns| ==> ApiColumns[k] in CorrectedLedgerOrder
  {
    var at := [0, 4, 1, 3, 2, 5, 6, 7, 8, 9];
    forall k | 0 <= k < |ApiColumns|
      ensures ApiColumns[k] in CorrectedLedgerOrder
    {
      assert ApiColumns[k] == CorrectedLedgerOrder[at[k]];
    }
  }

  /** After a completed corrected run, the API finds its forecast files. */
  lemma {:induction false} CorrectedFeedsFiles(f: Files, env: Env)
    requires Run(CorrectedStages, f, env).Completed?
    ensures LoadForecasts(Run(CorrectedStages, f, env).files.forecasts, ApiForecasts).Ok?
  {
    var files := Run(CorrectedStages, f, env).files.forecasts;
    CompletedForecasts(CorrectedStages, f, env);
    CorrectedForecastDrivers();
    forall i | 0 <= i < |ApiForecasts|
      ensures ForecastFileName(ApiForecasts[i]) in files
    {
      var j := ApiForecastStages[i];
    }
  }

  /** After a completed corrected run, every column the API reads has its
      latest line among the lines the run appended. */
  lemma {:induction false} CorrectedWritesColumn(f: Files, env: Env, column: string)
    requires Run(CorrectedStages, f, env).Completed? && column in CorrectedLedgerOrder
    ensures exists i :: |f.ledger| <= i && LatestAt(Run(CorrectedStages, f, env).files.ledger, column, i)
  {
    CorrectedLedgerNames();
    CorrectedCleanNames();
    ColumnWritten(CorrectedStages, f, env, column);
  }

  /** Line `i` of the ledger is the latest line of the API's `k`-th
      column, appended after the first `before` lines. */
  predicate FreshLine(before: nat, ledger: seq<string>, k: int, i: int)
  {
    0 <= k < |ApiColumns| && before <= i && LatestAt(ledger, ApiColumns[k], i)
  }

  /** The API's `k`-th column has its latest line after the first `before` lines. */
  predicate FreshColumn(before: nat, ledger: seq<string>, k: int)
  {
    exists i :: 0 <= i < |ledger| && FreshLine(before, ledger, k, i)
  }

  /** The API starts once the forecast files exist and every column has a
      line; each threshold is then the value of the latest line of its
      column. */
  lemma {:induction false} ApiReadsLatest(after: Files, parse: string -> Option<real>)
    requires LoadForecasts(after.forecasts, ApiForecasts).Ok? && |after.ledger| > 0
    requires forall k :: 0 <= k < |ApiColumns| ==> LatestEntry(after.ledger, ApiColumns[k]).Ok?
    ensures LoadApi(after, parse).Ok?
    ensures forall k, i :: 0 <= k < |ApiColumns| && LatestAt(after.ledger, ApiColumns[k], i) ==>
      LoadApi(after, parse).value.thresholds[k] == Threshold(ValueOf(after.ledger[i]), parse)
  {
    forall k, i | 0 <= k < |ApiColumns| && LatestAt(after.ledger, ApiColumns[k], i)
      ensures LoadApi(after, parse).value.thresholds[k] == Threshold(ValueOf(after.ledger[i]), parse)
    {
      LatestEntryFound(after.ledger, ApiColumns[k]);
      var j :| LatestAt(after.ledger, ApiColumns[k], j) && LatestEntry(after.ledger, ApiColumns[k]).value == ValueOf(after.ledger[j]);
      assert i == j;
    }
  }

  /** With the ledger names spelt as the API reads them, a completed batch
      run lets the API start, and every threshold it loads comes from the
      latest line of its column, which the run has just appended. */
  lemma {:induction false} CorrectedLedgerFeedsApi(f: Files, env: Env, parse: string -> Option<real>)
    requires Run(CorrectedStages, f, env).Completed?
    ensures LoadApi(Run(CorrectedStages, f, env).files, parse).Ok?
    ensures forall k :: 0 <= k < |ApiColumns| ==> FreshColumn(|f.ledger|, Run(CorrectedStages, f, env).files.ledger, k)
    ensures forall k, i :: 0 <= k < |ApiColumns| && LatestAt(Run(CorrectedStages, f, env).files.ledger, ApiColumns[k], i) ==>
      LoadApi(Run(CorrectedStages, f, env).files, parse).value.thresholds[k] ==
        Threshold(ValueOf(Run(CorrectedStages, f, env).files.ledger[i]), parse)
  {
    var after := Run(CorrectedStages, f, env).files;
    CorrectedFeedsFiles(f, env);
    ApiColumnsCorrected();
    forall k | 0 <= k < |ApiColumns|
      ensures FreshColumn(|f.ledger|, after.ledger, k)
      ensures LatestEntry(after.ledger, ApiColumns[k]).Ok?
    {
      CorrectedWritesColumn(f, env, ApiColumns[k]);
      var i :| |f.ledger| <= i && LatestAt(after.ledger, ApiColumns[k], i);
      LatestEntryFound(after.ledger, ApiColumns[k]);
      assert FreshLine(|f.ledger|, after.ledger, k, i);
    }
    assert LatestEntry(after.ledger, ApiColumns[0]).Ok?;
    ApiReadsLatest(after, parse);
  }

  /** The ledger `main()` leaves behind, read on its own: old lines, none
      filed under 'AmazonEKS', followed by one line per driver labelled as
      the drivers of `main()` label them. The API then stops with the
      KeyError of 'AmazonEKS'. */
  lemma {:induction false} MainLinesStopApi(after: Files, before: nat, parse: string -> Option<real>)
    requires forall i :: 0 <= i < |ApiForecasts| ==> ForecastFileName(ApiForecasts[i]) in after.forecasts
    requires |after.ledger| == before + |MainLedgerOrder|
    requires forall k :: 0 <= k < |MainLedgerOrder| ==> LabelOf(after.ledger[before + k]) == MainLedgerOrder[k]
    requires forall i :: 0 <= i < before ==> !FiledUnder(after.ledger[i], "AmazonEKS")
    ensures LoadApi(after, parse) == Err(KeyError("AmazonEKS"))
  {
    var ledger := after.ledger;
    FirstApiColumns();
    StaleNames();
    assert FiledUnder(ledger[before + 0], ApiColumns[0]);
    assert FiledUnder(ledger[before + 4], ApiColumns[1]);
    LatestEntryFound(ledger, ApiColumns[0]);
    LatestEntryFound(ledger, ApiColumns[1]);
    forall i | 0 <= i < |ledger|
      ensures !FiledUnder(ledger[i], "AmazonEKS")
    {
      if before <= i {
        assert LabelOf(ledger[before + (i - before)]) == MainLedgerOrder[i - before];
      }
    }
    LatestEntryFound(ledger, "AmazonEKS");
    StopsAtThirdColumn(after, parse);
  }

  /** The ledger the corrected run leaves behind, read on its own: any old
      lines followed by one line per driver labelled with the API's column
      names. The API then starts, and every threshold comes from the latest
      line of its column, which is one of the appended lines. */
  lemma {:induction false} CorrectedLinesFeedApi(after: Files, before: nat, parse: string -> Option<real>)
    requires forall i :: 0 <= i < |ApiForecasts| ==> ForecastFileName(ApiForecasts[i]) in after.forecasts
    requires |after.ledger| == before + |CorrectedLedgerOrder|
    requires forall k :: 0 <= k < |CorrectedLedgerOrder| ==> LabelOf(after.ledger[before + k]) == CorrectedLedgerOrder[k]
    ensures LoadApi(after, parse).Ok?
    ensures forall k :: 0 <= k < |ApiColumns| ==> FreshColumn(before, after.ledger, k)
    ensures forall k, i :: 0 <= k < |ApiColumns| && LatestAt(after.ledger, ApiColumns[k], i) ==>
      LoadApi(after, parse).value.thresholds[k] == Threshold(ValueOf(after.ledger[i]), parse)
  {
    var ledger := after.ledger;
    var at := [0, 4, 1, 3, 2, 5, 6, 7, 8, 9];
    forall k | 0 <= k < |ApiColumns|
      ensures FreshColumn(before, ledger, k)
      ensures LatestEntry(ledger, ApiColumns[k]).Ok?
    {
      assert ApiColumns[k] == CorrectedLedgerOrder[at[k]];
      assert FiledUnder(ledger[before + at[k]], ApiColumns[k]);
      LatestEntryFound(ledger, ApiColumns[k]);
      var i :| LatestAt(ledger, ApiColumns[k], i) && LatestEntry(ledger, ApiColumns[k]).value == ValueOf(ledger[i]);
      assert FreshLine(before, ledger, k, i);
    }
    ApiReadsLatest(after, parse);
  }
}

=== FILE: base.dfy ===
/** Shared vocabulary: the exceptions the Python code can raise, a result
    type that carries them, and a few sequence folds used by every module. */
module Base {

  /** The Python exceptions that the modelled code can raise. */
  datatype Failure =
    | KeyError(key: string)
    | ZeroDivisionError
    | ValueError(what: string)
    | AttributeError(name: string)
    | TypeError
    | IndexError
    | UnboundLocalError(name: string)
    | FileNotFoundError(path: string)

  datatype Option<+T> = None | Some(value: T)

  /** Either a value or the exception that aborted the computation. */
  datatype Result<+T> = Ok(value: T) | Err(error: Failure) {
    predicate IsFailure() { Err? }

    function PropagateFailure<U>(): Result<U>
      requires Err?
    {
      Err(error)
    }

    function Extract(): T
      requires Ok?
    {
      value
    }
  }

  /** Sum of a sequence of integers. */
  function SumInts(s: seq<int>): int
  {
    if |s| == 0 then 0 else SumInts(s[..|s| - 1]) + s[|s| - 1]
  }

  /** The items of all pages of a paginated listing, page by page. */
  function Flatten<T>(pages: seq<seq<T>>): seq<T>
  {
    if |pages| == 0 then [] else Flatten(pages[..|pages| - 1]) + pages[|pages| - 1]
  }

  /** Sum of a sequence of reals (Python's `sum` over floats, without rounding). */
  function SumReals(s: seq<real>): real
  {
    if |s| == 0 then 0.0 else SumReals(s[..|s| - 1]) + s[|s| - 1]
  }

  lemma {:induction false} SumIntsAppend(a: seq<int>, b: seq<int>)
    ensures SumInts(a + b) == SumInts(a) + SumInts(b)
    decreases |b|
  {
    if |b| == 0 {
      assert a + b == a;
    } else {
      assert (a + b)[..|a + b| - 1] == a + b[..|b| - 1];
      SumIntsAppend(a, b[..|b| - 1]);
    }
  }

  lemma {:induction false} SumRealsAppend(a: seq<real>, b: seq<real>)
    ensures SumReals(a + b) == SumReals(a) + SumReals(b)
    decreases |b|
  {
    if |b| == 0 {
      assert a + b == a;
    } else {
      assert (a + b)[..|a + b| - 1] == a + b[..|b| - 1];
      SumRealsAppend(a, b[..|b| - 1]);
    }
  }

  /** All elements of the sequence are distinct. */
  predicate Distinct<T(==)>(s: seq<T>)
  {
    forall i, j :: 0 <= i < j < |s| ==> s[i] != s[j]
  }

  /** No two elements of the sequence agree on `f`. */
  predicate DistinctBy<T, K(==)>(s: seq<T>, f: T -> K)
  {
    forall i, j :: 0 <= i < j < |s| ==> f(s[i]) != f(s[j])
  }

  /** Reordering a sequence cannot make two of its elements agree on `f`. */
  lemma {:induction false} PermutationKeepsDistinctBy<T, K>(a: seq<T>, b: seq<T>, f: T -> K)
    requires multiset(a) == multiset(b)
    requires DistinctBy(b, f)
    ensures DistinctBy(a, f)
    decreases |a|
  {
    if |a| > 0 {
      var n := |a| - 1;
      var x := a[n];
      assert x in multiset(b);
      var k :| 0 <= k < |b| && b[k] == x;
      var b' := RemoveAt(b, k, f);
      DropLast(a, b, b');
      PermutationKeepsDistinctBy(a[..n], b', f);
      forall i | 0 <= i < n
        ensures f(a[i]) != f(x)
      {
        assert a[i] == a[..n][i];
        assert a[i] in multiset(b');
      }
    }
  }

  lemma {:induction false} DropLast<T>(a: seq<T>, b: seq<T>, b': seq<T>)
    requires |a| > 0 && multiset(a) == multiset(b) == multiset(b') + multiset{a[|a| - 1]}
    ensures multiset(a[..|a| - 1]) == multiset(b')
  {
    assert a == a[..|a| - 1] + [a[|a| - 1]];
    var x := multiset{a[|a| - 1]};
    assert multiset(a) == multiset(a[..|a| - 1]) + x;
    assert multiset(a[..|a| - 1]) == multiset(a) - x;
    assert multiset(b') == (multiset(b') + x) - x;
  }

  /** `b` without its `k`-th element: the multiset loses that element, the
      rest stay distinct on `f`, and none agrees with the removed one. */
  lemma {:induction false} RemoveAt<T, K>(b: seq<T>, k: int, f: T -> K) returns (b': seq<T>)
    requires 0 <= k < |b| && DistinctBy(b, f)
    ensures multiset(b) == multiset(b') + multiset{b[k]}
    ensures DistinctBy(b', f)
    ensures forall x :: x in b' ==> f(x) != f(b[k])
  {
    b' := b[..k] + b[k + 1..];
    assert b == b[..k] + [b[k]] + b[k + 1..];
    SkipIndex(b, k);
    forall i, j | 0 <= i < j < |b'|
      ensures f(b'[i]) != f(b'[j])
    {
      assert b'[i] == b[Skip(i, k)] && b'[j] == b[Skip(j, k)];
    }
    forall x | x in b'
      ensures f(x) != f(b[k])
    {
      var m :| 0 <= m < |b'| && b'[m] == x;
      assert b[Skip(m, k)] == x;
    }
  }

  /** Position in the original sequence of position `i` once position `k`
      is dropped. */
  function Skip(i: nat, k: nat): (j: nat)
    ensures j != k && (i < j <==> k <= i)
  {
    if i < k then i else i + 1
  }

  lemma {:induction false} SkipIndex<T>(b: seq<T>, k: int)
    requires 0 <= k < |b|
    ensures forall i :: 0 <= i < |b| - 1 ==> (b[..k] + b[k + 1..])[i] == b[Skip(i, k)]
  {
  }

  /** Reordering a sequence without repeats leaves it without repeats. */
  lemma {:induction false} PermutationKeepsDistinct<T>(a: seq<T>, b: seq<T>)
    requires multiset(a) == multiset(b) && Distinct(b)
    ensures Distinct(a)
  {
    PermutationKeepsDistinctBy(a, b, (x: T) => x);
  }

  /** Index of the first `ch` in `s`, or |s| if there is none. */
  function IndexOf(s: string, ch: char): (k: nat)
    ensures k <= |s|
    ensures forall j :: 0 <= j < k ==> s[j] != ch
    ensures k < |s| ==> s[k] == ch
  {
    if |s| == 0 then 0
    else if s[0] == ch then 0
    else 1 + IndexOf(s[1..], ch)
  }

  /** `s.split(ch)[0]`: the text before the first `ch`. */
  function Before(s: string, ch: char): string
  {
    s[..IndexOf(s, ch)]
  }

  /** Splitting `a + ch + b` at the first `ch` gives back `a` and `b` when
      `a` holds no `ch`. */
  lemma {:induction false} SplitAtFirst(a: string, ch: char, b: string)
    requires ch !in a
    ensures IndexOf(a + [ch] + b, ch) == |a|
    ensures Before(a + [ch] + b, ch) == a
    ensures (a + [ch] + b)[|a| + 1..] == b
  {
    var s := a + [ch] + b;
    assert s[|a|] == ch;
    assert forall j :: 0 <= j < |a| ==> s[j] == a[j];
    assert s[..|a|] == a;
  }

  /** `m[k]` on a Python dict: the value, or a KeyError naming `k`. */
  function Lookup<V>(m: map<string, V>, k: string): (r: Result<V>)
    ensures r.Ok? <==> k in m
    ensures r.Ok? ==> r.value == m[k]
    ensures r.Err? ==> r.error == KeyError(k)
  {
    if k in m then Ok(m[k]) else Err(KeyError(k))
  }

  /** `record[name]` on a field of a response record that may be absent. */
  function Field<T>(field: Option<T>, name: string): (r: Result<T>)
    ensures r.Ok? <==> field.Some?
    ensures r.Ok? ==> r.value == field.value
    ensures r.Err? ==> r.error == KeyError(name)
  {
    if field.Some? then Ok(field.value) else Err(KeyError(name))
  }

  /** Result `i` is the first failure in `rs`. */
  predicate FirstErr<T>(rs: seq<Result<T>>, i: int)
  {
    0 <= i < |rs| && rs[i].Err? && forall j :: 0 <= j < i ==> rs[j].Ok?
  }

  /** A loop whose steps can each raise: the values of all steps, or the
      exception of the first step that raised. */
  function AllOk<T>(rs: seq<Result<T>>): (r: Result<seq<T>>)
    ensures r.Ok? <==> forall i :: 0 <= i < |rs| ==> rs[i].Ok?
    ensures r.Ok? ==> |r.value| == |rs| && forall i :: 0 <= i < |rs| ==> r.value[i] == rs[i].value
    ensures r.Err? ==> exists i :: FirstErr(rs, i) && r.error == rs[i].error
  {
    if |rs| == 0 then Ok([])
    else
      var init := rs[..|rs| - 1];
      assert forall i :: 0 <= i < |init| ==> init[i] == rs[i];
      var prev := AllOk(init);
      if prev.Err? then
        assert exists i :: FirstErr(rs, i) && prev.error == rs[i].error by {
          var i :| FirstErr(init, i) && prev.error == init[i].error;
          assert FirstErr(rs, i);
        }
        Err(prev.error)
      else if rs[|rs| - 1].Err? then
        assert FirstErr(rs, |rs| - 1);
        Err(rs[|rs| - 1].error)
      else
        Ok(prev.value + [rs[|rs| - 1].value])
  }

  /** Result `i` is the first one that found something (or raised). */
  predicate FirstHitAt<F(==)>(rs: seq<Result<Option<F>>>, i: int)
  {
    0 <= i < |rs| && rs[i] != Ok(None) && forall j :: 0 <= j < i ==> rs[j] == Ok(None)
  }

  /** A loop that returns from inside on the first element that is flagged
      (or raises): the result of that element, or nothing when every
      element passed. */
  function FirstHit<F(==)>(rs: seq<Result<Option<F>>>): (r: Result<Option<F>>)
    ensures r == Ok(None) <==> forall i :: 0 <= i < |rs| ==> rs[i] == Ok(None)
    ensures r != Ok(None) ==> exists i :: FirstHitAt(rs, i) && r == rs[i]
  {
    if |rs| == 0 then Ok(None)
    else if rs[0] != Ok(None) then
      assert FirstHitAt(rs, 0);
      rs[0]
    else
      var tail := rs[1..];
      var r := FirstHit(tail);
      assert forall i :: 0 <= i < |tail| ==> tail[i] == rs[i + 1];
      assert r != Ok(None) ==> exists i :: FirstHitAt(rs, i) && r == rs[i] by {
        if r != Ok(None) {
          var i :| FirstHitAt(tail, i) && r == tail[i];
          assert FirstHitAt(rs, i + 1);
        }
      }
      r
  }
}

=== FILE: calibration.dfy ===
/** The outlier-threshold calibrator of `anomaly_detection`
    (cost-management/methods.py).  The isolation forest itself is foreign:
    its per-point decision scores and ±1 predictions come in as a `Fit`.
    What is modelled is the accuracy ratio and the bounded threshold search. */
module Calibration {
  import opened Base
  import opened Tables

  /** `IsolationForest.predict`: 1 for an inlier, -1 for an outlier. */
  datatype Label = Inlier | Outlier

  /** One point's `decision_function` score and `predict` label. */
  datatype Scored = Scored(score: real, prediction: Label)

  type Fit = seq<Scored>

  /** The amount the search lowers the threshold by on every iteration. */
  const Step: real := 0.0001

  /** The result of one calibration: final threshold, the accuracy reached
      there, and how many decrements were made. */
  datatype Calibration = Calibration(threshold: real, accuracy: real, iterations: nat)

  /** Number of points whose score is strictly below `t`. */
  function CountBelow(fit: Fit, t: real): nat
  {
    if |fit| == 0 then 0
    else CountBelow(fit[..|fit| - 1], t) + (if fit[|fit| - 1].score < t then 1 else 0)
  }

  /** Number of points the forest labels -1. */
  function CountOutliers(fit: Fit): nat
  {
    if |fit| == 0 then 0
    else CountOutliers(fit[..|fit| - 1]) + (if fit[|fit| - 1].prediction == Outlier then 1 else 0)
  }

  /** `evaluate_accuracy(t)`: 0 when no score is below `t`; otherwise the
      count below `t` as a percentage of the outlier count, a division that
      is not guarded against an empty outlier set. */
  function Accuracy(fit: Fit, t: real): Result<real>
  {
    var below := CountBelow(fit, t);
    if below == 0 then Ok(0.0)
    else if CountOutliers(fit) == 0 then Err(ZeroDivisionError)
    else Ok(100.0 * below as real / CountOutliers(fit) as real)
  }

  /** The threshold after `k` decrements from `initial`. */
  function ThresholdAt(initial: real, k: nat): real
  {
    initial - k as real * Step
  }

  /** At the `k`-th threshold the accuracy was computed and fell short of the target. */
  predicate Missed(fit: Fit, initial: real, target: real, k: nat)
  {
    var a := Accuracy(fit, ThresholdAt(initial, k));
    a.Ok? && a.value < target
  }

  /** Raising the threshold never lowers the number of points below it. */
  lemma {:induction false} CountBelowMonotone(fit: Fit, t1: real, t2: real)
    requires t1 <= t2
    ensures CountBelow(fit, t1) <= CountBelow(fit, t2)
    decreases |fit|
  {
    if |fit| > 0 {
      CountBelowMonotone(fit[..|fit| - 1], t1, t2);
    }
  }

  /** A lower threshold never has a higher accuracy: each decrement of the
      search can only keep or lower the accuracy. */
  lemma {:induction false} AccuracyMonotone(fit: Fit, t1: real, t2: real)
    requires t1 <= t2
    requires Accuracy(fit, t1).Ok? && Accuracy(fit, t2).Ok?
    ensures Accuracy(fit, t1).value <= Accuracy(fit, t2).value
  {
    CountBelowMonotone(fit, t1, t2);
    var b1, b2 := CountBelow(fit, t1), CountBelow(fit, t2);
    if b1 > 0 {
      var n := CountOutliers(fit) as real;
      assert n > 0.0;
      assert 100.0 * b1 as real <= 100.0 * b2 as real;
      DivideMonotone(100.0 * b1 as real, 100.0 * b2 as real, n);
    }
  }

  lemma {:induction false} DivideMonotone(x: real, y: real, n: real)
    requires x <= y && n > 0.0
    ensures x / n <= y / n
  {
    assert y / n - x / n == (y - x) / n;
  }

  /** The while loop of `anomaly_detection`, as tail recursion: `outlier` is
      the current threshold, `acc` its accuracy, `iterations` the decrements
      made so far. */
  function Search(fit: Fit, initial: real, target: real, maxIter: nat,
                  outlier: real, acc: real, iterations: nat): (r: Result<Calibration>)
    requires iterations <= maxIter
    requires outlier == ThresholdAt(initial, iterations)
    requires Accuracy(fit, outlier) == Ok(acc)
    requires forall k :: 0 <= k < iterations ==> Missed(fit, initial, target, k)
    ensures r.Ok? ==> iterations <= r.value.iterations <= maxIter
    ensures r.Ok? ==> r.value.threshold == ThresholdAt(initial, r.value.iterations)
    ensures r.Ok? ==> Accuracy(fit, r.value.threshold) == Ok(r.value.accuracy)
    ensures r.Ok? ==> r.value.accuracy >= target || r.value.iterations == maxIter
    ensures r.Ok? ==> forall k :: 0 <= k < r.value.iterations ==> Missed(fit, initial, target, k)
    ensures r.Err? ==> r.error == ZeroDivisionError
    ensures CountOutliers(fit) > 0 || CountBelow(fit, outlier) == 0 ==> r.Ok?
    decreases maxIter - iterations
  {
    if acc < target && iterations < maxIter then
      var next := outlier - Step;
      assert next == ThresholdAt(initial, iterations + 1);
      CountBelowMonotone(fit, next, outlier);
      match Accuracy(fit, next)
      case Err(e) => Err(e)
      case Ok(a) =>
        assert Missed(fit, initial, target, iterations);
        Search(fit, initial, target, maxIter, next, a, iterations + 1)
    else
      Ok(Calibration(outlier, acc, iterations))
  }

  /** `anomaly_detection`'s search: evaluate the initial threshold, then
      lower it by `Step` while the accuracy is below the target and the
      budget is not spent.  The result is the first threshold on that path
      that reaches the target, or the one reached when the budget runs out;
      the only failure is the unguarded division, which happens exactly when
      the forest labels no point -1 yet some score lies below the initial
      threshold. */
  function Calibrate(fit: Fit, initial: real, target: real, maxIter: nat): (r: Result<Calibration>)
    ensures r.Ok? ==> r.value.iterations <= maxIter
    ensures r.Ok? ==> r.value.threshold == ThresholdAt(initial, r.value.iterations)
    ensures r.Ok? ==> Accuracy(fit, r.value.threshold) == Ok(r.value.accuracy)
    ensures r.Ok? ==> r.value.accuracy >= target || r.value.iterations == maxIter
    ensures r.Ok? ==> forall k :: 0 <= k < r.value.iterations ==> Missed(fit, initial, target, k)
    ensures r.Err? <==> CountOutliers(fit) == 0 && CountBelow(fit, initial) > 0
    ensures r.Err? ==> r.error == ZeroDivisionError
  {
    assert initial == ThresholdAt(initial, 0);
    match Accuracy(fit, initial)
    case Err(e) => Err(e)
    case Ok(a) => Search(fit, initial, target, maxIter, initial, a, 0)
  }

  /** If the initial threshold already misses the target, the search can
      never recover (lowering the threshold never raises the accuracy), so
      it always spends the whole budget. */
  lemma {:induction false} BelowTargetExhaustsBudget(fit: Fit, initial: real, target: real, maxIter: nat)
    requires Missed(fit, initial, target, 0)
    ensures Calibrate(fit, initial, target, maxIter).Ok?
    ensures Calibrate(fit, initial, target, maxIter).value.iterations == maxIter
    ensures Calibrate(fit, initial, target, maxIter).value.accuracy < target
  {
    var c := Calibrate(fit, initial, target, maxIter).value;
    assert ThresholdAt(initial, 0) == initial;
    assert c.threshold <= initial;
    AccuracyMonotone(fit, c.threshold, initial);
  }

  /** The same search written as the source's while loop. */
  method CalibrateLoop(fit: Fit, initial: real, target: real, maxIter: nat) returns (r: Result<Calibration>)
    ensures r == Calibrate(fit, initial, target, maxIter)
  {
    var outlier := initial;
    var accuracy := Accuracy(fit, outlier);
    if accuracy.Err? {
      return Err(accuracy.error);
    }
    var acc := accuracy.value;
    var iterations: nat := 0;
    assert outlier == ThresholdAt(initial, 0);
    while acc < target && iterations < maxIter
      invariant iterations <= maxIter
      invariant outlier == ThresholdAt(initial, iterations)
      invariant Accuracy(fit, outlier) == Ok(acc)
      invariant forall k :: 0 <= k < iterations ==> Missed(fit, initial, target, k)
      invariant Search(fit, initial, target, maxIter, outlier, acc, iterations) == Calibrate(fit, initial, target, maxIter)
      decreases maxIter - iterations
    {
      assert Missed(fit, initial, target, iterations);
      outlier := outlier - Step;
      accuracy := Accuracy(fit, outlier);
      if accuracy.Err? {
        return Err(accuracy.error);
      }
      acc := accuracy.value;
      iterations := iterations + 1;
    }
    return Ok(Calibration(outlier, acc, iterations));
  }

  /** The name of the column the scores are stored in. */
  const ScoresColumn := "scores"
  /** The name of the column the ±1 predictions are stored in. */
  const AnomalyColumn := "anomaly"

  function LabelCell(l: Label): Cell
  {
    if l == Inlier then Num(1.0) else Num(-1.0)
  }

  /** Calls the scorer on `column` of `t`. */
  function ScoreColumn(t: Table, column: string, scorer: seq<Cell> -> Fit): Result<Fit>
  {
    match Column(t, column)
    case Err(e) => Err(e)
    case Ok(cells) => Ok(scorer(cells))
  }

  /** `anomaly_detection(dataset, column, initial, target, max_iterations)`:
      fits the forest on `column` alone (`scorer`), stores the scores and
      the ±1 predictions as two new columns, and runs the threshold search.
      The table is changed in those two columns only.  A scorer that does
      not return one score per row makes the column assignment fail. */
  function AnomalyDetection(t: Table, column: string, scorer: seq<Cell> -> Fit,
                            initial: real, target: real, maxIter: nat): (r: Result<(Table, Calibration)>)
    ensures !HasColumn(t, column) ==> r == Err(KeyError(column))
    ensures HasColumn(t, column) && |ScoreColumn(t, column, scorer).value| != |t| ==> r.Err? && r.error.ValueError?
    ensures HasColumn(t, column) && |ScoreColumn(t, column, scorer).value| == |t| ==>
      (r.Ok? <==> Calibrate(ScoreColumn(t, column, scorer).value, initial, target, maxIter).Ok?)
    ensures r.Ok? ==> Ok(r.value.1) == Calibrate(ScoreColumn(t, column, scorer).value, initial, target, maxIter)
    ensures r.Ok? ==> |r.value.0| == |t|
    ensures r.Ok? ==> forall i :: 0 <= i < |t| ==>
      && r.value.0[i].Keys == t[i].Keys + {ScoresColumn, AnomalyColumn}
      && r.value.0[i][AnomalyColumn] in {Num(1.0), Num(-1.0)}
      && forall c :: c in t[i] && c != ScoresColumn && c != AnomalyColumn ==> r.value.0[i][c] == t[i][c]
  {
    match ScoreColumn(t, column, scorer)
    case Err(e) => Err(e)
    case Ok(fit) =>
      if |fit| != |t| then Err(ValueError("Length of values does not match length of index"))
      else
        match Calibrate(fit, initial, target, maxIter)
        case Err(e) => Err(e)
        case Ok(c) => Ok((Annotate(t, fit), c))
  }

  /** The table with the two columns the forest writes. */
  function Annotate(t: Table, fit: Fit): (r: Table)
    requires |fit| == |t|
    ensures |r| == |t|
    ensures forall i :: 0 <= i < |t| ==>
      && r[i].Keys == t[i].Keys + {ScoresColumn, AnomalyColumn}
      && r[i][ScoresColumn] == Num(fit[i].score)
      && r[i][AnomalyColumn] == LabelCell(fit[i].prediction)
      && forall c :: c in t[i] && c != ScoresColumn && c != AnomalyColumn ==> r[i][c] == t[i][c]
  {
    var scores := seq(|fit|, i requires 0 <= i < |fit| => Num(fit[i].score));
    var labels := seq(|fit|, i requires 0 <= i < |fit| => LabelCell(fit[i].prediction));
    SetColumn(SetColumn(t, ScoresColumn, scores), AnomalyColumn, labels)
  }
}

=== FILE: cleaning.dfy ===
/** `data_processing` (cost-management/data_processing.py): turns the two
    merged billing exports into the cleaned reports the drivers read.  AWS:
    missing numbers become 0, unused columns go, the hour-stamped interval
    becomes a day, line items are collapsed to one row per (day, product,
    region), the net cost is computed and zero-cost rows are dropped.  GCP:
    the cost columns are parsed as numbers, the net cost is computed and
    repeated rows are dropped.  Both reports end sorted by day. */
module Cleaning {
  import opened Base
  import opened Tables
  import opened Grouping
  import opened Sorting

  /** The columns dropped from the AWS export. */
  const AwsUnused: seq<string> :=
    ["bill_bill_type", "bill_billing_entity", "bill_invoice_id", "bill_invoicing_entity",
     "bill_payer_account_id", "bill_payer_account_name", "bill_billing_period_end_date",
     "bill_billing_period_start_date", "cost_category", "discount", "identity_line_item_id",
     "line_item_availability_zone", "line_item_currency_code", "line_item_line_item_type",
     "line_item_net_unblended_cost", "line_item_net_unblended_rate",
     "line_item_normalization_factor", "split_line_item_net_split_cost",
     "split_line_item_net_unused_cost", "split_line_item_parent_resource_id",
     "split_line_item_public_on_demand_split_cost", "split_line_item_public_on_demand_unused_cost",
     "split_line_item_reserved_usage", "split_line_item_split_cost", "split_line_item_split_usage",
     "split_line_item_split_usage_ratio", "split_line_item_unused_cost",
     "line_item_normalized_usage_amount", "savings_plan_purchase_term",
     "savings_plan_recurring_commitment_for_billing_period", "line_item_tax_type",
     "savings_plan_offering_type", "savings_plan_payment_option", "savings_plan_region",
     "savings_plan_savings_plan_a_r_n", "savings_plan_savings_plan_effective_cost",
     "split_line_item_actual_usage", "savings_plan_used_commitment",
     "savings_plan_total_commitment_to_date", "savings_plan_start_time",
     "savings_plan_savings_plan_rate", "savings_plan_net_savings_plan_effective_cost",
     "reservation_unused_normalized_unit_quantity", "reservation_unused_quantity",
     "reservation_unused_recurring_fee", "reservation_upfront_value", "resource_tags",
     "savings_plan_amortized_upfront_commitment_for_billing_period", "savings_plan_end_time",
     "savings_plan_instance_type_family",
     "savings_plan_net_amortized_upfront_commitment_for_billing_period",
     "savings_plan_net_recurring_commitment_for_billing_period",
     "reservation_normalized_units_per_reservation", "reservation_number_of_reservations",
     "reservation_recurring_fee_for_usage", "reservation_reservation_a_r_n",
     "reservation_start_time", "reservation_subscription_id",
     "reservation_net_amortized_upfront_fee_for_billing_period", "reservation_net_effective_cost",
     "reservation_net_recurring_fee_for_usage",
     "reservation_net_unused_amortized_upfront_fee_for_billing_period",
     "reservation_unused_amortized_upfront_fee_for_billing_period",
     "reservation_units_per_reservation", "reservation_total_reserved_units",
     "reservation_total_reserved_normalized_units", "reservation_net_upfront_value",
     "reservation_net_unused_recurring_fee", "reservation_net_amortized_upfront_cost_for_usage",
     "reservation_modification_status", "reservation_end_time", "reservation_effective_cost",
     "reservation_availability_zone", "reservation_amortized_upfront_fee_for_billing_period",
     "reservation_amortized_upfront_cost_for_usage", "product_sku", "product_to_location_type",
     "product_product_family", "product_pricing_unit", "product_operation",
     "product_location_type", "product_instancesku", "product_instance_type",
     "product_instance_family", "product_from_region_code", "product_from_location_type",
     "product_from_location", "product_fee_code", "product_fee_description", "product_comment",
     "product", "pricing_unit", "pricing_term", "pricing_rate_id", "pricing_rate_code",
     "pricing_purchase_option", "pricing_public_on_demand_cost", "pricing_public_on_demand_rate",
     "pricing_offering_class", "pricing_lease_contract_length", "pricing_currency",
     "line_item_usage_type", "line_item_usage_start_date", "line_item_usage_end_date",
     "line_item_usage_account_name", "line_item_unblended_rate"]
  const GcpSubtotals: seq<string> := ["Subtotal (€)", "Unrounded subtotal (€)"]

  /** The hour-stamped interval of an AWS line item and the day cut from it. */
  const Interval := "identity_time_interval"
  const Day := "date"
  /** The columns an AWS row is keyed by after cleaning. */
  const AwsKeys: seq<string> := [Day, "line_item_product_code", "product_region_code"]
  /** The net AWS cost and the three columns it is computed from. */
  const AwsCost := "cost"
  const AwsCostParts := CostParts("line_item_blended_cost", "discount_bundled_discount", "discount_total_discount")
  /** The net GCP cost and the three columns it is computed from. */
  const GcpCost := "Cost"
  const GcpCostParts := CostParts("Cost (€)", "Discounts (€)", "Promotions and others (€)")
  const GcpDay := "Date"

  // ---------------------------------------------------------------- AWS steps

  /** A column pandas reads as numeric: every row has it and it holds only
      numbers and missing values. */
  predicate NumericColumn(t: Table, c: string)
  {
    HasColumn(t, c) && forall i :: 0 <= i < |t| ==> t[i][c].Num? || t[i][c].NaN?
  }

  /** Lines 9-10: the missing values of the numeric columns become 0.0;
      nothing else changes. */
  function FillNumeric(t: Table): (r: Table)
    ensures |r| == |t|
    ensures forall i :: 0 <= i < |t| ==> r[i].Keys == t[i].Keys
    ensures forall c :: NumericColumn(t, c) ==> forall i :: 0 <= i < |t| ==> r[i][c].Num?
    ensures forall i, c :: 0 <= i < |t| && c in t[i] && !t[i][c].NaN? ==> r[i][c] == t[i][c]
    ensures forall i, c :: 0 <= i < |t| && c in t[i] && !NumericColumn(t, c) ==> r[i][c] == t[i][c]
  {
    seq(|t|, i requires 0 <= i < |t| =>
      map c | c in t[i] :: if t[i][c].NaN? && NumericColumn(t, c) then Num(0.0) else t[i][c])
  }

  /** Filling twice is filling once: the numeric columns stay numeric and
      have nothing left to fill, the others are still not numeric. */
  lemma {:induction false} FillNumericIdempotent(t: Table)
    ensures FillNumeric(FillNumeric(t)) == FillNumeric(t)
  {
    var once := FillNumeric(t);
    var twice := FillNumeric(once);
    forall c
      ensures NumericColumn(once, c) <==> NumericColumn(t, c)
    {
      if !NumericColumn(t, c) && HasColumn(t, c) {
        var i :| 0 <= i < |t| && !(t[i][c].Num? || t[i][c].NaN?);
        assert once[i][c] == t[i][c];
      }
    }
    forall i | 0 <= i < |t|
      ensures twice[i] == once[i]
    {
      forall c | c in once[i]
        ensures twice[i][c] == once[i][c]
      {
        if !once[i][c].NaN? {
        } else {
          assert !NumericColumn(t, c);
        }
      }
    }
  }

  /** Line 54: `date` is the interval's text before its first 'T'.  A
      missing interval column is a KeyError; a cell that is not text (a
      float NaN) has no `split`, an AttributeError. */
  function SplitDates(t: Table): (r: Result<Table>)
    ensures !HasColumn(t, Interval) ==> r == Err(KeyError(Interval))
    ensures HasColumn(t, Interval) ==> (r.Ok? <==> forall i :: 0 <= i < |t| ==> t[i][Interval].Str?)
    ensures HasColumn(t, Interval) && r.Err? ==> r.error == AttributeError("split")
    ensures r.Ok? ==> |r.value| == |t| && forall i :: 0 <= i < |t| ==>
      && r.value[i].Keys == t[i].Keys + {Day}
      && r.value[i][Day] == Str(Before(t[i][Interval].text, 'T'))
      && forall c :: c in t[i] && c != Day ==> r.value[i][c] == t[i][c]
  {
    if !HasColumn(t, Interval) then Err(KeyError(Interval))
    else if exists i :: 0 <= i < |t| && !t[i][Interval].Str? then Err(AttributeError("split"))
    else Ok(SetColumn(t, Day, seq(|t|, i requires 0 <= i < |t| => Str(Before(t[i][Interval].text, 'T')))))
  }

  // ---------------------------------------------------------------- net cost

  /** Text (or a day) cannot take part in float arithmetic. */
  predicate Textual(c: Cell)
  {
    c.Str? || c.Date?
  }

  /** `a + b` or `a - b` on two cells of a float column. */
  function Arith(a: Cell, b: Cell, subtract: bool): Result<Cell>
  {
    if Textual(a) || Textual(b) then Err(TypeError)
    else if a.NaN? || b.NaN? then Ok(NaN)
    else Ok(Num(if subtract then a.x - b.x else a.x + b.x))
  }

  /** `total - (less1 + less2)` on one row: the net of three numbers, a
      missing value if any is missing, a TypeError if any is text. */
  function NetCell(total: Cell, less1: Cell, less2: Cell): (r: Result<Cell>)
    ensures r == Err(TypeError) <==> Textual(total) || Textual(less1) || Textual(less2)
    ensures total.Num? && less1.Num? && less2.Num? ==> r == Ok(Num(total.x - (less1.x + less2.x)))
    ensures !Textual(total) && !Textual(less1) && !Textual(less2) && (total.NaN? || less1.NaN? || less2.NaN?) ==>
      r == Ok(NaN)
  {
    var sum :- Arith(less1, less2, false);
    Arith(total, sum, true)
  }

  /** The three columns a net cost is computed from: `total - (less1 + less2)`. */
  datatype CostParts = CostParts(total: string, less1: string, less2: string)

  predicate HasParts(row: Row, p: CostParts)
  {
    p.total in row && p.less1 in row && p.less2 in row
  }

  /** The row's net cost. */
  function NetOf(row: Row, p: CostParts): Result<Cell>
    requires HasParts(row, p)
  {
    NetCell(row[p.total], row[p.less1], row[p.less2])
  }

  function NetCells(t: Table, p: CostParts): (r: Result<seq<Cell>>)
    requires forall i :: 0 <= i < |t| ==> HasParts(t[i], p)
    ensures r.Ok? <==> forall i :: 0 <= i < |t| ==> NetOf(t[i], p).Ok?
    ensures r.Err? ==> r.error == TypeError
    ensures r.Ok? ==> |r.value| == |t| && forall i :: 0 <= i < |t| ==> Ok(r.value[i]) == NetOf(t[i], p)
  {
    if |t| == 0 then Ok([])
    else
      var init := t[..|t| - 1];
      assert forall i :: 0 <= i < |init| ==> init[i] == t[i];
      var cells :- NetCells(init, p);
      var last :- NetOf(t[|t| - 1], p);
      Ok(cells + [last])
  }

  /** Lines 61-62 and 75-77: `df[out] = df[total] - (df[less1] + df[less2])`.
      The columns are looked up in that order (the first missing one is a
      KeyError); then the column is computed row by row. */
  function NetCost(t: Table, p: CostParts, out: string): (r: Result<Table>)
    ensures !HasColumn(t, p.total) ==> r == Err(KeyError(p.total))
    ensures HasColumn(t, p.total) && !HasColumn(t, p.less1) ==> r == Err(KeyError(p.less1))
    ensures HasColumn(t, p.total) && HasColumn(t, p.less1) && !HasColumn(t, p.less2) ==> r == Err(KeyError(p.less2))
    ensures HasColumn(t, p.total) && HasColumn(t, p.less1) && HasColumn(t, p.less2) ==>
      (r.Ok? <==> forall i :: 0 <= i < |t| ==> NetOf(t[i], p).Ok?)
    ensures r.Ok? ==> |r.value| == |t| && forall i :: 0 <= i < |t| ==>
      && HasParts(t[i], p)
      && r.value[i].Keys == t[i].Keys + {out}
      && Ok(r.value[i][out]) == NetOf(t[i], p)
      && forall c :: c in t[i] && c != out ==> r.value[i][c] == t[i][c]
  {
    if !HasColumn(t, p.total) then Err(KeyError(p.total))
    else if !HasColumn(t, p.less1) then Err(KeyError(p.less1))
    else if !HasColumn(t, p.less2) then Err(KeyError(p.less2))
    else
      var cells :- NetCells(t, p);
      Ok(SetColumn(t, out, cells))
  }

  function PartNames(p: CostParts): seq<string>
  {
    [p.total, p.less1, p.less2]
  }

  // ---------------------------------------------------------------- GCP steps

  /** `pd.to_numeric(..., errors='coerce')` on one cell: text that parses
      becomes the number, other text becomes missing; numbers and missing
      values stay as they are. */
  function NumericCell(c: Cell, parse: string -> Option<real>): (r: Cell)
    ensures c.Str? ==> (r.Num? || r.NaN?)
    ensures c.Num? || c.NaN? ==> r == c
  {
    match c
    case Str(s) => (match parse(s) case Some(x) => Num(x) case None => NaN)
    case _ => c
  }

  /** Lines 70-72, one column: a KeyError if it is missing, otherwise the
      column converted cell by cell. */
  function ToNumeric(t: Table, c: string, parse: string -> Option<real>): (r: Result<Table>)
    ensures r.Ok? <==> HasColumn(t, c)
    ensures r.Err? ==> r.error == KeyError(c)
    ensures r.Ok? ==> |r.value| == |t| && forall i :: 0 <= i < |t| ==>
      && r.value[i].Keys == t[i].Keys
      && r.value[i][c] == NumericCell(t[i][c], parse)
      && forall c' :: c' in t[i] && c' != c ==> r.value[i][c'] == t[i][c']
  {
    if !HasColumn(t, c) then Err(KeyError(c))
    else Ok(seq(|t|, i requires 0 <= i < |t| => t[i][c := NumericCell(t[i][c], parse)]))
  }

  /** Lines 70-82: the three cost columns parsed, their net stored as
      `Cost`, and the three dropped. */
  function GcpNet(t: Table, parse: string -> Option<real>): (r: Result<Table>)
    ensures r.Ok? ==> |r.value| == |t|
  {
    var t1 :- ToNumeric(t, GcpCostParts.total, parse);
    var t2 :- ToNumeric(t1, GcpCostParts.less1, parse);
    var t3 :- ToNumeric(t2, GcpCostParts.less2, parse);
    var t4 :- NetCost(t3, GcpCostParts, GcpCost);
    DropColumns(t4, PartNames(GcpCostParts))
  }

  // ---------------------------------------------------------------- zero filter

  /** Line 83: the rows whose `c` is not 0.  A missing value is not equal to
      0, so rows with a missing cost stay. */
  function NonZeroRows(t: Table, c: string): (r: Table)
    requires HasColumn(t, c)
    ensures HasColumn(r, c)
    ensures forall row :: row in r <==> row in t && row[c] != Num(0.0)
    ensures |r| <= |t|
  {
    if |t| == 0 then []
    else
      var init := t[..|t| - 1];
      var last := t[|t| - 1];
      assert forall row :: row in t <==> row in init || row == last;
      if last[c] != Num(0.0) then NonZeroRows(init, c) + [last] else NonZeroRows(init, c)
  }

  /** Dropping rows cannot make two rows share a key. */
  lemma {:induction false} NonZeroKeepsUniqueKeys(t: Table, c: string, keys: seq<string>)
    requires HasColumn(t, c) && UniqueKeys(t, keys)
    ensures UniqueKeys(NonZeroRows(t, c), keys)
  {
    if |t| > 0 {
      var init := t[..|t| - 1];
      var last := t[|t| - 1];
      assert forall i :: 0 <= i < |init| ==> init[i] == t[i];
      NonZeroKeepsUniqueKeys(init, c, keys);
      var prev := NonZeroRows(init, c);
      forall row | row in prev
        ensures KeyOf(row, keys) != KeyOf(last, keys)
      {
        var i :| 0 <= i < |init| && init[i] == row;
      }
    }
  }

  // ---------------------------------------------------------------- keys kept

  /** Two rows agree on the key columns. */
  predicate SameKeyCells(a: Row, b: Row, keys: seq<string>)
  {
    forall j :: 0 <= j < |keys| ==> (keys[j] in a <==> keys[j] in b) && (keys[j] in a ==> a[keys[j]] == b[keys[j]])
  }

  /** Rows that agree on the key columns have the same key. */
  lemma {:induction false} SameKeyOf(a: Row, b: Row, keys: seq<string>)
    requires SameKeyCells(a, b, keys)
    ensures KeyOf(a, keys) == KeyOf(b, keys)
  {
    forall j | 0 <= j < |keys|
      ensures KeyOf(a, keys)[j] == KeyOf(b, keys)[j]
    {
    }
  }

  /** A row-by-row change that leaves the key columns alone keeps keys unique. */
  lemma {:induction false} SameKeysKeepUnique(a: Table, b: Table, keys: seq<string>)
    requires |a| == |b| && UniqueKeys(b, keys)
    requires forall i :: 0 <= i < |a| ==> SameKeyCells(a[i], b[i], keys)
    ensures UniqueKeys(a, keys)
  {
    forall i | 0 <= i < |a|
      ensures KeyOf(a[i], keys) == KeyOf(b[i], keys)
    {
      SameKeyOf(a[i], b[i], keys);
    }
  }

  // ---------------------------------------------------------------- the whole step

  /** Dropping columns other than the key columns keeps keys unique. */
  lemma {:induction false} DropKeepsUniqueKeys(t: Table, cols: seq<string>, keys: seq<string>)
    requires UniqueKeys(t, keys) && DropColumns(t, cols).Ok?
    requires forall j :: 0 <= j < |keys| ==> keys[j] !in cols
    ensures UniqueKeys(DropColumns(t, cols).value, keys)
  {
    var r := DropColumns(t, cols).value;
    forall i | 0 <= i < |t|
      ensures SameKeyCells(r[i], t[i], keys)
    {
      assert r[i].Keys == t[i].Keys - (set c | c in cols);
    }
    SameKeysKeepUnique(r, t, keys);
  }

  /** Adding the net cost column keeps keys unique. */
  lemma {:induction false} NetCostKeepsUniqueKeys(t: Table, parts: CostParts, out: string, keys: seq<string>)
    requires UniqueKeys(t, keys) && NetCost(t, parts, out).Ok?
    requires out !in keys
    ensures UniqueKeys(NetCost(t, parts, out).value, keys)
  {
    var r := NetCost(t, parts, out).value;
    assert forall i :: 0 <= i < |t| ==> SameKeyCells(r[i], t[i], keys);
    SameKeysKeepUnique(r, t, keys);
  }

  /** Lines 10 and 14-58: the export grouped to one row per (day, product,
      region). */
  function AwsGrouped(t: Table): (r: Result<Table>)
  {
    var t1 :- DropColumns(FillNumeric(t), AwsUnused);
    var t2 :- SplitDates(t1);
    var g :- GroupFirst(t2, AwsKeys);
    DropColumns(g, [Interval])
  }

  /** The key columns are neither dropped nor overwritten by the later AWS
      steps (some names have equal lengths, so a differing character is
      pointed out). */
  lemma {:induction false} AwsKeysKept()
    ensures forall j :: 0 <= j < |AwsKeys| ==> AwsKeys[j] !in [Interval]
    ensures forall j :: 0 <= j < |AwsKeys| ==> AwsKeys[j] !in PartNames(AwsCostParts)
    ensures AwsCost !in AwsKeys
    ensures AwsCost !in PartNames(AwsCostParts)
  {
    assert AwsKeys[0][0] == 'd' && AwsKeys[1][0] == 'l' && AwsKeys[2][0] == 'p';
    assert Interval[0] == 'i' && AwsCostParts.less1[0] == 'd' && AwsCostParts.less2[0] == 'd';
    assert AwsKeys[1][10] == 'p' && AwsCostParts.total[10] == 'b';
    assert AwsCost[0] == 'c' && AwsCostParts.total[0] == 'l';
  }

  /** The grouped AWS export has at most one row per (day, product, region). */
  lemma {:induction false} AwsGroupedUnique(t: Table)
    requires AwsGrouped(t).Ok?
    ensures UniqueKeys(AwsGrouped(t).value, AwsKeys)
  {
    var t1 := DropColumns(FillNumeric(t), AwsUnused).value;
    var t2 := SplitDates(t1).value;
    var g := GroupFirst(t2, AwsKeys).value;
    assert AwsGrouped(t) == DropColumns(g, [Interval]);
    AwsKeysKept();
    DropKeepsUniqueKeys(g, [Interval], AwsKeys);
  }

  /** Lines 10 and 14-67: the export collapsed to one row per (day,
      product, region) carrying its net cost. */
  function AwsDaily(t: Table): Result<Table>
  {
    var g :- AwsGrouped(t);
    var n :- NetCost(g, AwsCostParts, AwsCost);
    DropColumns(n, PartNames(AwsCostParts))
  }

  /** Every daily AWS row carries a net cost, and no two share a (day,
      product, region). */
  lemma {:induction false} AwsDailyShape(t: Table)
    requires AwsDaily(t).Ok?
    ensures UniqueKeys(AwsDaily(t).value, AwsKeys)
    ensures HasColumn(AwsDaily(t).value, AwsCost)
  {
    var g := AwsGrouped(t).value;
    AwsGroupedUnique(t);
    AwsKeysKept();
    var n := NetCost(g, AwsCostParts, AwsCost).value;
    NetCostKeepsUniqueKeys(g, AwsCostParts, AwsCost, AwsKeys);
    var names := PartNames(AwsCostParts);
    assert AwsDaily(t) == DropColumns(n, names);
    DropKeepsUniqueKeys(n, names, AwsKeys);
    var r := AwsDaily(t).value;
    forall i | 0 <= i < |r|
      ensures AwsCost in r[i]
    {
      assert r[i].Keys == n[i].Keys - (set c | c in names);
      assert AwsCost !in names;
    }
  }

  /** Line 83 and 90, the AWS half of the output. */
  function AwsReport(daily: Table): Result<Table>
  {
    if !HasColumn(daily, AwsCost) then Err(KeyError(AwsCost))
    else SortBy(NonZeroRows(daily, AwsCost), Day)
  }

  /** Lines 86 and 91, the GCP half of the output. */
  function GcpReport(net: Table): Result<Table>
  {
    SortBy(DropDuplicates(net), GcpDay)
  }

  /** `data_processing()`: the cleaned AWS and GCP reports, or the first
      exception in source order. */
  function DataProcessing(rawAws: Table, rawGcp: Table, parse: string -> Option<real>): (r: Result<(Table, Table)>)
  {
    var gcp :- DropColumns(rawGcp, GcpSubtotals);
    var daily :- AwsDaily(rawAws);
    var net :- GcpNet(gcp, parse);
    var aws :- AwsReport(daily);
    var gcpSorted :- GcpReport(net);
    Ok((aws, gcpSorted))
  }

  /** The cleaned AWS report is sorted by day, has a non-zero cost in every
      row and at most one row per (day, product, region), and holds exactly
      the daily rows whose cost is not 0. */
  lemma {:induction false} AwsReportShape(daily: Table)
    requires HasColumn(daily, AwsCost) && UniqueKeys(daily, AwsKeys)
    requires AwsReport(daily).Ok?
    ensures SortedBy(AwsReport(daily).value, Day)
    ensures UniqueKeys(AwsReport(daily).value, AwsKeys)
    ensures forall row :: row in AwsReport(daily).value <==> row in daily && row[AwsCost] != Num(0.0)
    ensures forall i :: 0 <= i < |AwsReport(daily).value| ==>
      AwsCost in AwsReport(daily).value[i] && AwsReport(daily).value[i][AwsCost] != Num(0.0)
  {
    var kept := NonZeroRows(daily, AwsCost);
    var r := AwsReport(daily).value;
    assert multiset(r) == multiset(kept);
    NonZeroKeepsUniqueKeys(daily, AwsCost, AwsKeys);
    PermutationKeepsUniqueKeys(r, kept, AwsKeys);
    forall row
      ensures row in r <==> row in kept
    {
      assert row in r <==> row in multiset(r);
    }
    forall i | 0 <= i < |r|
      ensures AwsCost in r[i] && r[i][AwsCost] != Num(0.0)
    {
      assert r[i] in kept;
      assert r[i] in daily && r[i][AwsCost] != Num(0.0);
    }
  }

  /** The cleaned GCP report is sorted by day, has no repeated row, and
      holds exactly the distinct rows of the net-cost table. */
  lemma {:induction false} GcpReportShape(net: Table)
    requires GcpReport(net).Ok?
    ensures SortedBy(GcpReport(net).value, GcpDay)
    ensures Distinct(GcpReport(net).value)
    ensures forall row :: row in GcpReport(net).value <==> row in net
  {
    var unique := DropDuplicates(net);
    var r := GcpReport(net).value;
    assert multiset(r) == multiset(unique);
    PermutationKeepsDistinct(r, unique);
    forall row
      ensures row in r <==> row in unique
    {
      assert row in r <==> row in multiset(r);
    }
  }

  /** What `data_processing()` promises of the two reports it writes. */
  lemma {:induction false} DataProcessingShape(rawAws: Table, rawGcp: Table, parse: string -> Option<real>)
    requires DataProcessing(rawAws, rawGcp, parse).Ok?
    ensures var (aws, gcp) := DataProcessing(rawAws, rawGcp, parse).value;
      && SortedBy(aws, Day) && UniqueKeys(aws, AwsKeys)
      && (forall i :: 0 <= i < |aws| ==> AwsCost in aws[i] && aws[i][AwsCost] != Num(0.0))
      && (forall row :: row in aws <==> row in AwsDaily(rawAws).value && row[AwsCost] != Num(0.0))
      && SortedBy(gcp, GcpDay) && Distinct(gcp)
      && (forall row :: row in gcp <==> row in GcpNet(DropColumns(rawGcp, GcpSubtotals).value, parse).value)
  {
    var gcp := DropColumns(rawGcp, GcpSubtotals).value;
    var daily := AwsDaily(rawAws).value;
    var net := GcpNet(gcp, parse).value;
    AwsDailyShape(rawAws);
    assert DataProcessing(rawAws, rawGcp, parse).value == (AwsReport(daily).value, GcpReport(net).value);
    AwsReportShape(daily);
    GcpReportShape(net);
  }
}

=== FILE: dict.dfy ===
/** Python dictionaries keep their keys in insertion order, and several of
    the modelled functions report "the first key in insertion order".  A
    dictionary is therefore modelled as a list of (key, value) pairs with
    distinct keys: assigning to an existing key updates its value in place,
    assigning to a new key appends it. */
module Dict {
  import opened Base

  type Dict<K, V> = seq<(K, V)>

  function Keys<K, V>(d: Dict<K, V>): (ks: seq<K>)
    ensures |ks| == |d|
    ensures forall i :: 0 <= i < |d| ==> ks[i] == d[i].0
  {
    if |d| == 0 then [] else Keys(d[..|d| - 1]) + [d[|d| - 1].0]
  }

  /** The well-formedness invariant of a dictionary: no key twice. */
  predicate Valid<K(==), V>(d: Dict<K, V>)
  {
    Distinct(Keys(d))
  }

  /** `d.get(k)`: the value stored under `k`, if any. */
  function Get<K(==), V>(d: Dict<K, V>, k: K): (r: Option<V>)
    ensures r.Some? <==> k in Keys(d)
    ensures r.Some? ==> exists i :: 0 <= i < |d| && d[i] == (k, r.value)
  {
    if |d| == 0 then None
    else if d[|d| - 1].0 == k then Some(d[|d| - 1].1)
    else Get(d[..|d| - 1], k)
  }

  /** `d[k] = v`. */
  function Put<K(==, !new), V>(d: Dict<K, V>, k: K, v: V): (r: Dict<K, V>)
    ensures Keys(r) == if k in Keys(d) then Keys(d) else Keys(d) + [k]
    ensures Valid(d) ==> Valid(r)
    ensures Valid(d) ==> Get(r, k) == Some(v)
    ensures forall k' :: k' != k ==> Get(r, k') == Get(d, k')
  {
    if k in Keys(d) then Replace(d, k, v)
    else
      var r := d + [(k, v)];
      assert Keys(r) == Keys(d) + [k];
      assert r[..|r| - 1] == d;
      r
  }

  /** The value of every pair with key `k` replaced by `v`, in place. */
  function Replace<K(==, !new), V>(d: Dict<K, V>, k: K, v: V): (r: Dict<K, V>)
    ensures Keys(r) == Keys(d)
    ensures forall k' :: k' != k ==> Get(r, k') == Get(d, k')
    ensures k in Keys(d) ==> Get(r, k) == Some(v)
  {
    if |d| == 0 then []
    else
      var r := Replace(d[..|d| - 1], k, v) + [if d[|d| - 1].0 == k then (k, v) else d[|d| - 1]];
      assert r[..|r| - 1] == Replace(d[..|d| - 1], k, v);
      r
  }

  /** In a valid dictionary the pair at position `i` is what `Get` finds. */
  lemma {:induction false} GetAt<K, V>(d: Dict<K, V>, i: int)
    requires Valid(d)
    requires 0 <= i < |d|
    ensures Get(d, d[i].0) == Some(d[i].1)
    decreases |d|
  {
    if i < |d| - 1 {
      assert Keys(d[..|d| - 1]) == Keys(d)[..|d| - 1];
      assert Keys(d)[i] != Keys(d)[|d| - 1];
      GetAt(d[..|d| - 1], i);
    }
  }

  /** `for k, v in pairs: d[k] = v`, starting from an empty dictionary. */
  function FromPairs<K(==, !new), V>(ps: seq<(K, V)>): (d: Dict<K, V>)
    ensures Valid(d)
    ensures forall k :: k in Keys(d) <==> Assigned(ps, k)
  {
    if |ps| == 0 then []
    else
      var init := ps[..|ps| - 1];
      var last := ps[|ps| - 1];
      var prev := FromPairs(init);
      var d := Put(prev, last.0, last.1);
      AssignedSnoc(init, last);
      assert ps == init + [last];
      d
  }

  /** Some pair assigns key `k`. */
  predicate Assigned<K(==), V>(ps: seq<(K, V)>, k: K)
  {
    exists i :: 0 <= i < |ps| && ps[i].0 == k
  }

  lemma {:induction false} AssignedSnoc<K, V>(ps: seq<(K, V)>, p: (K, V))
    ensures forall k :: Assigned(ps + [p], k) <==> Assigned(ps, k) || k == p.0
  {
    var qs := ps + [p];
    forall k ensures Assigned(qs, k) <==> Assigned(ps, k) || k == p.0 {
      if Assigned(ps, k) {
        var i :| 0 <= i < |ps| && ps[i].0 == k;
        assert qs[i].0 == k;
      }
      if k == p.0 {
        assert qs[|ps|].0 == k;
      }
      if Assigned(qs, k) {
        var i :| 0 <= i < |qs| && qs[i].0 == k;
        if i < |ps| { assert ps[i].0 == k; }
      }
    }
  }

  /** Pair `i` is the last one assigning its key. */
  predicate LastAssigned<K(==), V>(ps: seq<(K, V)>, i: int)
  {
    0 <= i < |ps| && forall j :: i < j < |ps| ==> ps[j].0 != ps[i].0
  }

  /** The later assignment to a key overwrites the earlier one. */
  lemma {:induction false} FromPairsLastWins<K(!new), V>(ps: seq<(K, V)>, i: int)
    requires LastAssigned(ps, i)
    ensures Get(FromPairs(ps), ps[i].0) == Some(ps[i].1)
  {
    var init := ps[..|ps| - 1];
    if i < |ps| - 1 {
      assert LastAssigned(init, i);
      FromPairsLastWins(init, i);
    }
  }

  /** `d.get(k, default)`. */
  function GetOr<K(==), V>(d: Dict<K, V>, k: K, default: V): (v: V)
    ensures Get(d, k).Some? ==> v == Get(d, k).value
    ensures Get(d, k).None? ==> v == default
  {
    match Get(d, k)
    case Some(v) => v
    case None => default
  }

  /** The distinct elements of a sequence in the order of their first
      appearance -- the key order of a dictionary filled from it. */
  function Unique<K(==, !new)>(s: seq<K>): (u: seq<K>)
    ensures Distinct(u)
    ensures forall x :: x in u <==> x in s
  {
    if |s| == 0 then []
    else
      var prev := Unique(s[..|s| - 1]);
      assert forall x :: x in s <==> x in s[..|s| - 1] || x == s[|s| - 1] by {
        assert s == s[..|s| - 1] + [s[|s| - 1]];
      }
      if s[|s| - 1] in prev then prev else prev + [s[|s| - 1]]
  }

  /** `d.setdefault(k, []).extend(vs)`. */
  function Extend<K(==, !new), V>(d: Dict<K, seq<V>>, k: K, vs: seq<V>): (r: Dict<K, seq<V>>)
  {
    Put(d, k, GetOr(d, k, []) + vs)
  }

  /** Extending the list of each key in turn, starting from an empty
      dictionary (a `defaultdict(list)` filled by `extend`). */
  function GroupConcat<K(==, !new), V>(ps: seq<(K, seq<V>)>): (d: Dict<K, seq<V>>)
    ensures Valid(d)
  {
    if |ps| == 0 then []
    else Extend(GroupConcat(ps[..|ps| - 1]), ps[|ps| - 1].0, ps[|ps| - 1].1)
  }

  /** Reference definition: everything given for key `k`, in order. */
  function Collected<K(==), V>(ps: seq<(K, seq<V>)>, k: K): seq<V>
  {
    if |ps| == 0 then []
    else Collected(ps[..|ps| - 1], k) + (if ps[|ps| - 1].0 == k then ps[|ps| - 1].1 else [])
  }

  /** The grouped dictionary lists its keys in order of first appearance. */
  lemma {:induction false} GroupConcatKeys<K(!new), V>(ps: seq<(K, seq<V>)>)
    ensures Keys(GroupConcat(ps)) == Unique(Keys(ps))
  {
    if |ps| > 0 {
      var init := ps[..|ps| - 1];
      GroupConcatKeys(init);
    }
  }

  /** The list under each key is the concatenation, in order, of what was
      given for that key. */
  lemma {:induction false} GroupConcatValues<K(!new), V>(ps: seq<(K, seq<V>)>, k: K)
    ensures Get(GroupConcat(ps), k) == if k in Keys(ps) then Some(Collected(ps, k)) else None
  {
    if |ps| > 0 {
      var init := ps[..|ps| - 1];
      var last := ps[|ps| - 1];
      var d0 := GroupConcat(init);
      GroupConcatValues(init, k);
      assert Keys(ps) == Keys(init) + [last.0];
      assert GroupConcat(ps) == Put(d0, last.0, GetOr(d0, last.0, []) + last.1);
      if last.0 != k {
        assert (k in Keys(ps)) == (k in Keys(init));
        assert Get(GroupConcat(ps), k) == Get(d0, k);
        assert Collected(ps, k) == Collected(init, k);
        if k in Keys(init) {
          assert Get(d0, k) == Some(Collected(init, k));
        } else {
          assert Get(d0, k) == None;
        }
      } else {
        if k !in Keys(init) { CollectedAbsent(init, k); }
        assert GetOr(d0, k, []) == Collected(init, k);
        assert Collected(ps, k) == Collected(init, k) + last.1;
        assert k in Keys(ps);
        assert Get(GroupConcat(ps), k) == Some(Collected(ps, k));
      }
    } else {
      assert Keys(ps) == [];
    }
  }

  lemma {:induction false} CollectedAbsent<K, V>(ps: seq<(K, seq<V>)>, k: K)
    requires k !in Keys(ps)
    ensures Collected(ps, k) == []
  {
    if |ps| > 0 {
      CollectedAbsent(ps[..|ps| - 1], k);
    }
  }
}

=== FILE: drivers.dfy ===
/** The ten per-service drivers (cost-management/amazon_*.py, aws_config.py,
    awskms.py, compute_engine.py, kubernetes_engine.py, networking.py).
    They share one shape -- pick the service's group of the cleaned report,
    drop two columns (AWS only), calibrate the outlier threshold, append it
    to the ledger, convert the date column and write a seven-day forecast --
    and differ only in the constants recorded in a `Driver`. */
module Drivers {
  import opened Base
  import opened Tables
  import opened Calibration
  import opened Forecasting
  import opened Ledger
  import opened World

  /** Which cleaned report a driver reads. */
  datatype Source = AwsReport | GcpReport

  /** The arguments of one `anomaly_detection` call. */
  datatype Run = Run(initial: real, target: real, maxIter: nat)

  datatype Driver = Driver(
    source: Source,
    groupColumn: string,      // the groupby column, also passed on as `servicecode`
    key: string,              // the group the driver selects
    dropped: seq<string>,     // the columns dropped from the group
    value: string,            // the cost column
    date: string,             // the date column
    warmup: Option<Run>,      // a calibration whose result is thrown away
    run: Run,                 // the calibration whose threshold is recorded
    ledgerName: string,       // the name written in front of the threshold
    forecastName: string)     // the `servicecode_name` of the forecast file

  const AwsDropped: seq<string> := ["product_to_location", "product_to_region_code"]

  /** Every recorded calibration aims at 95 % within 100 decrements. */
  function Recorded(initial: real): Run
  {
    Run(initial, 95.0, 100)
  }

  function AwsDriver(key: string, initial: real, ledgerName: string, forecastName: string): Driver
  {
    Driver(AwsReport, "product_servicecode", key, AwsDropped, "cost", "date", None, Recorded(initial),
           ledgerName, forecastName)
  }

  function GcpDriver(key: string, initial: real, ledgerName: string, forecastName: string): Driver
  {
    Driver(GcpReport, "Service description", key, [], "Cost", "Date", None, Recorded(initial), ledgerName, forecastName)
  }

  const CloudWatch := AwsDriver("AmazonCloudWatch", 0.0005, "AmazonCloudWatch", "amazoncloudwatch")
  /** The ledger name is misspelt in the source. */
  const Eks := AwsDriver("AmazonEKS", 1.5, "AmazpnEKS", "amazonEKS")
  const Vpc := AwsDriver("AmazonVPC", 0.1, "AmazonVPC", "amazonVPC")
  const S3 := AwsDriver("AmazonS3", 0.00001, "AmazonS3", "amazonS3")
  const Ec2 := AwsDriver("AmazonEC2", 0.3, "AmazonEC2", "amazonEC2")
  const Config := AwsDriver("AWSConfig", 0.5, "AWSConfig", "awsConfig")
  const Kms := AwsDriver("awskms", 0.05, "awskms", "awskms")
  const ComputeEngine := GcpDriver("Compute Engine", 14.0, "Compute Engine", "compute_engine")
  const KubernetesEngine := GcpDriver("Kubernetes Engine", 5.35, "Kubernetes Engine", "kubernetes_engine")
  /** Networking first runs a calibration aiming at 100 % within 50
      decrements and ignores its result. */
  const Networking := GcpDriver("Networking", 1.4, "Networking", "networking").(warmup := Some(Run(1.4, 100.0, 50)))

  /** The cleaned report the driver reads. */
  function Report(d: Driver, f: Files): Result<Table>
  {
    if d.source == AwsReport then Read(f.cleanAws, CleanAwsFile) else Read(f.cleanGcp, CleanGcpFile)
  }

  /** No row of the report belongs to the driver's service. */
  predicate NoGroup(report: Table, d: Driver)
  {
    forall i :: 0 <= i < |report| ==> !InGroup(report[i], d.groupColumn, d.key)
  }

  /** The driver's group of its report with the unused columns dropped:
      exactly the rows of the service, in report order, each without the
      dropped columns and with every other cell kept.  A report without the
      group column fails in `groupby`, one without the service's rows in
      the dictionary lookup, and a group without a dropped column in `drop`. */
  function Prepare(d: Driver, f: Files): (r: Result<Table>)
    ensures Report(d, f).Err? ==> r == Report(d, f)
    ensures Report(d, f).Ok? && !HasColumn(Report(d, f).value, d.groupColumn) ==> r == Err(KeyError(d.groupColumn))
    ensures Report(d, f).Ok? && HasColumn(Report(d, f).value, d.groupColumn) && NoGroup(Report(d, f).value, d) ==>
      r == Err(KeyError(d.key))
    ensures Report(d, f).Ok? && HasColumn(Report(d, f).value, d.groupColumn) && !NoGroup(Report(d, f).value, d) ==>
      var g := GroupRows(Report(d, f).value, d.groupColumn, d.key);
      && (r.Ok? <==> forall j :: 0 <= j < |d.dropped| ==> HasColumn(g, d.dropped[j]))
      && (r.Err? ==> exists j :: 0 <= j < |d.dropped| && r.error == KeyError(d.dropped[j]) && !HasColumn(g, d.dropped[j]))
    ensures r.Ok? ==> Report(d, f).Ok? && HasColumn(Report(d, f).value, d.groupColumn)
    ensures r.Ok? && Report(d, f).Ok? ==>
      var g := GroupRows(Report(d, f).value, d.groupColumn, d.key);
      && |r.value| == |g| > 0
      && forall i :: 0 <= i < |g| ==>
        && InGroup(g[i], d.groupColumn, d.key)
        && r.value[i].Keys == g[i].Keys - (set c | c in d.dropped)
        && forall c :: c in r.value[i] ==> r.value[i][c] == g[i][c]
  {
    var report :- Report(d, f);
    if !HasColumn(report, d.groupColumn) then Err(KeyError(d.groupColumn))
    else
      match SelectGroup(report, d.groupColumn, d.key)
      case Err(e) => Err(e)
      case Ok(g) => DropColumns(g, d.dropped)
  }

  /** The warm-up calibration, if any, then the recorded one, on the same
      table (the first call leaves its two columns behind). */
  function Calibrated(d: Driver, g: Table, scorer: seq<Cell> -> Fit): Result<(Table, Calibration)>
  {
    match d.warmup
    case None => AnomalyDetection(g, d.value, scorer, d.run.initial, d.run.target, d.run.maxIter)
    case Some(w) =>
      match AnomalyDetection(g, d.value, scorer, w.initial, w.target, w.maxIter)
      case Err(e) => Err(e)
      case Ok(first) => AnomalyDetection(first.0, d.value, scorer, d.run.initial, d.run.target, d.run.maxIter)
  }

  /** The calibrated group and its threshold.  Without a warm-up this is
      `anomaly_detection(group, value, initial, target, max_iterations)` on
      the prepared group.  With one, as long as the cost column is not one
      of the two columns the forest writes, the recorded threshold is still
      the search over the forest's scores of the group's cost column, from
      the driver's initial value towards its target, within its budget; the
      table gains the two columns and keeps every other cell. */
  function GroupCalibration(d: Driver, f: Files, env: Env): (r: Result<(Table, Calibration)>)
    ensures r.Ok? ==> r.value.1.iterations <= d.run.maxIter
    ensures r.Ok? ==> r.value.1.threshold == ThresholdAt(d.run.initial, r.value.1.iterations)
    ensures r.Ok? ==> d.run.initial - d.run.maxIter as real * Step <= r.value.1.threshold <= d.run.initial
    ensures Prepare(d, f).Err? ==> r == Err(Prepare(d, f).error)
    ensures d.warmup.None? && Prepare(d, f).Ok? ==>
      r == AnomalyDetection(Prepare(d, f).value, d.value, env.scorer, d.run.initial, d.run.target, d.run.maxIter)
    ensures r.Ok? ==> Prepare(d, f).Ok? && HasColumn(Prepare(d, f).value, d.value)
    ensures r.Ok? && (d.warmup.None? || (d.value != ScoresColumn && d.value != AnomalyColumn)) ==>
      Ok(r.value.1) == Calibrate(env.scorer(Column(Prepare(d, f).value, d.value).value), d.run.initial, d.run.target, d.run.maxIter)
    ensures r.Ok? ==>
      var g := Prepare(d, f).value;
      && |r.value.0| == |g|
      && forall i :: 0 <= i < |g| ==>
        && r.value.0[i].Keys == g[i].Keys + {ScoresColumn, AnomalyColumn}
        && forall c :: c in g[i] && c != ScoresColumn && c != AnomalyColumn ==> r.value.0[i][c] == g[i][c]
  {
    match Prepare(d, f)
    case Err(e) => Err(e)
    case Ok(g) =>
      CalibratedScores(d, g, env.scorer);
      Calibrated(d, g, env.scorer)
  }

  /** The recorded calibration searches over the forest's scores of the
      cost column, whether or not a warm-up ran first: the warm-up adds only
      the two forest columns, so the cost column it leaves is the same. */
  lemma {:induction false} CalibratedScores(d: Driver, g: Table, scorer: seq<Cell> -> Fit)
    ensures Calibrated(d, g, scorer).Ok? ==> HasColumn(g, d.value)
    ensures Calibrated(d, g, scorer).Ok? && (d.warmup.None? || (d.value != ScoresColumn && d.value != AnomalyColumn)) ==>
      Ok(Calibrated(d, g, scorer).value.1) == Calibrate(scorer(Column(g, d.value).value), d.run.initial, d.run.target, d.run.maxIter)
    ensures Calibrated(d, g, scorer).Ok? ==>
      var t := Calibrated(d, g, scorer).value.0;
      && |t| == |g|
      && forall i :: 0 <= i < |g| ==>
        && t[i].Keys == g[i].Keys + {ScoresColumn, AnomalyColumn}
        && forall c :: c in g[i] && c != ScoresColumn && c != AnomalyColumn ==> t[i][c] == g[i][c]
  {
    if Calibrated(d, g, scorer).Ok? && d.warmup.Some? {
      var w := d.warmup.value;
      var first := AnomalyDetection(g, d.value, scorer, w.initial, w.target, w.maxIter).value.0;
      if d.value != ScoresColumn && d.value != AnomalyColumn {
        assert Column(first, d.value).value == Column(g, d.value).value;
      }
    }
  }

  /** The forecasting half of a driver: `pd.to_datetime` on the date
      column of the calibrated group, then `ARIMA_model` with the converted
      date column as the series the order is selected on.  The forecast is
      a week of rows for the driver's group column, on consecutive days
      from the day after the group's latest date (`ArimaModel`). */
  function ForecastGroup(d: Driver, t: Table, env: Env): (r: Result<seq<ForecastRow>>)
    ensures ToDatetime(t, d.date, env.parseDate).Err? ==> r == Err(ToDatetime(t, d.date, env.parseDate).error)
    ensures ToDatetime(t, d.date, env.parseDate).Ok? ==>
      var g := ToDatetime(t, d.date, env.parseDate).value;
      r == ArimaModel(g, d.value, d.date, d.groupColumn, Column(g, d.date).value, env.stats)
    ensures r.Ok? ==> |r.value| == Horizon
    ensures r.Ok? ==> forall i :: 0 <= i < |r.value| ==> r.value[i].code == d.groupColumn
    ensures r.Ok? ==> forall i :: 0 < i < |r.value| ==> r.value[i].date == r.value[i - 1].date + 1
  {
    match ToDatetime(t, d.date, env.parseDate)
    case Err(e) => Err(e)
    case Ok(g) => ArimaModel(g, d.value, d.date, d.groupColumn, Column(g, d.date).value, env.stats)
  }

  /** One driver run.  The reports are never changed.  The threshold line is
      appended exactly when the calibration succeeds, before anything that
      can still fail; the forecast file is written exactly when every step
      succeeds, and it then holds the forecast of the calibrated group. */
  function RunDriver(d: Driver, f: Files, env: Env): (o: Outcome)
    ensures SameReports(f, o.files)
    ensures GroupCalibration(d, f, env).Err? ==> o == Aborted(GroupCalibration(d, f, env).error, f)
    ensures GroupCalibration(d, f, env).Ok? ==>
      o.files.ledger == f.ledger + [Line(d.ledgerName, env.show(GroupCalibration(d, f, env).value.1.threshold))]
    ensures o.Aborted? ==> o.files.forecasts == f.forecasts
    ensures o.Completed? <==>
      GroupCalibration(d, f, env).Ok? && ForecastGroup(d, GroupCalibration(d, f, env).value.0, env).Ok?
    ensures o.Completed? ==>
      o.files.forecasts == f.forecasts[ForecastFileName(d.forecastName) := ForecastGroup(d, GroupCalibration(d, f, env).value.0, env).value]
    ensures o.Completed? ==>
      var file := ForecastFileName(d.forecastName);
      && file in o.files.forecasts
      && o.files.forecasts.Keys == f.forecasts.Keys + {file}
      && (forall n :: n in f.forecasts && n != file ==> o.files.forecasts[n] == f.forecasts[n])
      && |o.files.forecasts[file]| == Horizon
      && (forall i :: 0 <= i < |o.files.forecasts[file]| ==> o.files.forecasts[file][i].code == d.groupColumn)
      && (forall i :: 0 < i < |o.files.forecasts[file]| ==>
            o.files.forecasts[file][i].date == o.files.forecasts[file][i - 1].date + 1)
  {
    match GroupCalibration(d, f, env)
    case Err(e) => Aborted(e, f)
    case Ok(calibrated) =>
      var f1 := f.(ledger := f.ledger + [Line(d.ledgerName, env.show(calibrated.1.threshold))]);
      match ForecastGroup(d, calibrated.0, env)
      case Err(e) => Aborted(e, f1)
      case Ok(rows) =>
        WriteForecastFile(f.forecasts, ForecastFileName(d.forecastName), rows);
        Completed(f1.(forecasts := f1.forecasts[ForecastFileName(d.forecastName) := rows]))
  }

  /** Writing a forecast file adds or replaces that one file. */
  lemma {:induction false} WriteForecastFile(before: map<string, seq<ForecastRow>>, file: string, rows: seq<ForecastRow>)
    ensures file in before[file := rows] && before[file := rows][file] == rows
    ensures before[file := rows].Keys == before.Keys + {file}
    ensures forall n :: n in before && n != file ==> before[file := rows][n] == before[n]
  {
  }

  /** After a driver has calibrated, its own ledger column reads back the
      threshold it wrote, and every other column reads what it read before. */
  lemma {:induction false} DriverLedgerEntry(d: Driver, f: Files, env: Env, column: string)
    requires ',' !in d.ledgerName
    requires GroupCalibration(d, f, env).Ok?
    ensures column == d.ledgerName ==>
      LatestEntry(RunDriver(d, f, env).files.ledger, column) == Ok(" " + env.show(GroupCalibration(d, f, env).value.1.threshold))
    ensures column != d.ledgerName ==>
      LatestEntry(RunDriver(d, f, env).files.ledger, column) == LatestEntry(f.ledger, column)
  {
    AppendIsLatest(f.ledger, d.ledgerName, env.show(GroupCalibration(d, f, env).value.1.threshold), column);
  }

  /** Running the detection again with the same initial threshold gives the
      same result as running it once: the second fit sees the same cost
      column and overwrites the two columns the first one wrote with the
      same values, and both runs fail under the same condition. */
  lemma {:induction false} WarmupIsDiscarded(d: Driver, g: Table, scorer: seq<Cell> -> Fit)
    requires d.warmup.Some? && d.warmup.value.initial == d.run.initial
    requires d.value != ScoresColumn && d.value != AnomalyColumn
    ensures Calibrated(d, g, scorer) == Calibrated(d.(warmup := None), g, scorer)
  {
    var w := d.warmup.value;
    if HasColumn(g, d.value) {
      var fit := ScoreColumn(g, d.value, scorer).value;
      if |fit| == |g| && Calibrate(fit, w.initial, w.target, w.maxIter).Ok? {
        var g1 := Annotate(g, fit);
        assert AnomalyDetection(g, d.value, scorer, w.initial, w.target, w.maxIter).value.0 == g1;
        assert HasColumn(g1, d.value);
        assert Column(g1, d.value).value == Column(g, d.value).value;
        AnnotateTwice(g, fit);
      }
    }
  }

  /** Writing the forest's two columns a second time changes nothing. */
  lemma {:induction false} AnnotateTwice(t: Table, fit: Fit)
    requires |fit| == |t|
    ensures Annotate(Annotate(t, fit), fit) == Annotate(t, fit)
  {
    var once := Annotate(t, fit);
    var twice := Annotate(once, fit);
    forall i | 0 <= i < |t|
      ensures twice[i] == once[i]
    {
      assert twice[i].Keys == once[i].Keys;
    }
  }

  /** A driver whose warm-up starts from its own initial threshold writes
      exactly what it would write without the warm-up. */
  lemma {:induction false} WarmupRunIsDiscarded(d: Driver, f: Files, env: Env)
    requires d.warmup.Some? && d.warmup.value.initial == d.run.initial
    requires d.value != ScoresColumn && d.value != AnomalyColumn
    ensures RunDriver(d, f, env) == RunDriver(d.(warmup := None), f, env)
  {
    WarmupCalibrationIsDiscarded(d, f, env);
  }

  lemma {:induction false} WarmupCalibrationIsDiscarded(d: Driver, f: Files, env: Env)
    requires d.warmup.Some? && d.warmup.value.initial == d.run.initial
    requires d.value != ScoresColumn && d.value != AnomalyColumn
    ensures GroupCalibration(d, f, env) == GroupCalibration(d.(warmup := None), f, env)
  {
    var e := d.(warmup := None);
    assert Report(d, f) == Report(e, f);
    assert Prepare(d, f) == Prepare(e, f);
    match Prepare(d, f)
    case Err(_) =>
    case Ok(g) => WarmupIsDiscarded(d, g, env.scorer);
  }

  /** networking.py's first `anomaly_detection` call has no effect on
      anything the driver writes. */
  lemma {:induction false} NetworkingWarmupIsDiscarded(f: Files, env: Env)
    ensures RunDriver(Networking, f, env) == RunDriver(Networking.(warmup := None), f, env)
  {
    WarmupRunIsDiscarded(Networking, f, env);
  }
}

=== FILE: forecasting.dfy ===
/** Order selection and forecast framing of `ARIMA_model`
    (cost-management/methods.py).  The statistics are foreign: the ADF
    p-value, the partial and plain autocorrelations and the fitted model's
    forecast come from a `Stats` record of functions.  What is modelled is
    the differencing loop, the lag-count arithmetic, the "first lag inside
    the confidence band, minus one, floored at 0" rule and the shape of the
    forecast table. */
module Forecasting {
  import opened Base
  import opened Tables

  /** An ARIMA order (p, d, q). */
  datatype Order = Order(p: nat, d: nat, q: nat)

  /** One row of `forecasted_<name>_costs.csv`: the day, the
      'product_servicecode' field and the forecast value. */
  datatype ForecastRow = ForecastRow(date: int, code: string, forecast: real)

  /** The foreign statistics: `adfuller(...)[1]`, `pacf(series, nlags)`,
      `acf(series, nlags)`, and `ARIMA(values, order).fit().forecast(steps=7)`,
      which yields one value per step. */
  datatype Stats = Stats(
    adf: seq<Cell> -> real,
    pacf: (seq<Cell>, int) -> seq<real>,
    acf: (seq<Cell>, int) -> seq<real>,
    forecast: (seq<Cell>, Order) -> Week)

  /** Number of forecast steps. */
  const Horizon: nat := 7

  /** The values of a `steps=7` forecast. */
  type Week = s: seq<real> | |s| == Horizon witness [0.0, 0.0, 0.0, 0.0, 0.0, 0.0, 0.0]
  /** A series counts as stationary once its ADF p-value is at most this. */
  const Significance: real := 0.05
  /** The differencing loop stops after this many differences. */
  const MaxDifferences: nat := 2

  // ---------------------------------------------------------------- differencing

  /** One element of `series.diff()`: numbers subtract, two days give their
      distance in days (a Timedelta), anything involving NaN is NaN. */
  function SubCell(a: Cell, b: Cell): Cell
  {
    match (a, b)
    case (Num(x), Num(y)) => Num(x - y)
    case (Date(x), Date(y)) => Num((x - y) as real)
    case _ => NaN
  }

  /** `series.diff()` without its leading NaN. */
  function RawDiffs(s: seq<Cell>): (r: seq<Cell>)
    ensures |r| == if |s| == 0 then 0 else |s| - 1
    ensures forall i :: 0 <= i < |r| ==> r[i] == SubCell(s[i + 1], s[i])
  {
    if |s| < 2 then [] else RawDiffs(s[..|s| - 1]) + [SubCell(s[|s| - 1], s[|s| - 2])]
  }

  /** `.dropna()`: the non-missing cells, in order. */
  function DropNaN(s: seq<Cell>): (r: seq<Cell>)
    ensures |r| <= |s|
    ensures forall i :: 0 <= i < |r| ==> !r[i].NaN?
    ensures (forall i :: 0 <= i < |s| ==> !s[i].NaN?) ==> r == s
  {
    if |s| == 0 then []
    else if s[|s| - 1].NaN? then DropNaN(s[..|s| - 1])
    else DropNaN(s[..|s| - 1]) + [s[|s| - 1]]
  }

  /** `series.diff().dropna()`. */
  function Diff(s: seq<Cell>): seq<Cell>
  {
    DropNaN(RawDiffs(s))
  }

  /** The series differenced `k` times. */
  function Differenced(s: seq<Cell>, k: nat): seq<Cell>
  {
    if k == 0 then s else Diff(Differenced(s, k - 1))
  }

  /** A column without gaps: all numbers, or all days (a datetime column). */
  predicate Dense(s: seq<Cell>)
  {
    (forall i :: 0 <= i < |s| ==> s[i].Num?) || (forall i :: 0 <= i < |s| ==> s[i].Date?)
  }

  /** On a dense column one difference yields numbers and is exactly one
      element shorter. */
  lemma {:induction false} DiffDense(s: seq<Cell>)
    requires Dense(s) && |s| > 0
    ensures |Diff(s)| == |s| - 1
    ensures forall i :: 0 <= i < |Diff(s)| ==> Diff(s)[i].Num?
  {
    var raw := RawDiffs(s);
    forall i | 0 <= i < |raw|
      ensures raw[i].Num?
    {
      assert raw[i] == SubCell(s[i + 1], s[i]);
      assert (s[i].Num? && s[i + 1].Num?) || (s[i].Date? && s[i + 1].Date?);
    }
    assert DropNaN(raw) == raw;
  }

  /** Differencing a dense column `k` times removes exactly `k` elements
      (while there are elements to remove). */
  lemma {:induction false} DifferencedLength(s: seq<Cell>, k: nat)
    requires Dense(s) && k <= |s|
    ensures |Differenced(s, k)| == |s| - k
    ensures Dense(Differenced(s, k))
  {
    if k > 0 {
      DifferencedLength(s, k - 1);
      DiffDense(Differenced(s, k - 1));
    }
  }

  /** The `while p_value > 0.05 and d < 2` loop, entered with `d`
      differences already applied to `series`. */
  function DiffLoop(original: seq<Cell>, adf: seq<Cell> -> real, d: nat): (r: (nat, seq<Cell>))
    requires d <= MaxDifferences
    requires forall k :: 0 <= k < d ==> adf(Differenced(original, k)) > Significance
    ensures d <= r.0 <= MaxDifferences
    ensures r.1 == Differenced(original, r.0)
    ensures adf(r.1) <= Significance || r.0 == MaxDifferences
    ensures forall k :: 0 <= k < r.0 ==> adf(Differenced(original, k)) > Significance
    decreases MaxDifferences - d
  {
    var series := Differenced(original, d);
    if adf(series) > Significance && d < MaxDifferences then
      assert forall k :: 0 <= k < d + 1 ==> adf(Differenced(original, k)) > Significance by {
        forall k | 0 <= k < d + 1
          ensures adf(Differenced(original, k)) > Significance
        {
          if k == d { assert Differenced(original, k) == series; }
        }
      }
      DiffLoop(original, adf, d + 1)
    else (d, series)
  }

  /** The differencing order `d` and the differenced series: `d` is the
      number of differences taken before the series first tests stationary,
      capped at two. */
  function DifferencingOrder(series: seq<Cell>, adf: seq<Cell> -> real): (r: (nat, seq<Cell>))
    ensures r.0 <= MaxDifferences
    ensures r.1 == Differenced(series, r.0)
    ensures adf(r.1) <= Significance || r.0 == MaxDifferences
    ensures forall k :: 0 <= k < r.0 ==> adf(Differenced(series, k)) > Significance
  {
    DiffLoop(series, adf, 0)
  }

  // ---------------------------------------------------------------- lag orders

  /** Python's `int(x)`: truncation toward zero. */
  function Truncate(x: real): int
  {
    if x >= 0.0 then x.Floor else -((-x).Floor)
  }

  /** `nlags = int((len(dataset) / 2) - 1)`. */
  function NLags(n: nat): int
  {
    Truncate(n as real / 2.0 - 1.0)
  }

  /** The lag count is half the length, rounded down, less one -- except
      that truncation toward zero maps a one-row table to 0, not -1. */
  lemma {:induction false} NLagsValues(n: nat)
    ensures n >= 2 ==> NLags(n) == n / 2 - 1
    ensures n == 1 ==> NLags(n) == 0
    ensures n == 0 ==> NLags(n) == -1
  {
    var x := n as real / 2.0 - 1.0;
    if n >= 2 {
      var h := n / 2;
      assert n == 2 * h || n == 2 * h + 1;
      if n == 2 * h {
        assert x == (h - 1) as real;
      } else {
        assert x == (h - 1) as real + 0.5;
      }
    } else if n == 1 {
      assert x == -0.5;
    } else {
      assert x == -1.0;
    }
  }

  /** `v < 1.96 / np.sqrt(n)` without the square root: for n > 0 the bound
      is positive, so the comparison holds for every non-positive `v` and
      otherwise exactly when v² · n < 1.96²; for n = 0 the bound is +inf. */
  predicate InsideBand(v: real, n: nat)
  {
    n == 0 || v <= 0.0 || v * v * n as real < 3.8416
  }

  /** Index of the first entry inside the band, searching from `from`;
      `None` if there is none. */
  function FirstInside(vals: seq<real>, n: nat, from: nat): (r: Option<nat>)
    requires from <= |vals|
    ensures r.Some? ==> from <= r.value < |vals| && InsideBand(vals[r.value], n)
    ensures r.Some? ==> forall j :: from <= j < r.value ==> !InsideBand(vals[j], n)
    ensures r.None? ==> forall j :: from <= j < |vals| ==> !InsideBand(vals[j], n)
    decreases |vals| - from
  {
    if from == |vals| then None
    else if InsideBand(vals[from], n) then Some(from)
    else FirstInside(vals, n, from + 1)
  }

  /** `i` is the first index whose entry lies inside the band. */
  predicate FirstInsideAt(vals: seq<real>, n: nat, i: nat)
  {
    i < |vals| && InsideBand(vals[i], n) && forall j :: 0 <= j < i ==> !InsideBand(vals[j], n)
  }

  /** `np.argmax(vals < band)`: the first index where the comparison holds,
      0 when it holds nowhere, and a ValueError on an empty array. */
  function ArgmaxInside(vals: seq<real>, n: nat): (r: Result<nat>)
    ensures |vals| == 0 <==> r.Err?
    ensures r.Ok? ==> r.value < |vals|
    ensures r.Ok? ==> forall j :: 0 <= j < r.value ==> !InsideBand(vals[j], n)
    ensures r.Ok? ==> InsideBand(vals[r.value], n) || (r.value == 0 && forall j :: 0 <= j < |vals| ==> !InsideBand(vals[j], n))
    ensures r.Ok? ==> forall i: nat :: FirstInsideAt(vals, n, i) ==> r.value == i
  {
    if |vals| == 0 then Err(ValueError("attempt to get argmax of an empty sequence"))
    else match FirstInside(vals, n, 0)
      case Some(i) => Ok(i)
      case None => Ok(0)
  }

  /** `max(0, np.argmax(vals < 1.96 / np.sqrt(n)) - 1)`, the rule used for
      both p (on the pacf) and q (on the acf). */
  function LagOrder(vals: seq<real>, n: nat): (r: Result<nat>)
    ensures |vals| == 0 <==> r.Err?
    ensures r.Ok? ==> forall i: nat :: FirstInsideAt(vals, n, i) ==> r.value == if i == 0 then 0 else i - 1
    ensures r.Ok? && (forall j :: 0 <= j < |vals| ==> !InsideBand(vals[j], n)) ==> r.value == 0
  {
    match ArgmaxInside(vals, n)
    case Err(e) => Err(e)
    case Ok(i) => Ok(if i == 0 then 0 else i - 1)
  }

  /** The (p, d, q) selection of lines 61-77: `d` from the differencing loop
      on `series`, p and q from the correlations of the differenced series
      up to `NLags(rows)` lags. */
  function SelectOrder(rows: nat, series: seq<Cell>, stats: Stats): (r: Result<Order>)
    ensures r.Ok? ==> r.value.d == DifferencingOrder(series, stats.adf).0 <= MaxDifferences
    ensures r.Ok? <==>
      var ts := DifferencingOrder(series, stats.adf).1;
      |stats.pacf(ts, NLags(rows))| > 0 && |stats.acf(ts, NLags(rows))| > 0
    ensures r.Ok? ==>
      var ts := DifferencingOrder(series, stats.adf).1;
      && Ok(r.value.p) == LagOrder(stats.pacf(ts, NLags(rows)), |ts|)
      && Ok(r.value.q) == LagOrder(stats.acf(ts, NLags(rows)), |ts|)
  {
    var (d, ts) := DifferencingOrder(series, stats.adf);
    var nlags := NLags(rows);
    match LagOrder(stats.pacf(ts, nlags), |ts|)
    case Err(e) => Err(e)
    case Ok(p) =>
      match LagOrder(stats.acf(ts, nlags), |ts|)
      case Err(e) => Err(e)
      case Ok(q) => Ok(Order(p, d, q))
  }

  // ---------------------------------------------------------------- forecast table

  /** The latest day in the column (`dataset[date].max()`, which skips NaT);
      with no day at all the date range cannot be built. */
  function MaxDay(cells: seq<Cell>): (r: Option<int>)
    ensures r.Some? ==> exists i :: 0 <= i < |cells| && cells[i] == Date(r.value)
    ensures r.Some? ==> forall i :: 0 <= i < |cells| && cells[i].Date? ==> cells[i].day <= r.value
    ensures r.None? ==> forall i :: 0 <= i < |cells| ==> !cells[i].Date?
  {
    if |cells| == 0 then None
    else
      var rest := MaxDay(cells[..|cells| - 1]);
      var last := cells[|cells| - 1];
      if !last.Date? then rest
      else if rest.Some? && rest.value >= last.day then rest
      else Some(last.day)
  }

  /** The forecast table: one row per forecast value, on consecutive days
      starting the day after `last`, every row carrying `code`. */
  function ForecastTable(last: int, code: string, values: seq<real>): (r: seq<ForecastRow>)
    ensures |r| == |values|
    ensures forall i :: 0 <= i < |r| ==> r[i] == ForecastRow(last + 1 + i, code, values[i])
  {
    seq(|values|, i requires 0 <= i < |values| => ForecastRow(last + 1 + i, code, values[i]))
  }

  /** `ARIMA_model(dataset, column, date, servicecode, time_series, _)`
      up to the CSV write: the order is selected on `series`, the model is
      fitted on the `column` values, and the forecast rows are dated from
      the day after the latest `date`. */
  function ArimaModel(t: Table, column: string, date: string, servicecode: string,
                      series: seq<Cell>, stats: Stats): (r: Result<seq<ForecastRow>>)
    ensures !HasColumn(t, column) ==> r == Err(KeyError(column))
    ensures r.Ok? ==> HasColumn(t, column) && HasColumn(t, date) && SelectOrder(|t|, series, stats).Ok?
    ensures r.Ok? ==>
      var order := SelectOrder(|t|, series, stats).value;
      var values := stats.forecast(Column(t, column).value, order);
      |r.value| == |values| && forall i :: 0 <= i < |r.value| ==> r.value[i].forecast == values[i]
    ensures r.Ok? ==> |r.value| == Horizon
    ensures r.Ok? ==> MaxDay(Column(t, date).value) == Some(r.value[0].date - 1)
    ensures r.Ok? ==> forall i :: 0 <= i < |r.value| ==> r.value[i].code == servicecode
    ensures r.Ok? ==> forall i :: 0 < i < |r.value| ==> r.value[i].date == r.value[i - 1].date + 1
    ensures r.Ok? && |r.value| > 0 ==>
      && (exists j :: 0 <= j < |t| && t[j][date] == Date(r.value[0].date - 1))
      && (forall j :: 0 <= j < |t| && t[j][date].Date? ==> t[j][date].day < r.value[0].date)
  {
    match Column(t, column)
    case Err(e) => Err(e)
    case Ok(values) =>
      match SelectOrder(|t|, series, stats)
      case Err(e) => Err(e)
      case Ok(order) =>
        var forecast := stats.forecast(values, order);
        match Column(t, date)
        case Err(e) => Err(e)
        case Ok(dates) =>
          match MaxDay(dates)
          case None => Err(ValueError("Neither `start` nor `end` can be NaT"))
          case Some(last) => Ok(ForecastTable(last, servicecode, forecast))
  }

  /** `f'forecasted_{servicecode_name}_costs.csv'`. */
  function ForecastFileName(name: string): string
  {
    "forecasted_" + name + "_costs.csv"
  }
}

=== FILE: grouping.dfy ===
/** `df.groupby(keys).first().reset_index()` and `df.drop_duplicates()`.
    A group is the set of rows that agree on every key column; rows with a
    missing key value belong to no group (groupby's default `dropna`).  The
    aggregated row of a group takes, column by column, the first
    non-missing value among the group's rows. */
module Grouping {
  import opened Base
  import opened Tables

  /** The row's values in the key columns (missing where it has none). */
  function KeyOf(row: Row, keys: seq<string>): (k: seq<Cell>)
    ensures |k| == |keys|
    ensures forall j :: 0 <= j < |keys| && keys[j] in row ==> k[j] == row[keys[j]]
  {
    seq(|keys|, j requires 0 <= j < |keys| => if keys[j] in row then row[keys[j]] else NaN)
  }

  /** The row has a value in every key column, so it belongs to a group. */
  predicate Keyed(row: Row, keys: seq<string>)
  {
    forall j :: 0 <= j < |keys| ==> keys[j] in row && !row[keys[j]].NaN?
  }

  /** The group keys in order of first appearance. */
  function GroupKeys(t: Table, keys: seq<string>): (r: seq<seq<Cell>>)
    ensures Distinct(r)
    ensures forall k :: k in r <==> exists i :: 0 <= i < |t| && Keyed(t[i], keys) && KeyOf(t[i], keys) == k
    ensures |r| <= |t|
  {
    if |t| == 0 then []
    else
      var init := t[..|t| - 1];
      var last := t[|t| - 1];
      var prev := GroupKeys(init, keys);
      assert forall i :: 0 <= i < |init| ==> init[i] == t[i];
      if Keyed(last, keys) && KeyOf(last, keys) !in prev then prev + [KeyOf(last, keys)] else prev
  }

  /** Row `i` is the first row of group `k` with a value in column `c`. */
  predicate FirstValueAt(t: Table, keys: seq<string>, k: seq<Cell>, c: string, i: int)
  {
    && 0 <= i < |t| && Keyed(t[i], keys) && KeyOf(t[i], keys) == k && c in t[i] && !t[i][c].NaN?
    && forall j :: 0 <= j < i && Keyed(t[j], keys) && KeyOf(t[j], keys) == k && c in t[j] ==> t[j][c].NaN?
  }

  /** `first()` on column `c` of group `k`: the first value present, or a
      missing value if every row of the group lacks one. */
  function FirstValue(t: Table, keys: seq<string>, k: seq<Cell>, c: string): (r: Cell)
    ensures r.NaN? <==> forall i :: 0 <= i < |t| && Keyed(t[i], keys) && KeyOf(t[i], keys) == k && c in t[i] ==> t[i][c].NaN?
    ensures !r.NaN? ==> exists i :: FirstValueAt(t, keys, k, c, i) && r == t[i][c]
  {
    if |t| == 0 then NaN
    else if Keyed(t[0], keys) && KeyOf(t[0], keys) == k && c in t[0] && !t[0][c].NaN? then
      assert FirstValueAt(t, keys, k, c, 0);
      t[0][c]
    else
      var r := FirstValue(t[1..], keys, k, c);
      assert forall i :: 1 <= i < |t| ==> t[i] == t[1..][i - 1];
      assert !r.NaN? ==> exists i :: FirstValueAt(t, keys, k, c, i) && r == t[i][c] by {
        if !r.NaN? {
          var i :| FirstValueAt(t[1..], keys, k, c, i) && r == t[1..][i][c];
          assert FirstValueAt(t, keys, k, c, i + 1);
        }
      }
      r
  }

  /** The columns of the frame (those of its first row). */
  function Columns(t: Table): set<string>
  {
    if |t| == 0 then {} else t[0].Keys
  }

  /** The aggregated row of group `k`. */
  function Aggregate(t: Table, keys: seq<string>, k: seq<Cell>): (row: Row)
    ensures row.Keys == Columns(t)
  {
    map c | c in Columns(t) :: FirstValue(t, keys, k, c)
  }

  /** No two rows share a key. */
  predicate UniqueKeys(t: Table, keys: seq<string>)
  {
    forall i, j :: 0 <= i < j < |t| ==> KeyOf(t[i], keys) != KeyOf(t[j], keys)
  }

  /** `df.groupby(keys).first().reset_index()`: a KeyError for a missing key
      column; otherwise one aggregated row per group, carrying the group's
      key in its key columns, so no two rows share a key. */
  function GroupFirst(t: Table, keys: seq<string>): (r: Result<Table>)
    ensures r.Ok? <==> forall j :: 0 <= j < |keys| ==> HasColumn(t, keys[j])
    ensures r.Err? ==> exists j :: 0 <= j < |keys| && !HasColumn(t, keys[j]) && r.error == KeyError(keys[j])
    ensures r.Ok? ==> |r.value| == |GroupKeys(t, keys)|
    ensures r.Ok? ==> forall i :: 0 <= i < |r.value| ==>
      r.value[i] == Aggregate(t, keys, GroupKeys(t, keys)[i])
    ensures r.Ok? ==> UniqueKeys(r.value, keys)
  {
    match MissingKey(t, keys)
    case Some(k) => Err(KeyError(k))
    case None =>
      var ks := GroupKeys(t, keys);
      var r := seq(|ks|, i requires 0 <= i < |ks| => Aggregate(t, keys, ks[i]));
      if |t| == 0 then Ok(r)
      else
        assert forall j :: 0 <= j < |keys| ==> keys[j] in t[0];
        forall i | 0 <= i < |ks|
          ensures KeyOf(r[i], keys) == ks[i]
        {
          AggregateKey(t, keys, ks[i]);
        }
        Ok(r)
  }

  /** The first key column some row lacks. */
  function MissingKey(t: Table, keys: seq<string>): (r: Option<string>)
    ensures r.None? <==> forall j :: 0 <= j < |keys| ==> HasColumn(t, keys[j])
    ensures r.Some? ==> exists j :: 0 <= j < |keys| && !HasColumn(t, keys[j]) && r.value == keys[j]
  {
    if |keys| == 0 then None
    else if !HasColumn(t, keys[0]) then Some(keys[0])
    else
      var r := MissingKey(t, keys[1..]);
      assert forall j :: 1 <= j < |keys| ==> keys[j] == keys[1..][j - 1];
      r
  }

  /** The aggregated row of a group that occurs carries the group's key. */
  lemma {:induction false} AggregateKey(t: Table, keys: seq<string>, k: seq<Cell>)
    requires k in GroupKeys(t, keys)
    requires forall j :: 0 <= j < |keys| ==> keys[j] in Columns(t)
    ensures KeyOf(Aggregate(t, keys, k), keys) == k
  {
    var row := Aggregate(t, keys, k);
    var i :| 0 <= i < |t| && Keyed(t[i], keys) && KeyOf(t[i], keys) == k;
    forall j | 0 <= j < |keys|
      ensures KeyOf(row, keys)[j] == k[j]
    {
      var c := keys[j];
      var v := FirstValue(t, keys, k, c);
      assert !t[i][c].NaN?;
      var m :| FirstValueAt(t, keys, k, c, m) && v == t[m][c];
      assert KeyOf(t[m], keys)[j] == t[m][c];
    }
  }

  /** Reordering rows cannot make two of them share a key. */
  lemma {:induction false} PermutationKeepsUniqueKeys(a: Table, b: Table, keys: seq<string>)
    requires multiset(a) == multiset(b)
    requires UniqueKeys(b, keys)
    ensures UniqueKeys(a, keys)
  {
    var f := (row: Row) => KeyOf(row, keys);
    assert DistinctBy(b, f);
    PermutationKeepsDistinctBy(a, b, f);
    assert forall i :: 0 <= i < |a| ==> f(a[i]) == KeyOf(a[i], keys);
  }

  /** `df.drop_duplicates()`: the first occurrence of every distinct row, in
      order. */
  function DropDuplicates(t: Table): (r: Table)
    ensures Distinct(r)
    ensures forall row :: row in r <==> row in t
    ensures |r| <= |t|
  {
    if |t| == 0 then []
    else
      var init := t[..|t| - 1];
      var prev := DropDuplicates(init);
      assert forall row :: row in init ==> row in t;
      if t[|t| - 1] in prev then prev else prev + [t[|t| - 1]]
  }

  /** A table without repeated rows is left as it is. */
  lemma {:induction false} DropDuplicatesOfDistinct(t: Table)
    requires Distinct(t)
    ensures DropDuplicates(t) == t
  {
    if |t| > 0 {
      var init := t[..|t| - 1];
      assert Distinct(init) by {
        forall i, j | 0 <= i < j < |init| ensures init[i] != init[j] { assert init[i] == t[i] && init[j] == t[j]; }
      }
      DropDuplicatesOfDistinct(init);
      assert t[|t| - 1] !in init;
      assert t == init + [t[|t| - 1]];
    }
  }
}

=== FILE: ledger.dfy ===
/** The threshold ledger `outliers.csv`: an append-only text file with one
    line `"<name>, <threshold>"` per calibration, written by every driver
    and read back by the alerting API, which takes for each service the
    latest entry of the column named after it. */
module Ledger {
  import opened Base

  /** One ledger line: `f'{name}, {threshold}'`. */
  function Line(name: string, value: string): string
  {
    name + ", " + value
  }

  /** The first comma-separated field of a line: the column the value is filed under. */
  function LabelOf(line: string): string
  {
    Before(line, ',')
  }

  /** The rest of the line after the first comma. */
  function ValueOf(line: string): string
  {
    var k := IndexOf(line, ',');
    if k < |line| then line[k + 1..] else ""
  }

  /** A line written by `Line` is read back as the same name and value,
      provided the name holds no comma (true of all ten service labels). */
  lemma {:induction false} LineRoundTrip(name: string, value: string)
    requires ',' !in name
    ensures LabelOf(Line(name, value)) == name
    ensures ValueOf(Line(name, value)) == " " + value
  {
    var line := Line(name, value);
    var k := IndexOf(line, ',');
    assert line[|name|] == ',';
    assert forall j :: 0 <= j < |name| ==> line[j] == name[j];
    assert k == |name|;
    assert line[k + 1..] == " " + value;
  }

  /** `outliers[column].iloc[-1]`: the value of the last line filed under
      `column`, or a KeyError when no line is. */
  function LatestEntry(ledger: seq<string>, column: string): (r: Result<string>)
    ensures r.Err? ==> r.error == KeyError(column)
  {
    if |ledger| == 0 then Err(KeyError(column))
    else if FiledUnder(ledger[|ledger| - 1], column) then Ok(ValueOf(ledger[|ledger| - 1]))
    else LatestEntry(ledger[..|ledger| - 1], column)
  }

  /** The lookup fails exactly when no line is filed under the column, and
      otherwise yields the value of the last line that is. */
  lemma {:induction false} LatestEntryFound(ledger: seq<string>, column: string)
    ensures LatestEntry(ledger, column).Err? <==> forall i :: 0 <= i < |ledger| ==> !FiledUnder(ledger[i], column)
    ensures LatestEntry(ledger, column).Ok? ==>
      exists i :: LatestAt(ledger, column, i) && LatestEntry(ledger, column).value == ValueOf(ledger[i])
  {
    if |ledger| == 0 {
    } else if FiledUnder(ledger[|ledger| - 1], column) {
      assert LatestAt(ledger, column, |ledger| - 1);
    } else {
      var init := ledger[..|ledger| - 1];
      LatestEntryFound(init, column);
      var r := LatestEntry(init, column);
      assert forall i :: 0 <= i < |init| ==> init[i] == ledger[i];
      if r.Err? {
        forall i | 0 <= i < |ledger| ensures !FiledUnder(ledger[i], column) {
          if i < |init| { assert !FiledUnder(init[i], column); }
        }
      } else {
        var i :| LatestAt(init, column, i) && r.value == ValueOf(init[i]);
        assert LatestAt(ledger, column, i);
      }
    }
  }

  /** The line is filed under `column`. */
  predicate FiledUnder(line: string, column: string)
  {
    LabelOf(line) == column
  }

  /** Line `i` is the last line filed under `column`. */
  predicate LatestAt(ledger: seq<string>, column: string, i: int)
  {
    0 <= i < |ledger| && FiledUnder(ledger[i], column)
    && forall j :: i < j < |ledger| ==> !FiledUnder(ledger[j], column)
  }

  /** Appending a line makes it the latest entry of its own column and
      leaves every other column's latest entry as it was. */
  lemma {:induction false} AppendIsLatest(ledger: seq<string>, name: string, value: string, column: string)
    requires ',' !in name
    ensures column == name ==> LatestEntry(ledger + [Line(name, value)], column) == Ok(" " + value)
    ensures column != name ==> LatestEntry(ledger + [Line(name, value)], column) == LatestEntry(ledger, column)
  {
    LineRoundTrip(name, value);
    assert (ledger + [Line(name, value)])[..|ledger|] == ledger;
  }
}

=== FILE: numbers.dfy ===
/** Python's `int(text)` on decimal text and `text.replace(pat, "")`, as
    the Kubernetes probe uses them to read quantities such as "2", "250m",
    "1024Ki" and "512Mi". */
module Numbers {
  import opened Base

  predicate IsDigit(c: char)
  {
    '0' <= c <= '9'
  }

  function DigitValue(c: char): nat
    requires IsDigit(c)
  {
    (c as int) - ('0' as int)
  }

  function DigitChar(d: nat): (c: char)
    requires d < 10
    ensures IsDigit(c) && DigitValue(c) == d
  {
    ('0' as int + d) as char
  }

  predicate AllDigits(s: string)
  {
    forall i :: 0 <= i < |s| ==> IsDigit(s[i])
  }

  /** The value of a string of decimal digits, most significant first, or
      nothing if some character is not a digit. */
  function Digits(s: string): Option<nat>
  {
    if |s| == 0 then Some(0)
    else if !IsDigit(s[|s| - 1]) then None
    else
      match Digits(s[..|s| - 1])
      case None => None
      case Some(v) => Some(10 * v + DigitValue(s[|s| - 1]))
  }

  /** `int(text)`: an optional sign followed by at least one digit, or a
      ValueError. */
  function ParseInt(text: string): Result<int>
  {
    var signed := |text| > 0 && (text[0] == '-' || text[0] == '+');
    var digits := if signed then text[1..] else text;
    if |digits| == 0 then Err(ValueError("int"))
    else
      match Digits(digits)
      case None => Err(ValueError("int"))
      case Some(v) => Ok(if signed && text[0] == '-' then 0 - v else v)
  }

  /** The text is an optional sign followed by one or more digits. */
  predicate ParsesAsInt(text: string)
  {
    var digits := if |text| > 0 && (text[0] == '-' || text[0] == '+') then text[1..] else text;
    |digits| > 0 && AllDigits(digits)
  }

  lemma {:induction false} DigitsDefined(s: string)
    ensures Digits(s).Some? <==> AllDigits(s)
  {
    if |s| > 0 {
      DigitsDefined(s[..|s| - 1]);
      assert forall i :: 0 <= i < |s| - 1 ==> s[..|s| - 1][i] == s[i];
    }
  }

  /** `int()` accepts exactly an optional sign followed by digits, and
      raises a ValueError otherwise. */
  lemma {:induction false} ParseIntAccepts(text: string)
    ensures ParseInt(text).Ok? <==> ParsesAsInt(text)
    ensures ParseInt(text).Err? ==> ParseInt(text).error == ValueError("int")
  {
    var signed := |text| > 0 && (text[0] == '-' || text[0] == '+');
    DigitsDefined(if signed then text[1..] else text);
  }

  /** `str(n)` of a natural number. */
  function ShowNat(n: nat): (s: string)
    ensures |s| > 0 && AllDigits(s)
  {
    if n < 10 then [DigitChar(n)] else ShowNat(n / 10) + [DigitChar(n % 10)]
  }

  /** `str(n)`. */
  function ShowInt(n: int): string
  {
    if n < 0 then "-" + ShowNat(-n) else ShowNat(n)
  }

  lemma {:induction false} ShowNatValue(n: nat)
    ensures Digits(ShowNat(n)) == Some(n)
  {
    if n >= 10 {
      var s := ShowNat(n);
      assert s[..|s| - 1] == ShowNat(n / 10);
      ShowNatValue(n / 10);
    }
  }

  /** `int(str(n)) == n`. */
  lemma {:induction false} ParseShow(n: int)
    ensures ParseInt(ShowInt(n)) == Ok(n)
  {
    if n < 0 {
      ShowNatValue(-n);
      assert ShowInt(n)[1..] == ShowNat(-n);
    } else {
      ShowNatValue(n);
      var s := ShowNat(n);
      assert IsDigit(s[0]);
    }
  }

  /** `text.replace(pat, "")`: every occurrence of `pat`, scanning from the
      left without overlaps, removed. */
  function RemoveAll(text: string, pat: string): (r: string)
    requires |pat| > 0
    ensures |r| <= |text|
    decreases |text|
  {
    if |text| == 0 then ""
    else if |pat| <= |text| && text[..|pat|] == pat then RemoveAll(text[|pat|..], pat)
    else [text[0]] + RemoveAll(text[1..], pat)
  }

  /** A prefix none of whose characters starts the pattern passes through
      untouched. */
  lemma {:induction false} RemoveAllAfter(s: string, t: string, pat: string)
    requires |pat| > 0 && pat[0] !in s
    ensures RemoveAll(s + t, pat) == s + RemoveAll(t, pat)
    decreases |s|
  {
    if |s| > 0 {
      assert (s + t)[1..] == s[1..] + t;
      assert (s + t)[0] == s[0] != pat[0];
      assert !(|pat| <= |s + t| && (s + t)[..|pat|] == pat) by {
        if |pat| <= |s + t| { assert (s + t)[..|pat|][0] != pat[0]; }
      }
      RemoveAllAfter(s[1..], t, pat);
    } else {
      assert s + t == t;
    }
  }

  /** A quantity written as an integer followed by a unit suffix that holds
      no digit and no minus sign reads back as that integer. */
  lemma {:induction false} QuantityRoundTrip(n: int, suffix: string)
    requires |suffix| > 0 && !IsDigit(suffix[0]) && suffix[0] != '-'
    ensures ParseInt(RemoveAll(ShowInt(n) + suffix, suffix)) == Ok(n)
  {
    var s := ShowInt(n);
    assert suffix[0] !in s by {
      if n >= 0 { assert AllDigits(s); } else { assert AllDigits(s[1..]); assert s[0] == '-'; }
    }
    RemoveAllAfter(s, suffix, suffix);
    assert suffix[..|suffix|] == suffix;
    assert RemoveAll(suffix, suffix) == RemoveAll(suffix[|suffix|..], suffix);
    assert s + "" == s;
    ParseShow(n);
  }
}

=== FILE: pipeline.dfy ===
/** The batch entry point `main()` (cost-management/main.py): merge the two
    exports, clean them, then run the ten drivers in a fixed order.  There
    is no error handling, so the first exception ends the run and every
    file written before it stays written. */
module Pipeline {
  import opened Base
  import opened Tables
  import opened Ledger
  import opened World
  import opened Cleaning
  import opened Forecasting
  import opened Drivers

  datatype Stage = MergeGcp | MergeAws | Clean | Service(driver: Driver)

  /** The three stages `main()` calls before the drivers: the two merges,
      then the cleaning. */
  const Prep: seq<Stage> := [MergeGcp, MergeAws, Clean]

  /** The drivers in the order `main()` calls them. */
  const MainDrivers: seq<Driver> :=
    [CloudWatch, Eks, Vpc, S3, Ec2, Config, Kms, ComputeEngine, KubernetesEngine, Networking]

  /** A stage per driver, in order. */
  function Services(ds: seq<Driver>): (r: seq<Stage>)
    ensures |r| == |ds|
    ensures forall i :: 0 <= i < |ds| ==> r[i] == Service(ds[i])
  {
    seq(|ds|, i requires 0 <= i < |ds| => Service(ds[i]))
  }

  /** The stages in the order `main()` calls them. */
  const MainStages: seq<Stage> := Prep + Services(MainDrivers)

  /** `data_processing()` as a step: read both raw reports, clean them and
      write both cleaned reports. */
  function CleanStep(f: Files, env: Env): (o: Outcome)
    ensures o.files.ledger == f.ledger && o.files.forecasts == f.forecasts
    ensures o.Completed? <==> f.rawAws.Some? && f.rawGcp.Some? && DataProcessing(f.rawAws.value, f.rawGcp.value, env.parseNumber).Ok?
    ensures o.Completed? ==>
      && o.files.cleanAws == Some(DataProcessing(f.rawAws.value, f.rawGcp.value, env.parseNumber).value.0)
      && o.files.cleanGcp == Some(DataProcessing(f.rawAws.value, f.rawGcp.value, env.parseNumber).value.1)
    ensures o.Aborted? ==> o.files == f
  {
    match Read(f.rawAws, RawAwsFile)
    case Err(e) => Aborted(e, f)
    case Ok(aws) =>
      match Read(f.rawGcp, RawGcpFile)
      case Err(e) => Aborted(e, f)
      case Ok(gcp) =>
        match DataProcessing(aws, gcp, env.parseNumber)
        case Err(e) => Aborted(e, f)
        case Ok(clean) => Completed(f.(cleanAws := Some(clean.0), cleanGcp := Some(clean.1)))
  }

  /** One call of `main()`.  A driver appends at most one ledger line, under
      its own name; the other stages leave the ledger alone. */
  function Step(s: Stage, f: Files, env: Env): (o: Outcome)
    ensures !s.Service? ==> o.files.ledger == f.ledger && o.files.forecasts == f.forecasts
    ensures s.Service? ==> SameReports(f, o.files)
    ensures s.Service? ==>
      || o.files.ledger == f.ledger
      || exists v :: o.files.ledger == f.ledger + [Line(s.driver.ledgerName, v)]
    ensures s.Service? && o.Completed? ==> exists v :: o.files.ledger == f.ledger + [Line(s.driver.ledgerName, v)]
    ensures o.Completed? ==> f.forecasts.Keys <= o.files.forecasts.Keys
    ensures s.Service? && o.Completed? ==> ForecastFileName(s.driver.forecastName) in o.files.forecasts
  {
    match s
    case MergeGcp =>
      (match env.mergedGcp
       case None => Completed(f)
       case Some(t) => Completed(f.(rawGcp := Some(t))))
    case MergeAws =>
      (match env.mergedAws
       case Err(e) => Aborted(e, f)
       case Ok(t) => Completed(f.(rawAws := Some(t))))
    case Clean => CleanStep(f, env)
    case Service(d) => RunDriver(d, f, env)
  }

  /** The stages run in order until one raises. */
  function Run(stages: seq<Stage>, f: Files, env: Env): Outcome
  {
    if |stages| == 0 then Completed(f)
    else
      match Run(stages[..|stages| - 1], f, env)
      case Aborted(e, g) => Aborted(e, g)
      case Completed(g) => Step(stages[|stages| - 1], g, env)
  }

  /** `main()`. */
  function Main(f: Files, env: Env): Outcome
  {
    Run(MainStages, f, env)
  }

  /** An exception ends the run: once a prefix of the stages has aborted,
      the later stages change nothing. */
  lemma {:induction false} AbortIsFinal(stages: seq<Stage>, k: nat, f: Files, env: Env)
    requires k <= |stages| && Run(stages[..k], f, env).Aborted?
    ensures Run(stages, f, env) == Run(stages[..k], f, env)
    decreases |stages|
  {
    if k < |stages| {
      var init := stages[..|stages| - 1];
      assert init[..k] == stages[..k];
      AbortIsFinal(init, k, f, env);
    } else {
      assert stages[..k] == stages;
    }
  }

  /** A run that completes completed every prefix of its stages. */
  lemma {:induction false} CompletedRunCompletedPrefixes(stages: seq<Stage>, k: nat, f: Files, env: Env)
    requires k <= |stages| && Run(stages, f, env).Completed?
    ensures Run(stages[..k], f, env).Completed?
  {
    if Run(stages[..k], f, env).Aborted? {
      AbortIsFinal(stages, k, f, env);
    }
  }

  /** The ledger names of the drivers among the stages, in order. */
  function LedgerNames(stages: seq<Stage>): (r: seq<string>)
    ensures |r| <= |stages|
  {
    if |stages| == 0 then []
    else
      LedgerNames(stages[..|stages| - 1]) + StageNames(stages[|stages| - 1])
  }

  /** Every driver among the stages writes a comma-free name. */
  predicate CleanNames(stages: seq<Stage>)
  {
    forall i :: 0 <= i < |stages| && stages[i].Service? ==> ',' !in stages[i].driver.ledgerName
  }

  /** A completed run appended exactly one line per driver, labelled with
      the drivers' names in the order they ran, after the old ledger. */
  lemma {:induction false} CompletedLedger(stages: seq<Stage>, f: Files, env: Env)
    requires CleanNames(stages) && Run(stages, f, env).Completed?
    ensures var after := Run(stages, f, env).files.ledger;
      && |after| == |f.ledger| + |LedgerNames(stages)|
      && after[..|f.ledger|] == f.ledger
      && forall k :: 0 <= k < |LedgerNames(stages)| ==> LabelOf(after[|f.ledger| + k]) == LedgerNames(stages)[k]
    decreases |stages|
  {
    if |stages| > 0 {
      var init := stages[..|stages| - 1];
      var s := stages[|stages| - 1];
      assert CleanNames(init) by {
        forall i | 0 <= i < |init| && init[i].Service? ensures ',' !in init[i].driver.ledgerName {
          assert init[i] == stages[i];
        }
      }
      var g := Run(init, f, env);
      assert g.Completed?;
      CompletedLedger(init, f, env);
      var mid := g.files.ledger;
      var after := Run(stages, f, env).files.ledger;
      if s.Service? {
        var v :| after == mid + [Line(s.driver.ledgerName, v)];
        LineRoundTrip(s.driver.ledgerName, v);
        assert after[..|mid|] == mid;
        assert after[..|f.ledger|] == mid[..|f.ledger|];
      }
    }
  }

  /** A ledger column named after none of the drivers that ran reads the
      same after the run as before it, whatever the outcome. */
  lemma {:induction false} UntouchedColumn(stages: seq<Stage>, f: Files, env: Env, column: string)
    requires CleanNames(stages) && column !in LedgerNames(stages)
    ensures LatestEntry(Run(stages, f, env).files.ledger, column) == LatestEntry(f.ledger, column)
    decreases |stages|
  {
    if |stages| > 0 {
      var init := stages[..|stages| - 1];
      var s := stages[|stages| - 1];
      assert CleanNames(init) by {
        forall i | 0 <= i < |init| && init[i].Service? ensures ',' !in init[i].driver.ledgerName {
          assert init[i] == stages[i];
        }
      }
      UntouchedColumn(init, f, env, column);
      var g := Run(init, f, env);
      if g.Completed? && s.Service? {
        var mid := g.files.ledger;
        var after := Run(stages, f, env).files.ledger;
        if after != mid {
          var v :| after == mid + [Line(s.driver.ledgerName, v)];
          AppendIsLatest(mid, s.driver.ledgerName, v, column);
        }
      }
    }
  }

  /** The names `main()` writes to the ledger, in order; note 'AmazpnEKS'. */
  const MainLedgerOrder: seq<string> :=
    ["AmazonCloudWatch", "AmazpnEKS", "AmazonVPC", "AmazonS3", "AmazonEC2",
     "AWSConfig", "awskms", "Compute Engine", "Kubernetes Engine", "Networking"]

  /** The ledger names of one stage. */
  function StageNames(s: Stage): seq<string>
  {
    if s.Service? then [s.driver.ledgerName] else []
  }

  lemma {:induction false} LedgerNamesPrefix(stages: seq<Stage>, k: nat)
    requires k < |stages|
    ensures LedgerNames(stages[..k + 1]) == LedgerNames(stages[..k]) + StageNames(stages[k])
  {
    assert stages[..k + 1][..k] == stages[..k];
  }

  /** The ledger names of a list of drivers, in order. */
  function DriverNames(ds: seq<Driver>): (r: seq<string>)
    ensures |r| == |ds|
    ensures forall i :: 0 <= i < |ds| ==> r[i] == ds[i].ledgerName
  {
    seq(|ds|, i requires 0 <= i < |ds| => ds[i].ledgerName)
  }

  /** The preparation stages write no ledger line; the drivers write theirs
      in order. */
  lemma {:induction false} PrepThenDrivers(ds: seq<Driver>)
    ensures LedgerNames(Prep + Services(ds)) == DriverNames(ds)
  {
    if |ds| == 0 {
      var s := Prep;
      assert s + Services(ds) == s;
      assert s[..0] == [];
      LedgerNamesPrefix(s, 0);
      LedgerNamesPrefix(s, 1);
      LedgerNamesPrefix(s, 2);
      assert s[..3] == s;
    } else {
      var init := ds[..|ds| - 1];
      PrepThenDrivers(init);
      var s := Prep + Services(ds);
      assert s[..|s| - 1] == Prep + Services(init);
    }
  }

  /** Every driver of the list writes a comma-free ledger name. */
  lemma {:induction false} PrepThenCleanDrivers(ds: seq<Driver>)
    requires forall i :: 0 <= i < |ds| ==> ',' !in DriverNames(ds)[i]
    ensures CleanNames(Prep + Services(ds))
  {
    var s := Prep + Services(ds);
    forall i | 0 <= i < |s| && s[i].Service?
      ensures ',' !in s[i].driver.ledgerName
    {
      assert s[i] == Services(ds)[i - 3];
      assert ',' !in DriverNames(ds)[i - 3];
    }
  }

  lemma {:induction false} MainLedgerNames()
    ensures LedgerNames(MainStages) == MainLedgerOrder
  {
    PrepThenDrivers(MainDrivers);
    assert DriverNames(MainDrivers) == MainLedgerOrder;
  }

  /** No driver of `main()` writes a comma in its ledger name. */
  lemma {:induction false} MainCleanNames()
    ensures CleanNames(MainStages)
  {
    assert forall i :: 0 <= i < |MainLedgerOrder| ==> ',' !in MainLedgerOrder[i];
    assert DriverNames(MainDrivers) == MainLedgerOrder;
    PrepThenCleanDrivers(MainDrivers);
  }

  /** A completed `main()` appended ten ledger lines, one per driver, in
      the order the drivers ran. */
  lemma {:induction false} MainLedger(f: Files, env: Env)
    requires Main(f, env).Completed?
    ensures var after := Main(f, env).files.ledger;
      && |after| == |f.ledger| + 10
      && after[..|f.ledger|] == f.ledger
      && forall k :: 0 <= k < 10 ==> LabelOf(after[|f.ledger| + k]) == MainLedgerOrder[k]
  {
    MainLedgerNames();
    MainCleanNames();
    CompletedLedger(MainStages, f, env);
  }

  /** A completed run left behind the forecast file of every driver among
      its stages. */
  lemma {:induction false} CompletedForecasts(stages: seq<Stage>, f: Files, env: Env)
    requires Run(stages, f, env).Completed?
    ensures f.forecasts.Keys <= Run(stages, f, env).files.forecasts.Keys
    ensures forall i :: 0 <= i < |stages| && stages[i].Service? ==>
      ForecastFileName(stages[i].driver.forecastName) in Run(stages, f, env).files.forecasts
    decreases |stages|
  {
    if |stages| > 0 {
      var init := stages[..|stages| - 1];
      CompletedForecasts(init, f, env);
      forall i | 0 <= i < |stages| - 1
        ensures stages[i] == init[i]
      {
      }
    }
  }

  /** After a completed run, a ledger column some driver of the run writes
      reads back a line written by that run. */
  lemma {:induction false} ColumnWritten(stages: seq<Stage>, f: Files, env: Env, column: string)
    requires CleanNames(stages) && Run(stages, f, env).Completed?
    requires column in LedgerNames(stages)
    ensures var after := Run(stages, f, env).files.ledger;
      && LatestEntry(after, column).Ok?
      && exists i :: |f.ledger| <= i && LatestAt(after, column, i)
  {
    CompletedLedger(stages, f, env);
    var after := Run(stages, f, env).files.ledger;
    var k :| 0 <= k < |LedgerNames(stages)| && LedgerNames(stages)[k] == column;
    assert FiledUnder(after[|f.ledger| + k], column);
    LatestEntryFound(after, column);
    var latest := LatestEntry(after, column);
    var i :| LatestAt(after, column, i) && latest.value == ValueOf(after[i]);
    assert |f.ledger| + k <= i;
  }

  /** `main()` with every driver's ledger name spelt as the alerting API
      reads it. */
  const CorrectedDrivers: seq<Driver> :=
    [CloudWatch, AwsDriver("AmazonEKS", 1.5, "AmazonEKS", "amazonEKS"), Vpc, S3, Ec2,
     AwsDriver("AWSConfig", 0.5, "AwsConfig", "awsConfig"),
     AwsDriver("awskms", 0.05, "AWSKMS", "awskms"),
     GcpDriver("Compute Engine", 14.0, "ComputeEngine", "compute_engine"),
     GcpDriver("Kubernetes Engine", 5.35, "KubernetesEngine", "kubernetes_engine"),
     Networking]

  const CorrectedStages: seq<Stage> := Prep + Services(CorrectedDrivers)

  const CorrectedLedgerOrder: seq<string> :=
    ["AmazonCloudWatch", "AmazonEKS", "AmazonVPC", "AmazonS3", "AmazonEC2",
     "AwsConfig", "AWSKMS", "ComputeEngine", "KubernetesEngine", "Networking"]

  lemma {:induction false} CorrectedLedgerNames()
    ensures LedgerNames(CorrectedStages) == CorrectedLedgerOrder
  {
    PrepThenDrivers(CorrectedDrivers);
    assert DriverNames(CorrectedDrivers) == CorrectedLedgerOrder;
  }

  lemma {:induction false} CorrectedCleanNames()
    ensures CleanNames(CorrectedStages)
  {
    assert forall i :: 0 <= i < |CorrectedLedgerOrder| ==> ',' !in CorrectedLedgerOrder[i];
    assert DriverNames(CorrectedDrivers) == CorrectedLedgerOrder;
    PrepThenCleanDrivers(CorrectedDrivers);
  }
}

=== FILE: probe_k8s.dfy ===
/** The Kubernetes probe's node bookkeeping: capacities read from the node
    list, requested cpu and memory summed per node over the pods' containers,
    and the over-provisioning verdict.  Node and pod listings are inputs; the
    cluster calls that produce them are not part of this model. */
module KubernetesProbe {
  import opened Base
  import opened Dict
  import opened Numbers

  /** A node: its name and its `status.capacity` strings. */
  datatype Node = Node(name: string, capacity: map<string, string>)

  /** A container: its `resources.requests`, absent or a string map. */
  datatype Container = Container(requests: Option<map<string, string>>)

  /** A pod: the node it is scheduled on and its containers. */
  datatype Pod = Pod(nodeName: string, containers: seq<Container>)

  /** A cpu and memory pair: capacity in cores and MiB, usage in millicores
      and MiB. */
  datatype Amount = Amount(cpu: int, memory: int)

  function Plus(a: Amount, b: Amount): Amount
  {
    Amount(a.cpu + b.cpu, a.memory + b.memory)
  }

  /** The capacity entry of one node: cpu as written, memory with every
      "Ki" removed and floor-divided by 1024. */
  function NodeCapacity(node: Node): Result<Amount>
  {
    var cpuText :- Lookup(node.capacity, "cpu");
    var cpu :- ParseInt(cpuText);
    var memoryText :- Lookup(node.capacity, "memory");
    var kib :- ParseInt(RemoveAll(memoryText, "Ki"));
    Ok(Amount(cpu, kib / 1024))
  }

  /** What a capacity entry holds: the cpu count, and the memory in KiB
      rounded down to whole MiB; reading fails exactly when a field is
      missing or is not an integer. */
  lemma {:induction false} NodeCapacityReads(node: Node)
    ensures NodeCapacity(node).Ok? <==>
      && "cpu" in node.capacity && ParsesAsInt(node.capacity["cpu"])
      && "memory" in node.capacity && ParsesAsInt(RemoveAll(node.capacity["memory"], "Ki"))
    ensures NodeCapacity(node).Ok? ==> NodeCapacity(node).value.cpu == ParseInt(node.capacity["cpu"]).value
    ensures NodeCapacity(node).Ok? ==>
      var kib := ParseInt(RemoveAll(node.capacity["memory"], "Ki")).value;
      var mib := NodeCapacity(node).value.memory;
      mib * 1024 <= kib < (mib + 1) * 1024
    ensures NodeCapacity(node).Err? ==> NodeCapacity(node).error in {KeyError("cpu"), KeyError("memory"), ValueError("int")}
  {
    if "cpu" in node.capacity { ParseIntAccepts(node.capacity["cpu"]); }
    if "memory" in node.capacity { ParseIntAccepts(RemoveAll(node.capacity["memory"], "Ki")); }
  }

  /** Node `i` is the first whose capacity cannot be read. */
  predicate FirstBadNode(nodes: seq<Node>, i: int)
  {
    && 0 <= i < |nodes| && NodeCapacity(nodes[i]).Err?
    && forall j :: 0 <= j < i ==> NodeCapacity(nodes[j]).Ok?
  }

  /** No later node carries the same name as node `i`. */
  predicate LastNamed(nodes: seq<Node>, i: int)
    requires 0 <= i < |nodes|
  {
    forall j :: i < j < |nodes| ==> nodes[j].name != nodes[i].name
  }

  predicate IsNodeName(nodes: seq<Node>, n: string)
  {
    exists i :: 0 <= i < |nodes| && nodes[i].name == n
  }

  /** The first loop of `calculate_node_usage`, capacity side: every
      listed node gets an entry (a repeated name keeps the position of its
      first node and the value of its last); the first unreadable node
      aborts. */
  function Capacities(nodes: seq<Node>): (r: Result<Dict<string, Amount>>)
    ensures r.Ok? <==> forall i :: 0 <= i < |nodes| ==> NodeCapacity(nodes[i]).Ok?
    ensures r.Err? ==> exists i :: FirstBadNode(nodes, i) && r.error == NodeCapacity(nodes[i]).error
    ensures r.Ok? ==> Valid(r.value)
  {
    var readings := seq(|nodes|, i requires 0 <= i < |nodes| => NodeCapacity(nodes[i]));
    var caps := AllOk(readings);
    assert forall j :: 0 <= j < |nodes| ==> readings[j] == NodeCapacity(nodes[j]);
    if caps.Err? then
      assert exists i :: FirstBadNode(nodes, i) && caps.error == NodeCapacity(nodes[i]).error by {
        var i :| FirstErr(readings, i) && caps.error == readings[i].error;
        assert FirstBadNode(nodes, i);
      }
      Err(caps.error)
    else
      Ok(FromPairs(CapacityPairs(nodes, caps.value)))
  }

  /** The (name, capacity) assignments of the first loop, in node order. */
  function CapacityPairs(nodes: seq<Node>, caps: seq<Amount>): (ps: seq<(string, Amount)>)
    requires |caps| == |nodes|
    ensures |ps| == |nodes| && forall i :: 0 <= i < |nodes| ==> ps[i] == (nodes[i].name, caps[i])
  {
    seq(|nodes|, i requires 0 <= i < |nodes| => (nodes[i].name, caps[i]))
  }

  /** The capacity table has an entry for exactly the listed node names. */
  lemma {:induction false} CapacitiesKeys(nodes: seq<Node>)
    requires Capacities(nodes).Ok?
    ensures forall n :: n in Keys(Capacities(nodes).value) <==> IsNodeName(nodes, n)
  {
    var caps := AllOk(seq(|nodes|, i requires 0 <= i < |nodes| => NodeCapacity(nodes[i]))).value;
    var ps := CapacityPairs(nodes, caps);
    forall n ensures Assigned(ps, n) <==> IsNodeName(nodes, n) {
      if IsNodeName(nodes, n) {
        var i :| 0 <= i < |nodes| && nodes[i].name == n;
        assert ps[i].0 == n;
      }
    }
  }

  /** The capacity entry of a name is read from the last node carrying it. */
  lemma {:induction false} CapacitiesLastWins(nodes: seq<Node>)
    requires Capacities(nodes).Ok?
    ensures forall i :: 0 <= i < |nodes| && LastNamed(nodes, i) ==>
      Get(Capacities(nodes).value, nodes[i].name) == Some(NodeCapacity(nodes[i]).value)
  {
    var caps := AllOk(seq(|nodes|, i requires 0 <= i < |nodes| => NodeCapacity(nodes[i]))).value;
    var ps := CapacityPairs(nodes, caps);
    forall i | 0 <= i < |nodes| && LastNamed(nodes, i)
      ensures Get(Capacities(nodes).value, nodes[i].name) == Some(NodeCapacity(nodes[i]).value)
    {
      assert LastAssigned(ps, i);
      FromPairsLastWins(ps, i);
    }
  }

  /** The first loop of `calculate_node_usage`, usage side: a zero entry
      for every node name.  Only the capacity table is ever iterated, so the
      usage table's order is not modelled. */
  function ZeroUsage(capacity: Dict<string, Amount>): (usage: map<string, Amount>)
    ensures forall n :: n in usage <==> n in Keys(capacity)
    ensures forall n :: n in usage ==> usage[n] == Amount(0, 0)
  {
    map n | n in Keys(capacity) :: Amount(0, 0)
  }

  /** A container counts only when its requests are present and non-empty. */
  predicate Requests(c: Container)
  {
    c.requests.Some? && |c.requests.value| > 0
  }

  /** A container's requests, attributed to the node its pod runs on. */
  datatype Demand = Demand(node: string, requests: map<string, string>)

  /** The demands of a pod's requesting containers, in container order. */
  function ContainerDemands(node: string, containers: seq<Container>): seq<Demand>
  {
    if |containers| == 0 then []
    else
      var c := containers[|containers| - 1];
      ContainerDemands(node, containers[..|containers| - 1])
        + (if Requests(c) then [Demand(node, c.requests.value)] else [])
  }

  /** Container `j` requests something and `d` is its demand. */
  predicate RequestOf(node: string, containers: seq<Container>, j: int, d: Demand)
  {
    0 <= j < |containers| && Requests(containers[j]) && d == Demand(node, containers[j].requests.value)
  }

  /** A pod's demands are exactly those of its containers with non-empty
      requests: absent or empty requests contribute nothing. */
  lemma {:induction false} ContainerDemandsAre(node: string, containers: seq<Container>)
    ensures forall d :: d in ContainerDemands(node, containers) <==> exists j :: RequestOf(node, containers, j, d)
  {
    if |containers| > 0 {
      var init := containers[..|containers| - 1];
      var c := containers[|containers| - 1];
      var prev := ContainerDemands(node, init);
      var r := ContainerDemands(node, containers);
      ContainerDemandsAre(node, init);
      assert r == prev + (if Requests(c) then [Demand(node, c.requests.value)] else []);
      forall d ensures d in r <==> exists j :: RequestOf(node, containers, j, d) {
        if d in prev {
          var j :| RequestOf(node, init, j, d);
          assert RequestOf(node, containers, j, d);
        }
        if Requests(c) && d == Demand(node, c.requests.value) {
          assert RequestOf(node, containers, |init|, d);
          assert r[|r| - 1] == d;
        }
        if exists j :: RequestOf(node, containers, j, d) {
          var j :| RequestOf(node, containers, j, d);
          if j < |init| {
            assert RequestOf(node, init, j, d);
            assert d in prev;
          }
        }
      }
    }
  }

  function PodDemands(pod: Pod): seq<Demand>
  {
    ContainerDemands(pod.nodeName, pod.containers)
  }

  /** The demands of all pods, pod by pod. */
  function Demands(pods: seq<Pod>): seq<Demand>
  {
    if |pods| == 0 then [] else Demands(pods[..|pods| - 1]) + PodDemands(pods[|pods| - 1])
  }

  /** Every demand comes from some pod, and every pod's demands are there. */
  lemma {:induction false} DemandsAre(pods: seq<Pod>)
    ensures forall d :: d in Demands(pods) <==> exists i :: 0 <= i < |pods| && d in PodDemands(pods[i])
  {
    if |pods| > 0 {
      var init := pods[..|pods| - 1];
      DemandsAre(init);
      assert forall i :: 0 <= i < |init| ==> init[i] == pods[i];
      forall d ensures d in Demands(pods) <==> exists i :: 0 <= i < |pods| && d in PodDemands(pods[i]) {
        if exists i :: 0 <= i < |pods| && d in PodDemands(pods[i]) {
          var i :| 0 <= i < |pods| && d in PodDemands(pods[i]);
          if i < |init| { assert d in PodDemands(init[i]); }
        }
      }
    }
  }

  /** `int(requests["cpu"].replace("m", ""))`. */
  function DemandCpu(d: Demand): Result<int>
  {
    var text :- Lookup(d.requests, "cpu");
    ParseInt(RemoveAll(text, "m"))
  }

  /** `int(requests["memory"].replace("Mi", ""))`. */
  function DemandMemory(d: Demand): Result<int>
  {
    var text :- Lookup(d.requests, "memory");
    ParseInt(RemoveAll(text, "Mi"))
  }

  /** One step of the second loop: a node with no usage entry raises a
      KeyError, then the cpu request is read, then the memory request. */
  function DemandAmount(nodes: set<string>, d: Demand): Result<Amount>
  {
    if d.node !in nodes then Err(KeyError(d.node))
    else
      var cpu :- DemandCpu(d);
      var memory :- DemandMemory(d);
      Ok(Amount(cpu, memory))
  }

  predicate FirstBadDemand(nodes: set<string>, ds: seq<Demand>, i: int)
  {
    && 0 <= i < |ds| && DemandAmount(nodes, ds[i]).Err?
    && forall j :: 0 <= j < i ==> DemandAmount(nodes, ds[j]).Ok?
  }

  /** Reference definition: the cpu and memory requested on node `n`. */
  function Requested(ds: seq<Demand>, n: string): Amount
  {
    if |ds| == 0 then Amount(0, 0)
    else
      var d := ds[|ds| - 1];
      var prev := Requested(ds[..|ds| - 1], n);
      if d.node == n && DemandCpu(d).Ok? && DemandMemory(d).Ok? then
        Plus(prev, Amount(DemandCpu(d).value, DemandMemory(d).value))
      else prev
  }

  /** The second loop of `calculate_node_usage`: each demand is added to its
      node's usage entry; the first demand that cannot be added aborts.  The
      usage table is local to the call, so an abort discards it. */
  function AddDemands(usage: map<string, Amount>, ds: seq<Demand>): (r: Result<map<string, Amount>>)
    ensures r.Ok? <==> forall i :: 0 <= i < |ds| ==> DemandAmount(usage.Keys, ds[i]).Ok?
    ensures r.Err? ==> exists i :: FirstBadDemand(usage.Keys, ds, i) && r.error == DemandAmount(usage.Keys, ds[i]).error
    ensures r.Ok? ==> r.value.Keys == usage.Keys
  {
    var steps := seq(|ds|, i requires 0 <= i < |ds| => DemandAmount(usage.Keys, ds[i]));
    var amounts := AllOk(steps);
    assert forall j :: 0 <= j < |ds| ==> steps[j] == DemandAmount(usage.Keys, ds[j]);
    if amounts.Err? then
      assert exists i :: FirstBadDemand(usage.Keys, ds, i) && amounts.error == DemandAmount(usage.Keys, ds[i]).error by {
        var i :| FirstErr(steps, i) && amounts.error == steps[i].error;
        assert FirstBadDemand(usage.Keys, ds, i);
      }
      Err(amounts.error)
    else
      var adds := Additions(ds, amounts.value);
      assert forall i :: 0 <= i < |adds| ==> adds[i].0 in usage by {
        forall i | 0 <= i < |adds| ensures adds[i].0 in usage { assert steps[i].Ok?; }
      }
      Ok(Accumulate(usage, adds))
  }

  /** Each demand's node paired with the amount read from it. */
  function Additions(ds: seq<Demand>, amounts: seq<Amount>): (adds: seq<(string, Amount)>)
    requires |amounts| == |ds|
    ensures |adds| == |ds| && forall i :: 0 <= i < |ds| ==> adds[i] == (ds[i].node, amounts[i])
  {
    seq(|ds|, i requires 0 <= i < |ds| => (ds[i].node, amounts[i]))
  }

  /** `node_usage[node]["cpu"] += …; node_usage[node]["memory"] += …` for
      each addition in turn. */
  function Accumulate(usage: map<string, Amount>, adds: seq<(string, Amount)>): (r: map<string, Amount>)
    requires forall i :: 0 <= i < |adds| ==> adds[i].0 in usage
    ensures r.Keys == usage.Keys
  {
    if |adds| == 0 then usage
    else
      var init := adds[..|adds| - 1];
      var last := adds[|adds| - 1];
      assert forall i :: 0 <= i < |init| ==> init[i] == adds[i];
      var u := Accumulate(usage, init);
      u[last.0 := Plus(u[last.0], last.1)]
  }

  /** The sum of the additions made to node `n`. */
  function Total(adds: seq<(string, Amount)>, n: string): Amount
  {
    if |adds| == 0 then Amount(0, 0)
    else
      var prev := Total(adds[..|adds| - 1], n);
      if adds[|adds| - 1].0 == n then Plus(prev, adds[|adds| - 1].1) else prev
  }

  /** Each usage entry grows by exactly the sum of the additions to it. */
  lemma {:induction false} AccumulateTotals(usage: map<string, Amount>, adds: seq<(string, Amount)>, n: string)
    requires forall i :: 0 <= i < |adds| ==> adds[i].0 in usage
    requires n in usage
    ensures Accumulate(usage, adds)[n] == Plus(usage[n], Total(adds, n))
  {
    if |adds| > 0 {
      var init := adds[..|adds| - 1];
      assert forall i :: 0 <= i < |init| ==> init[i] == adds[i];
      AccumulateTotals(usage, init, n);
    }
  }

  /** The additions sum, per node, to the reference total of requests. */
  lemma {:induction false} TotalIsRequested(nodes: set<string>, ds: seq<Demand>, amounts: seq<Amount>, n: string)
    requires |amounts| == |ds|
    requires forall i :: 0 <= i < |ds| ==> DemandAmount(nodes, ds[i]) == Ok(amounts[i])
    ensures Total(Additions(ds, amounts), n) == Requested(ds, n)
  {
    if |ds| > 0 {
      var k := |ds| - 1;
      assert Additions(ds, amounts)[..k] == Additions(ds[..k], amounts[..k]);
      TotalIsRequested(nodes, ds[..k], amounts[..k], n);
      assert DemandAmount(nodes, ds[k]) == Ok(amounts[k]);
    }
  }

  /** `calculate_node_usage(nodes, pods)`: the capacity and usage tables. */
  function CalculateNodeUsage(nodes: seq<Node>, pods: seq<Pod>): (r: Result<(Dict<string, Amount>, map<string, Amount>)>)
    ensures r.Ok? ==> Valid(r.value.0) && forall n :: n in r.value.1 <==> n in Keys(r.value.0)
  {
    var capacity :- Capacities(nodes);
    var usage :- AddDemands(ZeroUsage(capacity), Demands(pods));
    Ok((capacity, usage))
  }

  /** The usage entry of every listed node is the reference sum of what its
      pods' containers request. */
  lemma {:induction false} NodeUsageIsRequested(nodes: seq<Node>, pods: seq<Pod>)
    requires CalculateNodeUsage(nodes, pods).Ok?
    ensures forall i :: 0 <= i < |nodes| ==>
      && nodes[i].name in CalculateNodeUsage(nodes, pods).value.1
      && CalculateNodeUsage(nodes, pods).value.1[nodes[i].name] == Requested(Demands(pods), nodes[i].name)
  {
    forall i | 0 <= i < |nodes|
      ensures nodes[i].name in CalculateNodeUsage(nodes, pods).value.1
      ensures CalculateNodeUsage(nodes, pods).value.1[nodes[i].name] == Requested(Demands(pods), nodes[i].name)
    {
      assert IsNodeName(nodes, nodes[i].name);
      UsageOfNode(nodes, pods, nodes[i].name);
    }
  }

  lemma {:induction false} UsageOfNode(nodes: seq<Node>, pods: seq<Pod>, n: string)
    requires CalculateNodeUsage(nodes, pods).Ok?
    requires IsNodeName(nodes, n)
    ensures n in CalculateNodeUsage(nodes, pods).value.1
    ensures CalculateNodeUsage(nodes, pods).value.1[n] == Requested(Demands(pods), n)
  {
    var usage0 := ZeroUsage(Capacities(nodes).value);
    CapacitiesKeys(nodes);
    AddDemandsTotals(usage0, Demands(pods), n);
    assert Plus(Amount(0, 0), Requested(Demands(pods), n)) == Requested(Demands(pods), n);
  }

  /** Each usage entry grows by the reference total of the requests made on
      its node. */
  lemma {:induction false} AddDemandsTotals(usage: map<string, Amount>, ds: seq<Demand>, n: string)
    requires AddDemands(usage, ds).Ok? && n in usage
    ensures AddDemands(usage, ds).value[n] == Plus(usage[n], Requested(ds, n))
  {
    var steps := seq(|ds|, i requires 0 <= i < |ds| => DemandAmount(usage.Keys, ds[i]));
    var amounts := AllOk(steps).value;
    var adds := Additions(ds, amounts);
    assert forall j :: 0 <= j < |ds| ==> steps[j] == DemandAmount(usage.Keys, ds[j]);
    assert forall j :: 0 <= j < |adds| ==> adds[j].0 in usage by {
      forall j | 0 <= j < |adds| ensures adds[j].0 in usage { assert steps[j].Ok?; }
    }
    AccumulateTotals(usage, adds, n);
    TotalIsRequested(usage.Keys, ds, amounts, n);
  }

  /** The capacity entry of every node name is read from the last node of
      that name. */
  lemma {:induction false} NodeCapacityEntries(nodes: seq<Node>, pods: seq<Pod>)
    requires CalculateNodeUsage(nodes, pods).Ok?
    ensures forall i :: 0 <= i < |nodes| && LastNamed(nodes, i) ==>
      Get(CalculateNodeUsage(nodes, pods).value.0, nodes[i].name) == Some(NodeCapacity(nodes[i]).value)
  {
    CapacitiesLastWins(nodes);
  }

  /** A demand that can be added once the capacity table is built. */
  predicate DemandReadable(nodes: seq<Node>, d: Demand)
  {
    IsNodeName(nodes, d.node) && DemandCpu(d).Ok? && DemandMemory(d).Ok?
  }

  /** The calculation succeeds exactly when every node's capacity is
      readable and every requesting container sits on a listed node with
      readable cpu and memory requests. */
  lemma {:induction false} NodeUsageSucceeds(nodes: seq<Node>, pods: seq<Pod>)
    ensures CalculateNodeUsage(nodes, pods).Ok? <==>
      && (forall i :: 0 <= i < |nodes| ==> NodeCapacity(nodes[i]).Ok?)
      && forall i :: 0 <= i < |Demands(pods)| ==> DemandReadable(nodes, Demands(pods)[i])
  {
    if Capacities(nodes).Ok? {
      DemandsDecide(nodes, pods);
    }
  }

  /** Once the capacity table is built, the demands alone decide. */
  lemma {:induction false} DemandsDecide(nodes: seq<Node>, pods: seq<Pod>)
    requires Capacities(nodes).Ok?
    ensures CalculateNodeUsage(nodes, pods).Ok? <==>
      forall i :: 0 <= i < |Demands(pods)| ==> DemandReadable(nodes, Demands(pods)[i])
  {
    var usage0 := ZeroUsage(Capacities(nodes).value);
    var ds := Demands(pods);
    UsageAfterCapacities(nodes, pods);
    ZeroUsageKeys(nodes);
    AllReadable(usage0.Keys, nodes, ds);
    assert AddDemands(usage0, ds).Ok? <==> forall i :: 0 <= i < |ds| ==> DemandAmount(usage0.Keys, ds[i]).Ok?;
  }

  lemma {:induction false} UsageAfterCapacities(nodes: seq<Node>, pods: seq<Pod>)
    requires Capacities(nodes).Ok?
    ensures CalculateNodeUsage(nodes, pods).Ok? <==> AddDemands(ZeroUsage(Capacities(nodes).value), Demands(pods)).Ok?
  {
  }

  lemma {:induction false} ZeroUsageKeys(nodes: seq<Node>)
    requires Capacities(nodes).Ok?
    ensures forall n :: n in ZeroUsage(Capacities(nodes).value).Keys <==> IsNodeName(nodes, n)
  {
    CapacitiesKeys(nodes);
  }

  lemma {:induction false} AllReadable(keys: set<string>, nodes: seq<Node>, ds: seq<Demand>)
    requires forall n :: n in keys <==> IsNodeName(nodes, n)
    ensures (forall i :: 0 <= i < |ds| ==> DemandAmount(keys, ds[i]).Ok?) <==>
      forall i :: 0 <= i < |ds| ==> DemandReadable(nodes, ds[i])
  {
    forall i | 0 <= i < |ds| ensures DemandAmount(keys, ds[i]).Ok? <==> DemandReadable(nodes, ds[i]) {
      ReadableOnListedNode(keys, nodes, ds[i]);
    }
  }

  lemma {:induction false} ReadableOnListedNode(keys: set<string>, nodes: seq<Node>, d: Demand)
    requires forall n :: n in keys <==> IsNodeName(nodes, n)
    ensures DemandAmount(keys, d).Ok? <==> DemandReadable(nodes, d)
    ensures !IsNodeName(nodes, d.node) ==> DemandAmount(keys, d) == Err(KeyError(d.node))
  {
  }

  /** A pod on a node that is not in the node list makes the calculation
      fail with a KeyError naming that node, once every earlier demand is
      fine. */
  lemma {:induction false} UnknownNodeFails(nodes: seq<Node>, pods: seq<Pod>, i: nat)
    requires forall j :: 0 <= j < |nodes| ==> NodeCapacity(nodes[j]).Ok?
    requires i < |Demands(pods)| && !IsNodeName(nodes, Demands(pods)[i].node)
    requires forall j :: 0 <= j < i ==> DemandReadable(nodes, Demands(pods)[j])
    ensures CalculateNodeUsage(nodes, pods) == Err(KeyError(Demands(pods)[i].node))
  {
    CapacitiesKeys(nodes);
    var usage0 := ZeroUsage(Capacities(nodes).value);
    var keys := usage0.Keys;
    var ds := Demands(pods);
    forall j | 0 <= j <= i ensures DemandAmount(keys, ds[j]).Ok? <==> DemandReadable(nodes, ds[j]) {
      ReadableOnListedNode(keys, nodes, ds[j]);
    }
    ReadableOnListedNode(keys, nodes, ds[i]);
    var r := AddDemands(usage0, ds);
    var k :| FirstBadDemand(keys, ds, k) && r.error == DemandAmount(keys, ds[k]).error;
    assert k == i;
  }

  /** Requests attributed to other nodes leave a node's total alone. */
  lemma {:induction false} RequestedElsewhere(ds: seq<Demand>, d: Demand, n: string)
    requires d.node != n
    ensures Requested(ds + [d], n) == Requested(ds, n)
  {
    assert (ds + [d])[..|ds|] == ds;
  }

  /** The over-provisioning report of one node. */
  datatype OverProvisioned = OverProvisioned(node: string, usage: Amount, capacity: Amount)

  /** The first capacity entry that has no usage entry. */
  predicate FirstUnmeasured(capacity: Dict<string, Amount>, usage: map<string, Amount>, i: int)
  {
    && 0 <= i < |capacity| && capacity[i].0 !in usage
    && forall j :: 0 <= j < i ==> capacity[j].0 in usage
  }

  function Unmeasured(capacity: Dict<string, Amount>, usage: map<string, Amount>): (r: Option<string>)
    ensures r.None? <==> forall i :: 0 <= i < |capacity| ==> capacity[i].0 in usage
    ensures r.Some? ==> exists i :: FirstUnmeasured(capacity, usage, i) && r.value == capacity[i].0
  {
    if |capacity| == 0 then None
    else if capacity[0].0 !in usage then
      assert FirstUnmeasured(capacity, usage, 0);
      Some(capacity[0].0)
    else
      var r := Unmeasured(capacity[1..], usage);
      assert forall i :: 1 <= i < |capacity| ==> capacity[i] == capacity[1..][i - 1];
      assert r.Some? ==> exists i :: FirstUnmeasured(capacity, usage, i) && r.value == capacity[i].0 by {
        if r.Some? {
          var i :| FirstUnmeasured(capacity[1..], usage, i) && r.value == capacity[1..][i].0;
          assert FirstUnmeasured(capacity, usage, i + 1);
        }
      }
      r
  }

  /** `node_over_provisioning`: the loop only looks every node up in the
      usage table; the verdict is then taken on the variables the loop left
      behind, those of the last node, which is flagged when its cpu usage is
      below half its capacity (rounded down).  With no node at all the
      variables were never bound. */
  function NodeOverProvisioning(capacity: Dict<string, Amount>, usage: map<string, Amount>): (r: Result<Option<OverProvisioned>>)
    ensures r.Ok? <==> |capacity| > 0 && forall i :: 0 <= i < |capacity| ==> capacity[i].0 in usage
    ensures |capacity| == 0 ==> r == Err(UnboundLocalError("usage"))
    ensures |capacity| > 0 && r.Err? ==> exists i :: FirstUnmeasured(capacity, usage, i) && r.error == KeyError(capacity[i].0)
    ensures r.Ok? ==>
      var (node, cap) := capacity[|capacity| - 1];
      && (r.value.Some? <==> 2 * usage[node].cpu + 1 < cap.cpu)
      && (r.value.Some? ==> r.value.value == OverProvisioned(node, usage[node], cap))
  {
    match Unmeasured(capacity, usage)
    case Some(node) => Err(KeyError(node))
    case None =>
      if |capacity| == 0 then Err(UnboundLocalError("usage"))
      else
        var (node, cap) := capacity[|capacity| - 1];
        var used := usage[node];
        if used.cpu < cap.cpu / 2 then Ok(Some(OverProvisioned(node, used, cap))) else Ok(None)
  }

  /** Only the last node is judged: the nodes before it can change the
      outcome only by lacking a usage entry. */
  lemma {:induction false} OnlyLastNodeJudged(front: Dict<string, Amount>, node: string, cap: Amount, usage: map<string, Amount>)
    requires forall i :: 0 <= i < |front| ==> front[i].0 in usage
    ensures NodeOverProvisioning(front + [(node, cap)], usage) == NodeOverProvisioning([(node, cap)], usage)
  {
    var whole := front + [(node, cap)];
    if node in usage {
      assert forall i :: 0 <= i < |whole| ==> whole[i].0 in usage;
    } else {
      assert FirstUnmeasured(whole, usage, |front|);
      var r := NodeOverProvisioning(whole, usage);
      var i :| FirstUnmeasured(whole, usage, i) && r.error == KeyError(whole[i].0);
      assert i == |front|;
    }
  }

  /** `get_cluster_names`: the `name` of every cluster, in order. */
  function ClusterNames(clusters: seq<map<string, string>>): (r: Result<seq<string>>)
    ensures r.Ok? <==> forall i :: 0 <= i < |clusters| ==> "name" in clusters[i]
    ensures r.Err? ==> r.error == KeyError("name")
    ensures r.Ok? ==> |r.value| == |clusters| && forall i :: 0 <= i < |clusters| ==> r.value[i] == clusters[i]["name"]
  {
    if |clusters| == 0 then Ok([])
    else
      var init := clusters[..|clusters| - 1];
      assert forall i :: 0 <= i < |init| ==> init[i] == clusters[i];
      var names :- ClusterNames(init);
      var name :- Lookup(clusters[|clusters| - 1], "name");
      Ok(names + [name])
  }
}

=== FILE: probe_kms.dfy ===
/** The KMS probe: the customer-managed key count, the per-key rotation
    tally behind `key_rotation`, and the per-operation tally of
    `get_kms_key_operations`.  The paginated KMS and CloudTrail responses
    are inputs; CloudTrail's time-window filtering is part of the lookup. */
module KmsProbe {
  import opened Base
  import opened Dict

  /** A tally of occurrences per name, in order of first occurrence. */
  type Tally = Dict<string, int>

  /** The sum of the counts of a tally. */
  function Total(d: Tally): int
  {
    if |d| == 0 then 0 else Total(d[..|d| - 1]) + d[|d| - 1].1
  }

  /** `d[k] += 1` on a present key, `d[k] = 1` on a new one. */
  function Bump(d: Tally, k: string): Tally
  {
    Put(d, k, GetOr(d, k, 0) + 1)
  }

  /** Replacing the count of a present key changes the total by the
      difference; an absent key changes nothing. */
  lemma {:induction false} TotalReplace(d: Tally, k: string, v: int)
    requires Valid(d)
    ensures Total(Replace(d, k, v)) == Total(d) + (if k in Keys(d) then v - GetOr(d, k, 0) else 0)
  {
    if |d| > 0 {
      var n := |d| - 1;
      var init := d[..n];
      var r := Replace(d, k, v);
      assert Keys(init) == Keys(d)[..n];
      assert Keys(d) == Keys(init) + [d[n].0];
      assert r[..n] == Replace(init, k, v);
      TotalReplace(init, k, v);
      if d[n].0 == k {
        assert k !in Keys(init) by {
          forall i | 0 <= i < n ensures Keys(init)[i] != k {
            assert Keys(d)[i] != Keys(d)[n];
          }
        }
      } else {
        assert Get(d, k) == Get(init, k);
      }
    }
  }

  /** `d[k] = v` moves the total by the change of `k`'s count. */
  lemma {:induction false} PutTotal(d: Tally, k: string, v: int)
    requires Valid(d)
    ensures Total(Put(d, k, v)) == Total(d) - GetOr(d, k, 0) + v
  {
    if k in Keys(d) {
      TotalReplace(d, k, v);
    } else {
      var r := d + [(k, v)];
      assert r[..|r| - 1] == d;
    }
  }

  /** Reference definition: how often `k` occurs in `names`. */
  function Occurrences(names: seq<string>, k: string): nat
  {
    if |names| == 0 then 0
    else Occurrences(names[..|names| - 1], k) + (if names[|names| - 1] == k then 1 else 0)
  }

  /** Bumping every name of `names` in turn. */
  function TallyFrom(d: Tally, names: seq<string>): (r: Tally)
    ensures Valid(d) ==> Valid(r)
  {
    if |names| == 0 then d else Bump(TallyFrom(d, names[..|names| - 1]), names[|names| - 1])
  }

  /** Each name ends up counted once per occurrence, on top of what it
      started with. */
  lemma {:induction false} TallyCount(d: Tally, names: seq<string>, k: string)
    requires Valid(d)
    ensures GetOr(TallyFrom(d, names), k, 0) == GetOr(d, k, 0) + Occurrences(names, k)
  {
    if |names| > 0 {
      var init := names[..|names| - 1];
      var last := names[|names| - 1];
      TallyCount(d, init, k);
      assert TallyFrom(d, names) == Bump(TallyFrom(d, init), last);
      BumpCount(TallyFrom(d, init), last, k);
    }
  }

  /** A bump adds one to its own name and leaves the others alone. */
  lemma {:induction false} BumpCount(d: Tally, name: string, k: string)
    requires Valid(d)
    ensures GetOr(Bump(d, name), k, 0) == GetOr(d, k, 0) + (if k == name then 1 else 0)
  {
    if k == name {
      assert Get(Bump(d, name), k) == Some(GetOr(d, k, 0) + 1);
    } else {
      assert Get(Bump(d, name), k) == Get(d, k);
    }
  }

  /** The total grows by one per name. */
  lemma {:induction false} TallyTotal(d: Tally, names: seq<string>)
    requires Valid(d)
    ensures Total(TallyFrom(d, names)) == Total(d) + |names|
  {
    if |names| > 0 {
      var init := names[..|names| - 1];
      TallyTotal(d, init);
      PutTotal(TallyFrom(d, init), names[|names| - 1], GetOr(TallyFrom(d, init), names[|names| - 1], 0) + 1);
    }
  }

  /** Starting from an empty tally, the names are listed in order of first
      occurrence. */
  lemma {:induction false} TallyFreshKeys(names: seq<string>)
    ensures Keys(TallyFrom([], names)) == Unique(names)
  {
    if |names| > 0 {
      TallyFreshKeys(names[..|names| - 1]);
    }
  }

  /** Bumping only names already present adds no key. */
  lemma {:induction false} TallyKnownKeys(d: Tally, names: seq<string>)
    requires forall i :: 0 <= i < |names| ==> names[i] in Keys(d)
    ensures Keys(TallyFrom(d, names)) == Keys(d)
  {
    if |names| > 0 {
      TallyKnownKeys(d, names[..|names| - 1]);
    }
  }

  // ---- check_number_of_keys ----

  /** The result of `check_number_of_keys`: a problem report above five
      keys, the bare count otherwise. */
  datatype KeyReport = ManyKeys(count: int) | KeyCount(count: int)

  /** `check_number_of_keys`: the keys of all `list_keys` pages are
      counted page by page; more than five is a problem. */
  method CheckNumberOfKeys(pages: seq<seq<string>>) returns (r: KeyReport)
    ensures r.count == |Flatten(pages)|
    ensures r.ManyKeys? <==> |Flatten(pages)| > 5
  {
    var cmkCount := 0;
    var i := 0;
    while i < |pages|
      invariant 0 <= i <= |pages|
      invariant cmkCount == |Flatten(pages[..i])|
    {
      assert pages[..i + 1][..i] == pages[..i];
      cmkCount := cmkCount + |pages[i]|;
      i := i + 1;
    }
    assert pages[..|pages|] == pages;
    if cmkCount > 5 {
      r := ManyKeys(cmkCount);
    } else {
      r := KeyCount(cmkCount);
    }
  }

  // ---- check_unnecessary_key_rotations / key_rotation ----

  /** A CloudTrail resource; `ResourceName` may be absent. */
  datatype Resource = Resource(resourceName: Option<string>)

  /** A CloudTrail event; an absent field is `None`. */
  datatype Event = Event(eventName: Option<string>, resources: Option<seq<Resource>>)

  /** The event can be read by the rotation loop: it has a name, and a
      `RotateKey` event names its first resource. */
  predicate RotationReadable(e: Event)
  {
    && e.eventName.Some?
    && (e.eventName.value == "RotateKey" ==>
          e.resources.Some? && |e.resources.value| > 0 && e.resources.value[0].resourceName.Some?)
  }

  /** The event is a key rotation. */
  predicate IsRotation(e: Event)
  {
    e.eventName == Some("RotateKey")
  }

  /** One event of the rotation loop: the key it rotates, if it is a
      rotation. */
  function RotatedKey(e: Event): (r: Result<Option<string>>)
    ensures r.Ok? <==> RotationReadable(e)
    ensures r.Err? ==> r.error in {KeyError("EventName"), KeyError("Resources"), IndexError, KeyError("ResourceName")}
    ensures r.Ok? ==> (r.value.Some? <==> IsRotation(e))
    ensures r.Ok? && r.value.Some? ==> r.value.value == e.resources.value[0].resourceName.value
  {
    var name :- Field(e.eventName, "EventName");
    if name != "RotateKey" then Ok(None)
    else
      var resources :- Field(e.resources, "Resources");
      if |resources| == 0 then Err(IndexError)
      else
        var key :- Field(resources[0].resourceName, "ResourceName");
        Ok(Some(key))
  }

  function RotatedKeys(events: seq<Event>): (rs: seq<Result<Option<string>>>)
    ensures |rs| == |events| && forall i :: 0 <= i < |events| ==> rs[i] == RotatedKey(events[i])
  {
    seq(|events|, i requires 0 <= i < |events| => RotatedKey(events[i]))
  }

  /** The counting loop of `check_unnecessary_key_rotations`: each event
      is read and, if it is a rotation, its key is bumped; the first
      unreadable event raises. */
  function CountRotations(events: seq<Event>): (r: Result<Tally>)
    ensures r.Ok? <==> forall i :: 0 <= i < |events| ==> RotationReadable(events[i])
    ensures r.Ok? ==> Valid(r.value)
  {
    if |events| == 0 then Ok([])
    else
      assert forall i :: 0 <= i < |events| - 1 ==> events[..|events| - 1][i] == events[i];
      var counts :- CountRotations(events[..|events| - 1]);
      var key :- RotatedKey(events[|events| - 1]);
      Ok(Record(counts, key))
  }

  /** A failing loop raises the error of the first unreadable event. */
  lemma {:induction false} CountRotationsFails(events: seq<Event>)
    requires CountRotations(events).Err?
    ensures exists i :: FirstErr(RotatedKeys(events), i) && CountRotations(events).error == RotatedKey(events[i]).error
  {
    var init := events[..|events| - 1];
    assert forall i :: 0 <= i < |init| ==> init[i] == events[i];
    if CountRotations(init).Err? {
      CountRotationsFails(init);
      var i :| FirstErr(RotatedKeys(init), i) && CountRotations(init).error == RotatedKey(init[i]).error;
      assert FirstErr(RotatedKeys(events), i);
    } else {
      assert FirstErr(RotatedKeys(events), |events| - 1);
    }
  }

  /** The body of the rotation loop after reading: a rotated key is
      bumped, any other event leaves the tally alone. */
  function Record(counts: Tally, key: Option<string>): (r: Tally)
    ensures Valid(counts) ==> Valid(r)
  {
    if key.Some? then Bump(counts, key.value) else counts
  }

  /** Reference definition: the keys of the rotation events, in order. */
  function Rotated(events: seq<Event>): seq<string>
    requires forall i :: 0 <= i < |events| ==> RotationReadable(events[i])
  {
    if |events| == 0 then []
    else
      var e := events[|events| - 1];
      assert RotationReadable(e);
      Rotated(events[..|events| - 1]) + (if IsRotation(e) then [e.resources.value[0].resourceName.value] else [])
  }

  /** The number of rotation events. */
  function RotationEvents(events: seq<Event>): nat
  {
    if |events| == 0 then 0
    else RotationEvents(events[..|events| - 1]) + (if IsRotation(events[|events| - 1]) then 1 else 0)
  }

  /** The loop bumps the key of each rotation event, in order. */
  lemma {:induction false} CountRotationsTally(events: seq<Event>)
    requires CountRotations(events).Ok?
    ensures CountRotations(events).value == TallyFrom([], Rotated(events))
    ensures |Rotated(events)| == RotationEvents(events)
  {
    if |events| > 0 {
      var init := events[..|events| - 1];
      assert forall i :: 0 <= i < |init| ==> init[i] == events[i];
      CountRotationsTally(init);
      var e := events[|events| - 1];
      if IsRotation(e) {
        assert Rotated(events) == Rotated(init) + [e.resources.value[0].resourceName.value];
      } else {
        assert Rotated(events) == Rotated(init);
      }
    }
  }

  /** `check_unnecessary_key_rotations(days)`: `lookup(days)` stands for the
      `RotateKey`-bearing CloudTrail pages of the last `days` days. */
  function CheckUnnecessaryKeyRotations(lookup: nat -> seq<seq<Event>>, days: nat): Result<Tally>
  {
    CountRotations(Flatten(lookup(days)))
  }

  /** The rotation tally: only rotation events count, each under the first
      resource it names; every key is listed once, in order of its first
      rotation, with a count of at least one, and the counts add up to the
      number of rotation events. */
  lemma {:induction false} RotationCounts(lookup: nat -> seq<seq<Event>>, days: nat, k: string)
    requires CheckUnnecessaryKeyRotations(lookup, days).Ok?
    ensures Keys(CheckUnnecessaryKeyRotations(lookup, days).value) == Unique(Rotated(Flatten(lookup(days))))
    ensures GetOr(CheckUnnecessaryKeyRotations(lookup, days).value, k, 0) == Occurrences(Rotated(Flatten(lookup(days))), k)
    ensures Total(CheckUnnecessaryKeyRotations(lookup, days).value) == RotationEvents(Flatten(lookup(days)))
  {
    var events := Flatten(lookup(days));
    CountRotationsTally(events);
    TallyFreshKeys(Rotated(events));
    TallyCount([], Rotated(events), k);
    TallyTotal([], Rotated(events));
  }

  /** Every count of the rotation tally is at least one. */
  lemma {:induction false} RotationCountsPositive(lookup: nat -> seq<seq<Event>>, days: nat, i: int)
    requires CheckUnnecessaryKeyRotations(lookup, days).Ok?
    requires 0 <= i < |CheckUnnecessaryKeyRotations(lookup, days).value|
    ensures CheckUnnecessaryKeyRotations(lookup, days).value[i].1 >= 1
  {
    var d := CheckUnnecessaryKeyRotations(lookup, days).value;
    var k := d[i].0;
    GetAt(d, i);
    RotationCounts(lookup, days, k);
    assert k in Keys(d);
    OccurrencesPresent(Rotated(Flatten(lookup(days))), k);
  }

  lemma {:induction false} OccurrencesPresent(names: seq<string>, k: string)
    requires k in names
    ensures Occurrences(names, k) >= 1
  {
    var init := names[..|names| - 1];
    assert names == init + [names[|names| - 1]];
    if names[|names| - 1] != k {
      OccurrencesPresent(init, k);
    }
  }

  /** The tally entry at `i` is the first with a count above one. */
  predicate FirstRepeatedAt(d: Tally, i: int)
  {
    0 <= i < |d| && d[i].1 > 1 && forall j :: 0 <= j < i ==> d[j].1 <= 1
  }

  /** The report loop of `key_rotation`: the first key, in insertion
      order, rotated more than once, with its count. */
  function FirstRepeated(d: Tally): (r: Option<(string, int)>)
    ensures r.None? <==> forall i :: 0 <= i < |d| ==> d[i].1 <= 1
    ensures r.Some? ==> exists i :: FirstRepeatedAt(d, i) && d[i] == r.value
  {
    if |d| == 0 then None
    else if d[0].1 > 1 then
      assert FirstRepeatedAt(d, 0);
      Some(d[0])
    else
      var rest := d[1..];
      assert forall i :: 0 <= i < |rest| ==> rest[i] == d[i + 1];
      var r := FirstRepeated(rest);
      assert r.Some? ==> exists i :: FirstRepeatedAt(d, i) && d[i] == r.value by {
        if r.Some? {
          var i :| FirstRepeatedAt(rest, i) && rest[i] == r.value;
          assert FirstRepeatedAt(d, i + 1);
        }
      }
      r
  }

  /** The window of `key_rotation`, in days. */
  const RotationWindow: nat := 365

  /** `key_rotation`: over the last year, the first key rotated more than
      once is reported with its count; none when no key was. */
  function KeyRotation(lookup: nat -> seq<seq<Event>>): (r: Result<Option<(string, int)>>)
    ensures r.Ok? <==> CheckUnnecessaryKeyRotations(lookup, RotationWindow).Ok?
    ensures r.Ok? ==> (r.value.None? <==>
      forall i :: 0 <= i < |CheckUnnecessaryKeyRotations(lookup, RotationWindow).value| ==>
        CheckUnnecessaryKeyRotations(lookup, RotationWindow).value[i].1 <= 1)
    ensures r.Ok? && r.value.Some? ==>
      exists i :: FirstRepeatedAt(CheckUnnecessaryKeyRotations(lookup, RotationWindow).value, i)
        && CheckUnnecessaryKeyRotations(lookup, RotationWindow).value[i] == r.value.value
  {
    var counts :- CheckUnnecessaryKeyRotations(lookup, RotationWindow);
    Ok(FirstRepeated(counts))
  }

  /** A reported key was rotated more than once in the window, and the
      reported count is its number of rotations. */
  lemma {:induction false} KeyRotationReported(lookup: nat -> seq<seq<Event>>)
    requires KeyRotation(lookup).Ok? && KeyRotation(lookup).value.Some?
    ensures KeyRotation(lookup).value.value.1 == Occurrences(Rotated(Flatten(lookup(RotationWindow))), KeyRotation(lookup).value.value.0)
    ensures KeyRotation(lookup).value.value.1 > 1
  {
    var d := CheckUnnecessaryKeyRotations(lookup, RotationWindow).value;
    var i :| FirstRepeatedAt(d, i) && d[i] == KeyRotation(lookup).value.value;
    GetAt(d, i);
    RotationCounts(lookup, RotationWindow, d[i].0);
  }

  // ---- get_kms_key_operations ----

  /** The operations `get_kms_key_operations` looks for. */
  const KmsOperations: seq<string> := [
    "Encrypt", "Decrypt", "GenerateDataKey", "GenerateDataKeyWithoutPlaintext", "ReEncrypt",
    "DescribeKey", "CreateKey", "ScheduleKeyDeletion", "CancelKeyDeletion"]

  /** `{name: 0 for name in names}`. */
  function Zeros(names: seq<string>): (d: Tally)
    ensures Valid(d)
  {
    if |names| == 0 then [] else Put(Zeros(names[..|names| - 1]), names[|names| - 1], 0)
  }

  /** Every name starts at zero... */
  lemma {:induction false} ZerosCount(names: seq<string>, k: string)
    ensures GetOr(Zeros(names), k, 0) == 0
  {
    if |names| > 0 {
      ZerosCount(names[..|names| - 1], k);
    }
  }

  /** ...in order of first occurrence... */
  lemma {:induction false} ZerosKeys(names: seq<string>)
    ensures Keys(Zeros(names)) == Unique(names)
  {
    if |names| > 0 {
      ZerosKeys(names[..|names| - 1]);
    }
  }

  /** ...so the counts add up to zero. */
  lemma {:induction false} ZerosTotal(names: seq<string>)
    ensures Total(Zeros(names)) == 0
  {
    if |names| > 0 {
      var init := names[..|names| - 1];
      ZerosTotal(init);
      ZerosCount(init, names[|names| - 1]);
      PutTotal(Zeros(init), names[|names| - 1], 0);
    }
  }

  /** The counting loop of `get_kms_key_operations`, from all operations at
      zero: each event's name is read, and a listed operation is bumped;
      an event without a name raises. */
  function CountOperations(events: seq<Event>): (r: Result<Tally>)
    ensures r.Ok? <==> forall i :: 0 <= i < |events| ==> events[i].eventName.Some?
    ensures r.Err? ==> r.error == KeyError("EventName")
    ensures r.Ok? ==> Valid(r.value)
  {
    if |events| == 0 then Ok(Zeros(KmsOperations))
    else
      var init := events[..|events| - 1];
      assert forall i :: 0 <= i < |init| ==> init[i] == events[i];
      var counts :- CountOperations(init);
      var name :- Field(events[|events| - 1].eventName, "EventName");
      Ok(CountOperation(counts, name))
  }

  /** The body of the operation loop after reading the name: a listed
      operation is bumped, any other name is ignored. */
  function CountOperation(counts: Tally, name: string): (r: Tally)
    ensures Valid(counts) ==> Valid(r)
  {
    if name in KmsOperations then Bump(counts, name) else counts
  }

  /** Reference definition: the names of the events that are listed
      operations, in order. */
  function ListedNames(events: seq<Event>): seq<string>
    requires forall i :: 0 <= i < |events| ==> events[i].eventName.Some?
  {
    if |events| == 0 then []
    else
      var e := events[|events| - 1];
      assert e.eventName.Some?;
      ListedNames(events[..|events| - 1]) + (if e.eventName.value in KmsOperations then [e.eventName.value] else [])
  }

  lemma {:induction false} CountOperationsTally(events: seq<Event>)
    requires CountOperations(events).Ok?
    ensures CountOperations(events).value == TallyFrom(Zeros(KmsOperations), ListedNames(events))
  {
    if |events| > 0 {
      var init := events[..|events| - 1];
      var e := events[|events| - 1];
      assert forall i :: 0 <= i < |init| ==> init[i] == events[i];
      CountOperationsTally(init);
      var prev := CountOperations(init).value;
      if e.eventName.value in KmsOperations {
        assert ListedNames(events) == ListedNames(init) + [e.eventName.value];
        assert CountOperations(events).value == CountOperation(prev, e.eventName.value) == Bump(prev, e.eventName.value);
      } else {
        assert ListedNames(events) == ListedNames(init);
        assert CountOperations(events).value == CountOperation(prev, e.eventName.value) == prev;
      }
    }
  }

  lemma {:induction false} ListedNamesListed(events: seq<Event>)
    requires forall i :: 0 <= i < |events| ==> events[i].eventName.Some?
    ensures forall i :: 0 <= i < |ListedNames(events)| ==> ListedNames(events)[i] in KmsOperations
  {
    if |events| > 0 {
      ListedNamesListed(events[..|events| - 1]);
    }
  }

  /** The operation tally lists exactly the nine operations, and nothing
      else is ever counted. */
  lemma {:induction false} OperationKeys(events: seq<Event>)
    requires CountOperations(events).Ok?
    ensures Keys(CountOperations(events).value) == Unique(KmsOperations)
  {
    CountOperationsTally(events);
    ListedNamesListed(events);
    ZerosKeys(KmsOperations);
    TallyKnownKeys(Zeros(KmsOperations), ListedNames(events));
  }

  /** Each operation is counted once per event carrying its name, from
      zero. */
  lemma {:induction false} OperationCount(events: seq<Event>, k: string)
    requires CountOperations(events).Ok?
    ensures GetOr(CountOperations(events).value, k, 0) == Occurrences(ListedNames(events), k)
  {
    CountOperationsTally(events);
    ZerosCount(KmsOperations, k);
    TallyCount(Zeros(KmsOperations), ListedNames(events), k);
  }

  /** The counts add up to the number of events naming a listed
      operation. */
  lemma {:induction false} OperationTotal(events: seq<Event>)
    requires CountOperations(events).Ok?
    ensures Total(CountOperations(events).value) == |ListedNames(events)|
  {
    CountOperationsTally(events);
    ZerosTotal(KmsOperations);
    TallyTotal(Zeros(KmsOperations), ListedNames(events));
  }

  /** `get_kms_key_operations`: after counting, the report loop calls
      `.items()` on the list of operation names, so the function never
      returns normally; an event without a name raises first. */
  function KeyOperations(pages: seq<seq<Event>>): (r: Result<(Option<string>, Option<string>)>)
    ensures r.Err?
    ensures r.error == if CountOperations(Flatten(pages)).Ok? then AttributeError("items") else KeyError("EventName")
  {
    var counts :- CountOperations(Flatten(pages));
    Err(AttributeError("items"))
  }
}

=== FILE: probe_s3.dfy ===
/** The S3 probe's bookkeeping: object versions grouped by key, the
    cross-bucket replication merge, log statistics, and the storage-class
    and request-rate rules.  The paginated S3 and CloudWatch responses and
    the clock are inputs. */
module S3Probe {
  import opened Base
  import opened Dict

  /** The records of every page that carries its list; a page without the
      list is skipped. */
  function Present<T>(pages: seq<Option<seq<T>>>): seq<T>
  {
    if |pages| == 0 then []
    else
      Present(pages[..|pages| - 1]) + (if pages[|pages| - 1].Some? then pages[|pages| - 1].value else [])
  }

  /** A record of `list_object_versions`; an absent field is `None`. */
  datatype VersionRecord = VersionRecord(
    key: Option<string>,
    size: Option<int>,
    versionId: Option<string>,
    isLatest: Option<bool>)

  /** The dictionary the probe keeps per version. */
  datatype VersionInfo = VersionInfo(versionId: string, size: int, isLatest: bool)

  predicate Complete(v: VersionRecord)
  {
    v.key.Some? && v.size.Some? && v.versionId.Some? && v.isLatest.Some?
  }

  /** One version: the fields are read in the order key, size, version id,
      latest flag. */
  function ReadVersion(v: VersionRecord): (r: Result<(string, seq<VersionInfo>)>)
    ensures r.Ok? <==> Complete(v)
    ensures r.Err? ==> r.error in {KeyError("Key"), KeyError("Size"), KeyError("VersionId"), KeyError("IsLatest")}
    ensures r.Ok? ==> r.value == (v.key.value, [VersionInfo(v.versionId.value, v.size.value, v.isLatest.value)])
  {
    var key :- Field(v.key, "Key");
    var size :- Field(v.size, "Size");
    var versionId :- Field(v.versionId, "VersionId");
    var isLatest :- Field(v.isLatest, "IsLatest");
    Ok((key, [VersionInfo(versionId, size, isLatest)]))
  }

  type Versions = Dict<string, seq<VersionInfo>>

  /** `get_s3_object_versions`: the versions of every page, grouped by key
      in order of first appearance; the first incomplete record raises. */
  function ObjectVersions(pages: seq<Option<seq<VersionRecord>>>): Result<Versions>
  {
    GroupVersions(Present(pages))
  }

  /** The grouping loop over the records of all pages: it succeeds exactly
      when every record is complete, and otherwise raises the error of the
      first incomplete one. */
  function GroupVersions(records: seq<VersionRecord>): (r: Result<Versions>)
    ensures r.Ok? <==> forall i :: 0 <= i < |records| ==> Complete(records[i])
    ensures r.Err? ==> exists i :: FirstErr(Readings(records), i) && r.error == ReadVersion(records[i]).error
    ensures r.Ok? ==> Valid(r.value)
  {
    assert AllOk(Readings(records)).Ok? <==> forall i :: 0 <= i < |records| ==> Complete(records[i]) by {
      if AllOk(Readings(records)).Ok? {
        forall i | 0 <= i < |records| ensures Complete(records[i]) {
          assert Readings(records)[i].Ok?;
        }
      } else {
        var i :| FirstErr(Readings(records), i) && AllOk(Readings(records)).error == Readings(records)[i].error;
        assert !Complete(records[i]);
      }
    }
    var entries :- AllOk(Readings(records));
    Ok(GroupConcat(entries))
  }

  function Readings(records: seq<VersionRecord>): (rs: seq<Result<(string, seq<VersionInfo>)>>)
    ensures |rs| == |records| && forall i :: 0 <= i < |records| ==> rs[i] == ReadVersion(records[i])
  {
    seq(|records|, i requires 0 <= i < |records| => ReadVersion(records[i]))
  }

  /** Reference definition: the keys of the records, in order. */
  function RecordKeys(records: seq<VersionRecord>): seq<string>
    requires forall i :: 0 <= i < |records| ==> Complete(records[i])
  {
    if |records| == 0 then []
    else
      assert Complete(records[|records| - 1]);
      RecordKeys(records[..|records| - 1]) + [records[|records| - 1].key.value]
  }

  /** Reference definition: the versions recorded for `key`, in order. */
  function VersionsOf(records: seq<VersionRecord>, key: string): seq<VersionInfo>
    requires forall i :: 0 <= i < |records| ==> Complete(records[i])
  {
    if |records| == 0 then []
    else
      var v := records[|records| - 1];
      assert Complete(v);
      VersionsOf(records[..|records| - 1], key)
        + (if v.key.value == key then [VersionInfo(v.versionId.value, v.size.value, v.isLatest.value)] else [])
  }

  /** The grouped versions, key by key: the keys in order of first
      appearance, and under each the versions carrying it in page order. */
  lemma {:induction false} ObjectVersionsGrouped(pages: seq<Option<seq<VersionRecord>>>, key: string)
    requires ObjectVersions(pages).Ok?
    ensures Keys(ObjectVersions(pages).value) == Unique(RecordKeys(Present(pages)))
    ensures Get(ObjectVersions(pages).value, key) ==
      if key in RecordKeys(Present(pages)) then Some(VersionsOf(Present(pages), key)) else None
  {
    var records := Present(pages);
    var entries := AllOk(Readings(records)).value;
    EntriesOfRecords(records, entries, key);
    GroupConcatKeys(entries);
    GroupConcatValues(entries, key);
  }

  lemma {:induction false} EntriesOfRecords(records: seq<VersionRecord>, entries: seq<(string, seq<VersionInfo>)>, key: string)
    requires |entries| == |records|
    requires forall i :: 0 <= i < |records| ==> ReadVersion(records[i]) == Ok(entries[i])
    ensures forall i :: 0 <= i < |records| ==> Complete(records[i])
    ensures Keys(entries) == RecordKeys(records)
    ensures Collected(entries, key) == VersionsOf(records, key)
  {
    if |records| > 0 {
      var n := |records| - 1;
      EntriesOfRecords(records[..n], entries[..n], key);
    }
  }

  /** One merge step of `analyze_replication`: object `key` of `bucket`
      gets `versions` appended under that bucket. */
  datatype Holding = Holding(key: string, bucket: string, versions: seq<VersionInfo>)

  type Replication = Dict<string, Dict<string, seq<VersionInfo>>>

  /** The (key, bucket, versions) steps of one bucket, in its key order. */
  function BucketHoldings(bucket: string, info: Versions): (hs: seq<Holding>)
  {
    if |info| == 0 then []
    else BucketHoldings(bucket, info[..|info| - 1]) + [Holding(info[|info| - 1].0, bucket, info[|info| - 1].1)]
  }

  /** The steps of all buckets, bucket by bucket. */
  function Holdings(infos: seq<(string, Versions)>): seq<Holding>
  {
    if |infos| == 0 then []
    else Holdings(infos[..|infos| - 1]) + BucketHoldings(infos[|infos| - 1].0, infos[|infos| - 1].1)
  }

  /** `replication_info.setdefault(key, {}).setdefault(bucket, []).extend(versions)`. */
  function MergeStep(rep: Replication, h: Holding): Replication
  {
    Put(rep, h.key, Extend(GetOr(rep, h.key, []), h.bucket, h.versions))
  }

  function Merge(hs: seq<Holding>): (rep: Replication)
    ensures Valid(rep)
  {
    if |hs| == 0 then [] else MergeStep(Merge(hs[..|hs| - 1]), hs[|hs| - 1])
  }

  function HoldingKeys(hs: seq<Holding>): (ks: seq<string>)
  {
    if |hs| == 0 then [] else HoldingKeys(hs[..|hs| - 1]) + [hs[|hs| - 1].key]
  }

  /** The (bucket, versions) parts of the steps for `key`, in order. */
  function Select(hs: seq<Holding>, key: string): seq<(string, seq<VersionInfo>)>
  {
    if |hs| == 0 then []
    else
      var h := hs[|hs| - 1];
      Select(hs[..|hs| - 1], key) + (if h.key == key then [(h.bucket, h.versions)] else [])
  }

  /** The merged table lists each key once, in order of first appearance. */
  lemma {:induction false} MergeKeys(hs: seq<Holding>)
    ensures Keys(Merge(hs)) == Unique(HoldingKeys(hs))
  {
    if |hs| > 0 {
      MergeKeys(hs[..|hs| - 1]);
    }
  }

  /** Under each key, the per-bucket lists built from that key's steps. */
  lemma {:induction false} MergeEntry(hs: seq<Holding>, key: string)
    ensures Get(Merge(hs), key) == if key in HoldingKeys(hs) then Some(GroupConcat(Select(hs, key))) else None
  {
    if |hs| > 0 {
      MergeEntry(hs[..|hs| - 1], key);
      if hs[|hs| - 1].key != key {
        MergeOtherKey(hs, key);
      } else {
        MergeSameKey(hs);
      }
    }
  }

  lemma {:induction false} MergeSameKey(hs: seq<Holding>)
    requires |hs| > 0
    requires var init, key := hs[..|hs| - 1], hs[|hs| - 1].key;
      Get(Merge(init), key) == if key in HoldingKeys(init) then Some(GroupConcat(Select(init, key))) else None
    ensures Get(Merge(hs), hs[|hs| - 1].key) == Some(GroupConcat(Select(hs, hs[|hs| - 1].key)))
  {
    var init, h := hs[..|hs| - 1], hs[|hs| - 1];
    var key := h.key;
    var rep := Merge(init);
    var s := Select(init, key);
    if key !in HoldingKeys(init) { SelectAbsent(init, key); }
    assert GetOr(rep, key, []) == GroupConcat(s);
    assert Select(hs, key) == s + [(h.bucket, h.versions)];
    assert (s + [(h.bucket, h.versions)])[..|s|] == s;
  }

  lemma {:induction false} MergeOtherKey(hs: seq<Holding>, key: string)
    requires |hs| > 0 && hs[|hs| - 1].key != key
    requires var init := hs[..|hs| - 1];
      Get(Merge(init), key) == if key in HoldingKeys(init) then Some(GroupConcat(Select(init, key))) else None
    ensures Get(Merge(hs), key) == if key in HoldingKeys(hs) then Some(GroupConcat(Select(hs, key))) else None
  {
    var init, h := hs[..|hs| - 1], hs[|hs| - 1];
    assert HoldingKeys(hs) == HoldingKeys(init) + [h.key];
    assert (key in HoldingKeys(hs)) == (key in HoldingKeys(init));
    assert Get(Merge(hs), key) == Get(Merge(init), key);
    assert Select(hs, key) == Select(init, key) + [];
    assert Select(hs, key) == Select(init, key);
  }

  lemma {:induction false} SelectAbsent(hs: seq<Holding>, key: string)
    requires key !in HoldingKeys(hs)
    ensures Select(hs, key) == []
  {
    if |hs| > 0 {
      assert HoldingKeys(hs) == HoldingKeys(hs[..|hs| - 1]) + [hs[|hs| - 1].key];
      SelectAbsent(hs[..|hs| - 1], key);
    }
  }

  lemma {:induction false} SelectAppend(a: seq<Holding>, b: seq<Holding>, key: string)
    ensures Select(a + b, key) == Select(a, key) + Select(b, key)
    decreases |b|
  {
    if |b| == 0 {
      assert a + b == a;
    } else {
      assert (a + b)[..|a + b| - 1] == a + b[..|b| - 1];
      SelectAppend(a, b[..|b| - 1], key);
    }
  }

  lemma {:induction false} KeysAppend(a: seq<Holding>, b: seq<Holding>)
    ensures HoldingKeys(a + b) == HoldingKeys(a) + HoldingKeys(b)
    decreases |b|
  {
    if |b| == 0 {
      assert a + b == a;
    } else {
      assert (a + b)[..|a + b| - 1] == a + b[..|b| - 1];
      KeysAppend(a, b[..|b| - 1]);
    }
  }

  /** A bucket contributes at most one step per key: the versions its
      listing holds for it. */
  lemma {:induction false} BucketSelect(bucket: string, info: Versions, key: string)
    requires Valid(info)
    ensures Select(BucketHoldings(bucket, info), key) ==
      if Get(info, key).Some? then [(bucket, Get(info, key).value)] else []
    ensures (key in HoldingKeys(BucketHoldings(bucket, info))) == Get(info, key).Some?
  {
    if |info| > 0 {
      var n := |info| - 1;
      var init := info[..n];
      assert Keys(init) == Keys(info)[..n];
      BucketSelect(bucket, init, key);
      var hs := BucketHoldings(bucket, init);
      assert HoldingKeys(BucketHoldings(bucket, info)) == HoldingKeys(hs) + [info[n].0];
      if info[n].0 == key {
        assert key !in Keys(init) by {
          forall i | 0 <= i < n ensures Keys(init)[i] != key {
            assert Keys(info)[i] != Keys(info)[n];
          }
        }
      }
    }
  }

  /** Reference definition: the buckets whose listing holds `key`, each
      with the versions it holds, in bucket order. */
  function Holders(infos: seq<(string, Versions)>, key: string): seq<(string, seq<VersionInfo>)>
  {
    if |infos| == 0 then []
    else
      var b := infos[|infos| - 1];
      Holders(infos[..|infos| - 1], key) + (if Get(b.1, key).Some? then [(b.0, Get(b.1, key).value)] else [])
  }

  predicate AllValid(infos: seq<(string, Versions)>)
  {
    forall i :: 0 <= i < |infos| ==> Valid(infos[i].1)
  }

  /** Some bucket's listing holds `key`. */
  predicate Held(infos: seq<(string, Versions)>, key: string)
  {
    exists i :: 0 <= i < |infos| && Get(infos[i].1, key).Some?
  }

  lemma {:induction false} HoldingsSelect(infos: seq<(string, Versions)>, key: string)
    requires AllValid(infos)
    ensures Select(Holdings(infos), key) == Holders(infos, key)
  {
    if |infos| > 0 {
      var n := |infos| - 1;
      var init := infos[..n];
      assert AllValid(init) by {
        forall i | 0 <= i < n ensures Valid(init[i].1) { assert init[i] == infos[i]; }
      }
      HoldingsSelect(init, key);
      SelectAppend(Holdings(init), BucketHoldings(infos[n].0, infos[n].1), key);
      BucketSelect(infos[n].0, infos[n].1, key);
    }
  }

  lemma {:induction false} HoldingsHeld(infos: seq<(string, Versions)>, key: string)
    requires AllValid(infos)
    ensures (key in HoldingKeys(Holdings(infos))) == Held(infos, key)
  {
    if |infos| > 0 {
      var n := |infos| - 1;
      var init := infos[..n];
      assert AllValid(init) by {
        forall i | 0 <= i < n ensures Valid(init[i].1) { assert init[i] == infos[i]; }
      }
      HoldingsHeld(init, key);
      var bh := BucketHoldings(infos[n].0, infos[n].1);
      assert Holdings(infos) == Holdings(init) + bh;
      KeysAppend(Holdings(init), bh);
      BucketSelect(infos[n].0, infos[n].1, key);
      HeldSnoc(infos, key);
    }
  }

  lemma {:induction false} HeldSnoc(infos: seq<(string, Versions)>, key: string)
    requires |infos| > 0
    ensures Held(infos, key) == (Held(infos[..|infos| - 1], key) || Get(infos[|infos| - 1].1, key).Some?)
  {
    var init := infos[..|infos| - 1];
    if Held(infos, key) {
      var i :| 0 <= i < |infos| && Get(infos[i].1, key).Some?;
      if i < |init| { assert init[i] == infos[i]; }
    }
    if Held(init, key) {
      var i :| 0 <= i < |init| && Get(init[i].1, key).Some?;
      assert infos[i] == init[i];
    }
  }

  /** `replication_info[key][bucket]`: for every key some bucket holds, one
      entry per holding bucket (in bucket order), holding the versions of
      every bucket of that name. */
  lemma {:induction false} ReplicationEntry(infos: seq<(string, Versions)>, key: string)
    requires AllValid(infos)
    ensures Get(Merge(Holdings(infos)), key) == if Held(infos, key) then Some(GroupConcat(Holders(infos, key))) else None
    ensures Held(infos, key) ==> Keys(GroupConcat(Holders(infos, key))) == Unique(Keys(Holders(infos, key)))
  {
    HoldingsSelect(infos, key);
    HoldingsHeld(infos, key);
    MergeEntry(Holdings(infos), key);
    GroupConcatKeys(Holders(infos, key));
  }

  /** The entry at `i` is the first that spans more than one bucket. */
  predicate FirstReplicatedAt(rep: Replication, i: int)
  {
    0 <= i < |rep| && |rep[i].1| > 1 && forall j :: 0 <= j < i ==> |rep[j].1| <= 1
  }

  /** The report loop: the first key, in insertion order, present in more
      than one bucket. */
  function FirstReplicated(rep: Replication): (r: Option<string>)
    ensures r.None? <==> forall i :: 0 <= i < |rep| ==> |rep[i].1| <= 1
    ensures r.Some? ==> exists i :: FirstReplicatedAt(rep, i) && rep[i].0 == r.value
  {
    if |rep| == 0 then None
    else if |rep[0].1| > 1 then
      assert FirstReplicatedAt(rep, 0);
      Some(rep[0].0)
    else
      var rest := rep[1..];
      assert forall i :: 0 <= i < |rest| ==> rest[i] == rep[i + 1];
      var r := FirstReplicated(rest);
      assert r.Some? ==> exists i :: FirstReplicatedAt(rep, i) && rep[i].0 == r.value by {
        if r.Some? {
          var i :| FirstReplicatedAt(rest, i) && rest[i].0 == r.value;
          assert FirstReplicatedAt(rep, i + 1);
        }
      }
      r
  }

  /** The version listings of the buckets, in bucket order; the first
      failing listing raises. */
  function Listings(buckets: seq<(string, seq<Option<seq<VersionRecord>>>)>): (r: Result<seq<(string, Versions)>>)
    ensures r.Ok? <==> forall i :: 0 <= i < |buckets| ==> ObjectVersions(buckets[i].1).Ok?
    ensures r.Ok? ==> |r.value| == |buckets| && AllValid(r.value)
    ensures r.Ok? ==> forall i :: 0 <= i < |buckets| ==> r.value[i] == (buckets[i].0, ObjectVersions(buckets[i].1).value)
    ensures r.Err? ==> exists i ::
      && 0 <= i < |buckets| && ObjectVersions(buckets[i].1).Err?
      && (forall j :: 0 <= j < i ==> ObjectVersions(buckets[j].1).Ok?)
      && r.error == ObjectVersions(buckets[i].1).error
  {
    var listed := seq(|buckets|, i requires 0 <= i < |buckets| => ObjectVersions(buckets[i].1));
    assert forall i :: 0 <= i < |buckets| ==> listed[i] == ObjectVersions(buckets[i].1);
    var infos :- AllOk(listed);
    Ok(seq(|buckets|, i requires 0 <= i < |buckets| => (buckets[i].0, infos[i])))
  }

  /** `analyze_replication`: the key reported, if any. */
  function AnalyzeReplication(buckets: seq<(string, seq<Option<seq<VersionRecord>>>)>): (r: Result<Option<string>>)
    ensures r.Ok? <==> Listings(buckets).Ok?
    ensures r.Ok? ==> r.value == FirstReplicated(Merge(Holdings(Listings(buckets).value)))
    ensures r.Err? ==> r == Err(Listings(buckets).error)
  {
    var infos :- Listings(buckets);
    Ok(FirstReplicated(Merge(Holdings(infos))))
  }

  /** A reported key is held by more than one distinct bucket name, and
      every key merged before it by at most one. */
  lemma {:induction false} ReportedKeySpansBuckets(buckets: seq<(string, seq<Option<seq<VersionRecord>>>)>)
    requires AnalyzeReplication(buckets).Ok?
    ensures var infos := Listings(buckets).value;
      var rep := Merge(Holdings(infos));
      && (AnalyzeReplication(buckets).value.Some? ==>
        var key := AnalyzeReplication(buckets).value.value;
        Held(infos, key) && |Unique(Keys(Holders(infos, key)))| > 1)
      && forall i :: 0 <= i < |rep| ==> Held(infos, rep[i].0) && |rep[i].1| == |Unique(Keys(Holders(infos, rep[i].0)))|
  {
    var infos := Listings(buckets).value;
    var rep := Merge(Holdings(infos));
    forall i | 0 <= i < |rep|
      ensures Held(infos, rep[i].0) && |rep[i].1| == |Unique(Keys(Holders(infos, rep[i].0)))|
    {
      GetAt(rep, i);
      ReplicationEntry(infos, rep[i].0);
    }
  }

  /** A log file of the trail; `Size` may be absent. */
  datatype LogFile = LogFile(size: Option<int>)

  /** The `Size` of every log, an absent one read as 0. */
  function Sizes(logs: seq<LogFile>): (r: seq<int>)
    ensures |r| == |logs|
    ensures forall i :: 0 <= i < |logs| && logs[i].size.Some? ==> r[i] == logs[i].size.value
  {
    seq(|logs|, i requires 0 <= i < |logs| => if logs[i].size.Some? then logs[i].size.value else 0)
  }

  /** `calculate_log_stats`: the total size and the number of logs. */
  function LogStats(logs: seq<LogFile>): (r: Result<(int, nat)>)
    ensures r.Ok? <==> forall i :: 0 <= i < |logs| ==> logs[i].size.Some?
    ensures r.Err? ==> r.error == KeyError("Size")
    ensures r.Ok? ==> r.value.1 == |logs|
    ensures r.Ok? ==> r.value.0 == SumInts(Sizes(logs))
  {
    if |logs| == 0 then Ok((0, 0))
    else
      var init := logs[..|logs| - 1];
      assert forall i :: 0 <= i < |init| ==> init[i] == logs[i];
      assert Sizes(logs)[..|logs| - 1] == Sizes(init);
      var prev :- LogStats(init);
      var size :- Field(logs[|logs| - 1].size, "Size");
      Ok((prev.0 + size, prev.1 + 1))
  }

  /** The statistics of two batches of logs add up. */
  lemma {:induction false} LogStatsAppend(a: seq<LogFile>, b: seq<LogFile>)
    requires LogStats(a).Ok? && LogStats(b).Ok?
    ensures LogStats(a + b) == Ok((LogStats(a).value.0 + LogStats(b).value.0, |a| + |b|))
  {
    assert forall i :: 0 <= i < |a + b| ==> (a + b)[i].size.Some? by {
      forall i | 0 <= i < |a + b|
        ensures (a + b)[i].size.Some?
      {
        if i >= |a| {
          assert (a + b)[i] == b[i - |a|];
        }
      }
    }
    assert Sizes(a + b) == Sizes(a) + Sizes(b);
    SumIntsAppend(Sizes(a), Sizes(b));
  }


  /** An object of `list_objects_v2`; an absent field is `None`. */
  datatype S3Object = S3Object(storageClass: Option<string>, lastModified: Option<int>)

  /** `obj.get('StorageClass', 'STANDARD')`. */
  function StorageClass(o: S3Object): string
  {
    if o.storageClass.Some? then o.storageClass.value else "STANDARD"
  }

  /** `(now - last_modified).days` for instants in seconds: whole days,
      rounded down. */
  function DaysSince(now: int, then_: int): int
  {
    (now - then_) / 86400
  }

  /** Thirty whole days have passed exactly when at least 31 days of
      seconds have. */
  lemma {:induction false} DaysSinceBound(now: int, then_: int)
    ensures DaysSince(now, then_) > 30 <==> now - then_ >= 31 * 86400
  {
    var d := now - then_;
    assert d == 86400 * (d / 86400) + d % 86400 && 0 <= d % 86400 < 86400;
  }

  /** An object in the standard class untouched for more than 30 days. */
  predicate Stale(o: S3Object, now: int)
  {
    o.lastModified.Some? && StorageClass(o) == "STANDARD" && DaysSince(now, o.lastModified.value) > 30
  }

  /** One object of the loop: `LastModified` is read before the class is
      judged. */
  function CheckObject(bucket: string, o: S3Object, now: int): (r: Result<Option<string>>)
    ensures r.Err? <==> o.lastModified.None?
    ensures r.Err? ==> r.error == KeyError("LastModified")
    ensures r.Ok? ==> (r.value.Some? <==> Stale(o, now)) && (r.value.Some? ==> r.value.value == bucket)
  {
    var modified :- Field(o.lastModified, "LastModified");
    if StorageClass(o) == "STANDARD" && DaysSince(now, modified) > 30 then Ok(Some(bucket)) else Ok(None)
  }

  /** `get_s3_inneficient_objects`: the bucket is reported at the first
      stale object; an object without `LastModified` met before any stale
      one raises. */
  function InefficientObjects(bucket: string, pages: seq<Option<seq<S3Object>>>, now: int): (r: Result<Option<string>>)
    ensures r == Ok(None) <==> forall i :: 0 <= i < |Present(pages)| ==>
      Present(pages)[i].lastModified.Some? && !Stale(Present(pages)[i], now)
    ensures r != Ok(None) ==>
      exists i :: FirstHitAt(ObjectChecks(bucket, Present(pages), now), i) && r == CheckObject(bucket, Present(pages)[i], now)
    ensures r.Ok? && r.value.Some? ==> r.value.value == bucket
  {
    assert forall i :: 0 <= i < |Present(pages)| ==>
      (ObjectChecks(bucket, Present(pages), now)[i] == Ok(None) <==> Present(pages)[i].lastModified.Some? && !Stale(Present(pages)[i], now));
    assert (FirstHit(ObjectChecks(bucket, Present(pages), now)) == Ok(None) <==>
        forall i :: 0 <= i < |Present(pages)| ==> Present(pages)[i].lastModified.Some? && !Stale(Present(pages)[i], now))
      && (FirstHit(ObjectChecks(bucket, Present(pages), now)) != Ok(None) ==>
        exists i :: FirstHitAt(ObjectChecks(bucket, Present(pages), now), i)
          && FirstHit(ObjectChecks(bucket, Present(pages), now)) == CheckObject(bucket, Present(pages)[i], now)) by {
      if FirstHit(ObjectChecks(bucket, Present(pages), now)) == Ok(None) {
        forall i | 0 <= i < |Present(pages)| ensures Present(pages)[i].lastModified.Some? && !Stale(Present(pages)[i], now) {
          assert ObjectChecks(bucket, Present(pages), now)[i] == Ok(None);
        }
      } else {
        var i :| FirstHitAt(ObjectChecks(bucket, Present(pages), now), i)
          && FirstHit(ObjectChecks(bucket, Present(pages), now)) == ObjectChecks(bucket, Present(pages), now)[i];
        assert ObjectChecks(bucket, Present(pages), now)[i] == CheckObject(bucket, Present(pages)[i], now);
      }
    }
    FirstHit(ObjectChecks(bucket, Present(pages), now))
  }

  function ObjectChecks(bucket: string, objects: seq<S3Object>, now: int): (rs: seq<Result<Option<string>>>)
    ensures |rs| == |objects| && forall i :: 0 <= i < |objects| ==> rs[i] == CheckObject(bucket, objects[i], now)
  {
    seq(|objects|, i requires 0 <= i < |objects| => CheckObject(bucket, objects[i], now))
  }

  /** `analyze_requests`: the hourly average over 24 hours exceeds 10000,
      that is, more than 240000 requests in the day. */
  function ExcessiveRequests(sums: seq<real>): (r: bool)
    ensures r <==> SumReals(sums) > 240000.0
  {
    SumReals(sums) / 24.0 > 10000.0
  }
}

=== FILE: probe_vpc.dfy ===
/** The decision logic of the VPC probe: unused Elastic IPs, the endpoint
    count, and the route-table, network-ACL and security-group validators.
    The EC2 responses are inputs; the advice text the probe asks a
    language model for is not part of this model, so a verdict carries only
    what the problem message reports. */
module VpcProbe {
  import opened Base

  /** An Elastic IP address record: the string fields that are present. */
  type Address = map<string, string>

  /** An address is unused when it is attached to no instance, no network
      interface and no association. */
  predicate Unused(a: Address)
  {
    "InstanceId" !in a && "NetworkInterfaceId" !in a && "AssociationId" !in a
  }

  /** The public IPs of the unused addresses, in input order; an unused
      address without a public IP raises a KeyError. */
  function UnusedIps(addresses: seq<Address>): (r: Result<seq<string>>)
    ensures r.Ok? <==> forall i :: 0 <= i < |addresses| && Unused(addresses[i]) ==> "PublicIp" in addresses[i]
    ensures r.Err? ==> r.error == KeyError("PublicIp")
    ensures r.Ok? ==> (|r.value| == 0 <==> forall i :: 0 <= i < |addresses| ==> !Unused(addresses[i]))
  {
    if |addresses| == 0 then Ok([])
    else
      var init := addresses[..|addresses| - 1];
      var a := addresses[|addresses| - 1];
      assert forall i :: 0 <= i < |init| ==> init[i] == addresses[i];
      var front :- UnusedIps(init);
      if Unused(a) then
        var ip :- Lookup(a, "PublicIp");
        Ok(front + [ip])
      else
        Ok(front)
  }

  /** Every collected IP belongs to an unused address, and every unused
      address contributes its IP. */
  lemma {:induction false} UnusedIpsAre(addresses: seq<Address>)
    requires UnusedIps(addresses).Ok?
    ensures forall ip :: ip in UnusedIps(addresses).value <==>
      exists i :: 0 <= i < |addresses| && Unused(addresses[i]) && addresses[i]["PublicIp"] == ip
  {
    if |addresses| > 0 {
      var init := addresses[..|addresses| - 1];
      var a := addresses[|addresses| - 1];
      assert forall i :: 0 <= i < |init| ==> init[i] == addresses[i];
      UnusedIpsAre(init);
      forall ip
        ensures ip in UnusedIps(addresses).value <==>
          exists i :: 0 <= i < |addresses| && Unused(addresses[i]) && addresses[i]["PublicIp"] == ip
      {
        if exists i :: 0 <= i < |addresses| && Unused(addresses[i]) && addresses[i]["PublicIp"] == ip {
          var i :| 0 <= i < |addresses| && Unused(addresses[i]) && addresses[i]["PublicIp"] == ip;
          if i < |init| {
            assert Unused(init[i]) && init[i]["PublicIp"] == ip;
          }
        }
      }
    }
  }

  /** The collection follows the input order: the IPs of a concatenation
      are those of the first part followed by those of the second. */
  lemma {:induction false} UnusedIpsAppend(a: seq<Address>, b: seq<Address>)
    requires UnusedIps(a + b).Ok?
    ensures UnusedIps(a).Ok? && UnusedIps(b).Ok?
    ensures UnusedIps(a + b).value == UnusedIps(a).value + UnusedIps(b).value
    decreases |b|
  {
    assert forall i :: 0 <= i < |a| ==> (a + b)[i] == a[i];
    assert forall i :: 0 <= i < |b| ==> (a + b)[|a| + i] == b[i];
    if |b| == 0 {
      assert a + b == a;
    } else {
      var init := b[..|b| - 1];
      assert (a + b)[..|a + b| - 1] == a + init;
      UnusedIpsAppend(a, init);
    }
  }

  /** `list_unused_eips`: the unused public IPs when there is at least one,
      nothing otherwise. */
  function ListUnusedEips(addresses: seq<Address>): (r: Result<Option<seq<string>>>)
    ensures r.Ok? <==> UnusedIps(addresses).Ok?
    ensures r.Ok? ==> (r.value.None? <==> forall i :: 0 <= i < |addresses| ==> !Unused(addresses[i]))
    ensures r.Ok? && r.value.Some? ==> r.value.value == UnusedIps(addresses).value
  {
    var ips :- UnusedIps(addresses);
    if |ips| > 0 then Ok(Some(ips)) else Ok(None)
  }

  /** `list_vpc_endpoints` collects the endpoints of all pages, page by
      page: the list holds every endpoint of every page and nothing else. */
  lemma {:induction false} EndpointsAre<E>(pages: seq<seq<E>>)
    ensures forall e :: e in Flatten(pages) <==> exists i :: 0 <= i < |pages| && e in pages[i]
  {
    if |pages| > 0 {
      var init := pages[..|pages| - 1];
      EndpointsAre(init);
      assert forall i :: 0 <= i < |init| ==> init[i] == pages[i];
      forall e ensures e in Flatten(pages) <==> exists i :: 0 <= i < |pages| && e in pages[i] {
        if exists i :: 0 <= i < |pages| && e in pages[i] {
          var i :| 0 <= i < |pages| && e in pages[i];
          if i < |init| { assert e in init[i]; }
        }
      }
    }
  }

  /** The number of endpoints is the sum of the page sizes. */
  lemma {:induction false} EndpointCount<E>(pages: seq<seq<E>>)
    ensures |Flatten(pages)| == SumInts(seq(|pages|, i requires 0 <= i < |pages| => |pages[i]|))
  {
    if |pages| > 0 {
      var init := pages[..|pages| - 1];
      var sizes := seq(|pages|, i requires 0 <= i < |pages| => |pages[i]|);
      EndpointCount(init);
      assert sizes[..|sizes| - 1] == seq(|init|, i requires 0 <= i < |init| => |init[i]|);
    }
  }

  /** `count_vpc_endpoints`: the count, reported only above 100. */
  function CountVpcEndpoints<E>(pages: seq<seq<E>>): (r: Option<nat>)
    ensures r.Some? <==> |Flatten(pages)| > 100
    ensures r.Some? ==> r.value == |Flatten(pages)|
  {
    var count := |Flatten(pages)|;
    if count > 100 then Some(count) else None
  }

  /** A route: the string fields that are present. */
  type Route = map<string, string>

  /** No network interface, instance, NAT gateway or peering connection. */
  predicate Targetless(route: Route)
  {
    && "NetworkInterfaceId" !in route && "InstanceId" !in route
    && "NatGatewayId" !in route && "VpcPeeringConnectionId" !in route
  }

  predicate Blackhole(route: Route)
  {
    "State" in route && route["State"] == "blackhole"
  }

  /** `route.get("GatewayId", "None")`. */
  function Target(route: Route): string
  {
    if "GatewayId" in route then route["GatewayId"] else "None"
  }

  datatype RouteFinding =
    | UnusedRoute(destination: string, target: string)
    | BlackholeRoute(destination: string, target: string)

  /** One route of the table loop: unused first, then blackhole; the
      message reads the destination, which may be missing. */
  function CheckRoute(route: Route): (r: Result<Option<RouteFinding>>)
    ensures r == Ok(None) <==> !Targetless(route) && !Blackhole(route)
    ensures r.Err? <==> (Targetless(route) || Blackhole(route)) && "DestinationCidrBlock" !in route
    ensures r.Err? ==> r.error == KeyError("DestinationCidrBlock")
    ensures r.Ok? && r.value.Some? ==>
      && r.value.value.destination == route["DestinationCidrBlock"]
      && r.value.value.target == Target(route)
      && (r.value.value.UnusedRoute? <==> Targetless(route))
  {
    if Targetless(route) then
      var destination :- Lookup(route, "DestinationCidrBlock");
      Ok(Some(UnusedRoute(destination, Target(route))))
    else if Blackhole(route) then
      var destination :- Lookup(route, "DestinationCidrBlock");
      Ok(Some(BlackholeRoute(destination, Target(route))))
    else
      Ok(None)
  }

  /** The route at `i` is the first that is unused or a blackhole. */
  predicate FirstSuspiciousRoute(routes: seq<Route>, i: int)
  {
    && 0 <= i < |routes| && (Targetless(routes[i]) || Blackhole(routes[i]))
    && forall j :: 0 <= j < i ==> !Targetless(routes[j]) && !Blackhole(routes[j])
  }

  /** Because `return None, None` sits inside the table loop, an empty
      table list falls off the end and returns a bare None. */
  datatype Verdict<F> = NoneListed | Clean | Flagged(finding: F)

  /** `analyze_route_tables`: only the first table is examined, and within
      it the first suspicious route decides. */
  function AnalyzeRouteTables(tables: seq<seq<Route>>): (r: Result<Verdict<RouteFinding>>)
    ensures r == Ok(NoneListed) <==> |tables| == 0
    ensures r == Ok(Clean) <==>
      |tables| > 0 && forall i :: 0 <= i < |tables[0]| ==> !Targetless(tables[0][i]) && !Blackhole(tables[0][i])
    ensures r.Err? || r.value.Flagged? ==>
      |tables| > 0 && exists i :: FirstSuspiciousRoute(tables[0], i) && r == ToVerdict(CheckRoute(tables[0][i]))
  {
    if |tables| == 0 then Ok(NoneListed)
    else
      var routes := tables[0];
      var checks := seq(|routes|, i requires 0 <= i < |routes| => CheckRoute(routes[i]));
      assert forall i :: 0 <= i < |routes| ==> checks[i] == CheckRoute(routes[i]);
      var hit := FirstHit(checks);
      assert hit.Err? || hit.value.Some? ==>
        exists i :: FirstSuspiciousRoute(routes, i) && hit == checks[i] by {
        if hit.Err? || hit.value.Some? {
          var i :| FirstHitAt(checks, i) && hit == checks[i];
          assert FirstSuspiciousRoute(routes, i);
        }
      }
      ToVerdict(hit)
  }

  /** A first-match result as a verdict of a non-empty list. */
  function ToVerdict<F>(hit: Result<Option<F>>): (r: Result<Verdict<F>>)
    ensures r.Err? <==> hit.Err?
    ensures r.Err? ==> r.error == hit.error
    ensures r.Ok? ==> (r.value.Clean? <==> hit.value.None?) && !r.value.NoneListed?
    ensures r.Ok? && r.value.Flagged? ==> r.value.finding == hit.value.value
  {
    match hit
    case Err(e) => Err(e)
    case Ok(None) => Ok(Clean)
    case Ok(Some(f)) => Ok(Flagged(f))
  }

  datatype PortRange = PortRange(from: int, to: int)

  /** `entry.get("PortRange", "All")`. */
  datatype Ports = AllPorts | Range(range: PortRange)

  /** A network ACL entry; a field that is absent from the response is
      `None`. */
  datatype AclEntry = AclEntry(
    ruleNumber: Option<int>,
    protocol: Option<string>,
    ruleAction: Option<string>,
    egress: Option<bool>,
    cidrBlock: Option<string>,
    portRange: Option<PortRange>)

  const World := "0.0.0.0/0"

  datatype AclRule = AclRule(ruleNumber: int, protocol: string, ports: Ports, action: string)

  datatype AclFinding = PermissiveRule(rule: AclRule) | PermissiveEgress(rule: AclRule)

  /** The entry allows traffic from every address. */
  predicate PermissiveAllow(e: AclEntry)
  {
    e.ruleAction == Some("allow") && e.cidrBlock == Some(World)
  }

  /** The entry is an egress rule (allow or deny) for every address. */
  predicate PermissiveOut(e: AclEntry)
  {
    e.egress == Some(true) && e.cidrBlock == Some(World)
  }

  /** The fields of the message: number, protocol, ports, action. */
  function Rule(e: AclEntry): (r: Result<AclRule>)
    ensures r.Ok? <==> e.ruleNumber.Some? && e.protocol.Some? && e.ruleAction.Some?
    ensures r.Ok? ==> r.value.ports == (if e.portRange.Some? then Range(e.portRange.value) else AllPorts)
    ensures r.Ok? ==> r.value.action == e.ruleAction.value && r.value.ruleNumber == e.ruleNumber.value
  {
    var ruleNumber :- Field(e.ruleNumber, "RuleNumber");
    var protocol :- Field(e.protocol, "Protocol");
    var action :- Field(e.ruleAction, "RuleAction");
    Ok(AclRule(ruleNumber, protocol, if e.portRange.Some? then Range(e.portRange.value) else AllPorts, action))
  }

  /** The fields the checks read are present: the action always; the CIDR
      block when the action is allow; the egress flag unless the allow rule
      already matched; the CIDR block again when the egress flag is set; and
      the message fields when an entry is flagged. */
  predicate AclReadable(e: AclEntry)
  {
    && e.ruleAction.Some?
    && (e.ruleAction.value == "allow" ==> e.cidrBlock.Some?)
    && (!PermissiveAllow(e) ==> e.egress.Some? && (e.egress.value ==> e.cidrBlock.Some?))
    && (PermissiveAllow(e) || PermissiveOut(e) ==> e.ruleNumber.Some? && e.protocol.Some?)
  }

  /** One entry of the ACL loop, with Python's short-circuit order: the
      CIDR block is only read once the action is allow or the entry is
      egress. */
  function CheckAclEntry(e: AclEntry): (r: Result<Option<AclFinding>>)
    ensures r.Ok? <==> AclReadable(e)
    ensures r.Err? ==> r.error in {KeyError("RuleAction"), KeyError("CidrBlock"), KeyError("Egress"), KeyError("RuleNumber"), KeyError("Protocol")}
    ensures r == Ok(None) <==> AclReadable(e) && !PermissiveAllow(e) && !PermissiveOut(e)
    ensures r.Ok? && r.value.Some? ==>
      && (r.value.value.PermissiveRule? <==> PermissiveAllow(e))
      && r.value.value.rule == Rule(e).value
  {
    var action :- Field(e.ruleAction, "RuleAction");
    var allowAll :- if action == "allow" then
        (var cidr :- Field(e.cidrBlock, "CidrBlock"); Ok(cidr == World))
      else Ok(false);
    if allowAll then
      var rule :- Rule(e);
      Ok(Some(PermissiveRule(rule)))
    else
      var egress :- Field(e.egress, "Egress");
      var egressAll :- if egress then
          (var cidr :- Field(e.cidrBlock, "CidrBlock"); Ok(cidr == World))
        else Ok(false);
      if egressAll then
        var rule :- Rule(e);
        Ok(Some(PermissiveEgress(rule)))
      else
        Ok(None)
  }

  /** A deny rule is flagged as permissive egress all the same. */
  lemma {:induction false} DenyEgressFlagged(e: AclEntry)
    requires e.ruleAction == Some("deny") && e.egress == Some(true) && e.cidrBlock == Some(World)
    requires e.ruleNumber.Some? && e.protocol.Some?
    ensures CheckAclEntry(e).Ok? && CheckAclEntry(e).value == Some(PermissiveEgress(Rule(e).value))
    ensures Rule(e).value.action == "deny"
  {
    assert !PermissiveAllow(e);
  }

  /** The entry at `i` is the first that is flagged or cannot be read. */
  predicate FirstAclHit(entries: seq<AclEntry>, i: int)
  {
    && 0 <= i < |entries| && CheckAclEntry(entries[i]) != Ok(None)
    && forall j :: 0 <= j < i ==> AclReadable(entries[j]) && !PermissiveAllow(entries[j]) && !PermissiveOut(entries[j])
  }

  /** `analyze_network_acls`: only the first ACL is examined, and within it
      the first flagged entry decides. */
  function AnalyzeNetworkAcls(acls: seq<seq<AclEntry>>): (r: Result<Verdict<AclFinding>>)
    ensures r == Ok(NoneListed) <==> |acls| == 0
    ensures r == Ok(Clean) <==>
      |acls| > 0 && forall i :: 0 <= i < |acls[0]| ==>
        AclReadable(acls[0][i]) && !PermissiveAllow(acls[0][i]) && !PermissiveOut(acls[0][i])
    ensures r.Err? || r.value.Flagged? ==>
      |acls| > 0 && exists i :: FirstAclHit(acls[0], i) && r == ToVerdict(CheckAclEntry(acls[0][i]))
  {
    if |acls| == 0 then Ok(NoneListed)
    else
      var entries := acls[0];
      var checks := seq(|entries|, i requires 0 <= i < |entries| => CheckAclEntry(entries[i]));
      assert forall i :: 0 <= i < |entries| ==> checks[i] == CheckAclEntry(entries[i]);
      var hit := FirstHit(checks);
      assert hit.Err? || hit.value.Some? ==>
        exists i :: FirstAclHit(entries, i) && hit == checks[i] by {
        if hit.Err? || hit.value.Some? {
          var i :| FirstHitAt(checks, i) && hit == checks[i];
          assert FirstAclHit(entries, i);
        }
      }
      ToVerdict(hit)
  }

  /** An IP permission of a security group; `IpRanges` may be absent. */
  datatype Permission = Permission(ipRanges: Option<seq<string>>)

  datatype SecurityGroup = SecurityGroup(groupId: string, ingress: seq<Permission>, egress: seq<Permission>)

  datatype GroupFinding =
    | NumerousRules(groupId: string)
    | ComplexIngress(groupId: string)
    | ComplexEgress(groupId: string)

  /** `len(permission.get('IpRanges', []))`. */
  function CidrCount(p: Permission): nat
  {
    if p.ipRanges.Some? then |p.ipRanges.value| else 0
  }

  predicate Complex(p: Permission)
  {
    CidrCount(p) > 10
  }

  predicate Numerous(sg: SecurityGroup)
  {
    |sg.ingress| > 50 || |sg.egress| > 10
  }

  /** The permission at `i` is the first with more than ten ranges. */
  function FirstComplex(ps: seq<Permission>): (r: Option<nat>)
    ensures r.None? <==> forall i :: 0 <= i < |ps| ==> !Complex(ps[i])
    ensures r.Some? ==> r.value < |ps| && Complex(ps[r.value]) && forall j :: 0 <= j < r.value ==> !Complex(ps[j])
  {
    if |ps| == 0 then None
    else if Complex(ps[0]) then Some(0)
    else
      var rest := FirstComplex(ps[1..]);
      assert forall i :: 0 <= i < |ps| - 1 ==> ps[1..][i] == ps[i + 1];
      if rest.None? then None else Some(rest.value + 1)
  }

  /** One group of the loop: the rule count first, then the ingress ranges,
      then the egress ranges. */
  function CheckGroup(sg: SecurityGroup): (r: Option<GroupFinding>)
    ensures r.None? <==>
      && !Numerous(sg)
      && (forall i :: 0 <= i < |sg.ingress| ==> !Complex(sg.ingress[i]))
      && (forall i :: 0 <= i < |sg.egress| ==> !Complex(sg.egress[i]))
    ensures r.Some? ==> r.value.groupId == sg.groupId
    ensures r.Some? && r.value.NumerousRules? <==> Numerous(sg)
    ensures r.Some? && r.value.ComplexIngress? <==> !Numerous(sg) && exists i :: 0 <= i < |sg.ingress| && Complex(sg.ingress[i])
  {
    if Numerous(sg) then Some(NumerousRules(sg.groupId))
    else if FirstComplex(sg.ingress).Some? then Some(ComplexIngress(sg.groupId))
    else if FirstComplex(sg.egress).Some? then Some(ComplexEgress(sg.groupId))
    else None
  }

  /** The group at `i` is the first one flagged. */
  predicate FirstFlaggedGroup(groups: seq<SecurityGroup>, i: int)
  {
    0 <= i < |groups| && CheckGroup(groups[i]).Some? && forall j :: 0 <= j < i ==> CheckGroup(groups[j]).None?
  }

  /** `analyze_security_groups`: the groups in order, the first flagged
      one decides; nothing is raised. */
  function AnalyzeSecurityGroups(groups: seq<SecurityGroup>): (r: Option<GroupFinding>)
    ensures r.None? <==> forall i :: 0 <= i < |groups| ==> CheckGroup(groups[i]).None?
    ensures r.Some? ==> exists i :: FirstFlaggedGroup(groups, i) && r == CheckGroup(groups[i])
  {
    if |groups| == 0 then None
    else if CheckGroup(groups[0]).Some? then
      assert FirstFlaggedGroup(groups, 0);
      CheckGroup(groups[0])
    else
      var rest := groups[1..];
      assert forall i :: 0 <= i < |rest| ==> rest[i] == groups[i + 1];
      var r := AnalyzeSecurityGroups(rest);
      assert r.Some? ==> exists i :: FirstFlaggedGroup(groups, i) && r == CheckGroup(groups[i]) by {
        if r.Some? {
          var i :| FirstFlaggedGroup(rest, i) && r == CheckGroup(rest[i]);
          assert FirstFlaggedGroup(groups, i + 1);
        }
      }
      r
  }
}

=== FILE: sorting.dfy ===
/** `df.sort_values(by=c)`: the rows reordered so the column ascends, with
    missing values last (`na_position='last'`).  Python compares strings by
    code point, numbers by value; comparing a string with a number is a
    TypeError.  pandas' default sort is not stable, so the model promises
    the order and the permutation, not the relative order of ties. */
module Sorting {
  import opened Base
  import opened Tables

  /** Python's `a <= b` on strings: lexicographic by code point. */
  predicate LexLe(a: string, b: string)
    decreases |a|
  {
    |a| == 0 || (|b| > 0 && (a[0] < b[0] || (a[0] == b[0] && LexLe(a[1..], b[1..]))))
  }

  lemma {:induction false} LexTotal(a: string, b: string)
    ensures LexLe(a, b) || LexLe(b, a)
    decreases |a|
  {
    if |a| > 0 && |b| > 0 && a[0] == b[0] {
      LexTotal(a[1..], b[1..]);
    }
  }

  lemma {:induction false} LexTrans(a: string, b: string, c: string)
    requires LexLe(a, b) && LexLe(b, c)
    ensures LexLe(a, c)
    decreases |a|
  {
    if |a| > 0 && a[0] == b[0] && b[0] == c[0] {
      LexTrans(a[1..], b[1..], c[1..]);
    }
  }

  /** Kinds of non-missing cells, in the order a mixed column is laid out by
      the model (pandas refuses to compare them at all). */
  function Rank(c: Cell): nat
  {
    match c
    case Num(_) => 0
    case Str(_) => 1
    case Date(_) => 2
    case NaN => 3
  }

  /** The order `sort_values` puts cells in: missing last, otherwise by value
      within a kind. */
  predicate CellLe(a: Cell, b: Cell)
  {
    if b.NaN? then true
    else if a.NaN? then false
    else if Rank(a) != Rank(b) then Rank(a) < Rank(b)
    else match (a, b)
      case (Num(x), Num(y)) => x <= y
      case (Str(x), Str(y)) => LexLe(x, y)
      case (Date(x), Date(y)) => x <= y
      case _ => true
  }

  lemma {:induction false} CellTotal(a: Cell, b: Cell)
    ensures CellLe(a, b) || CellLe(b, a)
  {
    if a.Str? && b.Str? {
      LexTotal(a.text, b.text);
    }
  }

  lemma {:induction false} CellTrans(a: Cell, b: Cell, c: Cell)
    requires CellLe(a, b) && CellLe(b, c)
    ensures CellLe(a, c)
  {
    if a.Str? && b.Str? && c.Str? {
      LexTrans(a.text, b.text, c.text);
    }
  }

  /** Every pair of non-missing cells of the column can be compared: they
      are all numbers, all strings or all days. */
  predicate Comparable(t: Table, c: string)
    requires HasColumn(t, c)
  {
    forall i, j :: 0 <= i < |t| && 0 <= j < |t| && !t[i][c].NaN? && !t[j][c].NaN? ==> Rank(t[i][c]) == Rank(t[j][c])
  }

  /** The column ascends down the table (every row carries it). */
  predicate SortedBy(t: Table, c: string)
  {
    HasColumn(t, c) && forall i, j :: 0 <= i < j < |t| ==> CellLe(t[i][c], t[j][c])
  }

  /** A lower bound of `x` and of every row of `s` bounds every row of a
      table holding the same rows as `s` plus `x`. */
  lemma {:induction false} BoundedAfterInsert(b: Cell, x: Row, s: Table, r: Table, c: string)
    requires c in x && HasColumn(s, c) && HasColumn(r, c)
    requires multiset(r) == multiset(s) + multiset{x}
    requires CellLe(b, x[c]) && forall j :: 0 <= j < |s| ==> CellLe(b, s[j][c])
    ensures forall j :: 0 <= j < |r| ==> CellLe(b, r[j][c])
  {
    forall j | 0 <= j < |r|
      ensures CellLe(b, r[j][c])
    {
      assert r[j] in multiset(r);
      if r[j] != x {
        assert r[j] in multiset(s);
        var k :| 0 <= k < |s| && s[k] == r[j];
      }
    }
  }

  /** `x` placed in front of the first row of `s` it does not exceed. */
  function Insert(x: Row, s: Table, c: string): (r: Table)
    requires c in x && SortedBy(s, c)
    ensures SortedBy(r, c)
    ensures multiset(r) == multiset(s) + multiset{x}
    ensures |r| == |s| + 1
  {
    if |s| == 0 then [x]
    else if CellLe(x[c], s[0][c]) then
      forall j | 0 <= j < |s|
        ensures CellLe(x[c], s[j][c])
      {
        if j > 0 { CellTrans(x[c], s[0][c], s[j][c]); }
      }
      assert ([x] + s)[1..] == s;
      [x] + s
    else
      CellTotal(x[c], s[0][c]);
      var rest := Insert(x, s[1..], c);
      assert s == [s[0]] + s[1..];
      BoundedAfterInsert(s[0][c], x, s[1..], rest, c);
      assert ([s[0]] + rest)[1..] == rest;
      [s[0]] + rest
  }

  /** Insertion sort of the rows by column `c`. */
  function Sort(t: Table, c: string): (r: Table)
    requires HasColumn(t, c)
    ensures SortedBy(r, c)
    ensures multiset(r) == multiset(t)
    ensures |r| == |t|
  {
    if |t| == 0 then []
    else
      assert t == t[..|t| - 1] + [t[|t| - 1]];
      Insert(t[|t| - 1], Sort(t[..|t| - 1], c), c)
  }

  /** `df.sort_values(by=c)`: a KeyError when the column is missing, a
      TypeError when it mixes kinds, otherwise the same rows in ascending
      order of the column. */
  function SortBy(t: Table, c: string): (r: Result<Table>)
    ensures !HasColumn(t, c) ==> r == Err(KeyError(c))
    ensures HasColumn(t, c) ==> (r.Ok? <==> Comparable(t, c))
    ensures r.Err? ==> r.error == KeyError(c) || r.error == TypeError
    ensures r.Ok? ==> SortedBy(r.value, c) && multiset(r.value) == multiset(t)
  {
    if !HasColumn(t, c) then Err(KeyError(c))
    else if !Comparable(t, c) then Err(TypeError)
    else Ok(Sort(t, c))
  }
}

=== FILE: tables.dfy ===
/** A pandas DataFrame as a list of rows, each row a map from column name to
    cell.  Only the operations the pipeline uses are modelled: reading a
    column, dropping columns, assigning a column, selecting one group of a
    `groupby`, and converting a column with `pd.to_datetime`. */
module Tables {
  import opened Base

  /** A cell: text, a number, a calendar day (after `pd.to_datetime`), or a
      missing value (NaN / NaT). */
  datatype Cell = Str(text: string) | Num(x: real) | Date(day: int) | NaN

  type Row = map<string, Cell>
  type Table = seq<Row>

  /** Every row carries the column. */
  predicate HasColumn(t: Table, c: string)
  {
    forall i :: 0 <= i < |t| ==> c in t[i]
  }

  /** `df[c]`: the column's cells in row order; a missing column is a KeyError. */
  function Column(t: Table, c: string): (r: Result<seq<Cell>>)
    ensures r.Ok? <==> HasColumn(t, c)
    ensures r.Ok? ==> |r.value| == |t| && forall i :: 0 <= i < |t| ==> r.value[i] == t[i][c]
    ensures r.Err? ==> r.error == KeyError(c)
  {
    if HasColumn(t, c) then Ok(seq(|t|, i requires 0 <= i < |t| => t[i][c]))
    else Err(KeyError(c))
  }

  /** `df.drop(cols, axis=1)`: every listed column must exist; the first
      missing one is reported. */
  function DropColumns(t: Table, cols: seq<string>): (r: Result<Table>)
    ensures r.Ok? <==> forall j :: 0 <= j < |cols| ==> HasColumn(t, cols[j])
    ensures r.Err? ==> exists j :: 0 <= j < |cols| && r.error == KeyError(cols[j]) && !HasColumn(t, cols[j])
    ensures r.Ok? ==> |r.value| == |t|
    ensures r.Ok? ==> forall i :: 0 <= i < |t| ==>
      && r.value[i].Keys == t[i].Keys - (set c | c in cols)
      && forall c :: c in r.value[i] ==> r.value[i][c] == t[i][c]
  {
    if |cols| == 0 then
      Ok(t)
    else if !HasColumn(t, cols[0]) then
      Err(KeyError(cols[0]))
    else
      match DropColumns(t, cols[1..])
      case Err(e) => Err(e)
      case Ok(rest) =>
        var dropped := seq(|rest|, i requires 0 <= i < |rest| => rest[i] - {cols[0]});
        assert (set c | c in cols) == {cols[0]} + (set c | c in cols[1..]);
        Ok(dropped)
  }

  /** `df[c] = vals`: adds the column, or overwrites it, row by row. */
  function SetColumn(t: Table, c: string, vals: seq<Cell>): (r: Table)
    requires |vals| == |t|
    ensures |r| == |t|
    ensures forall i :: 0 <= i < |t| ==> r[i].Keys == t[i].Keys + {c} && r[i][c] == vals[i]
    ensures forall i, c' :: 0 <= i < |t| && c' != c && c' in t[i] ==> r[i][c'] == t[i][c']
  {
    seq(|t|, i requires 0 <= i < |t| => t[i][c := vals[i]])
  }

  /** Reading a column back after assigning it gives the assigned values;
      every other column reads as before. */
  lemma {:induction false} ColumnOfSetColumn(t: Table, c: string, vals: seq<Cell>, other: string)
    requires |vals| == |t|
    ensures Column(SetColumn(t, c, vals), c) == Ok(vals)
    ensures other != c ==> Column(SetColumn(t, c, vals), other) == Column(t, other)
  {
    var u := SetColumn(t, c, vals);
    assert Column(u, c).value == vals;
    if other != c {
      assert HasColumn(u, other) <==> HasColumn(t, other);
      if HasColumn(t, other) {
        assert Column(u, other).value == Column(t, other).value;
      }
    }
  }

  /** The row belongs to the `groupby(keyCol)` group labelled `key`. */
  predicate InGroup(row: Row, keyCol: string, key: string)
  {
    keyCol in row && row[keyCol] == Str(key)
  }

  /** The rows of one group, in table order. */
  function GroupRows(t: Table, keyCol: string, key: string): (g: Table)
    ensures |g| <= |t|
    ensures forall i :: 0 <= i < |g| ==> InGroup(g[i], keyCol, key)
    ensures forall i :: 0 <= i < |t| && InGroup(t[i], keyCol, key) ==> t[i] in g
    ensures forall r :: r in g ==> r in t
  {
    if |t| == 0 then []
    else
      var rest := GroupRows(t[..|t| - 1], keyCol, key);
      if InGroup(t[|t| - 1], keyCol, key) then rest + [t[|t| - 1]] else rest
  }

  /** `{k: df for k, df in t.groupby(keyCol)}[key]`: the group's rows, or a
      KeyError when no row carries that key (groupby never produces an empty
      group, so the dictionary lookup fails). */
  function SelectGroup(t: Table, keyCol: string, key: string): (r: Result<Table>)
    ensures r.Ok? <==> exists i :: 0 <= i < |t| && InGroup(t[i], keyCol, key)
    ensures r.Err? ==> r.error == KeyError(key)
    ensures r.Ok? ==> r.value == GroupRows(t, keyCol, key) && |r.value| > 0
  {
    var g := GroupRows(t, keyCol, key);
    if |g| == 0 then
      assert forall i :: 0 <= i < |t| ==> !InGroup(t[i], keyCol, key);
      Err(KeyError(key))
    else
      assert InGroup(g[0], keyCol, key) && g[0] in t;
      Ok(g)
  }

  /** `pd.to_datetime` on one cell: text is parsed by the calendar parser
      (`parse`, foreign) and raises ValueError when it does not parse, a
      day stays a day, and NaN becomes NaT.  Numeric cells, which pandas
      reads as nanoseconds since the epoch, also become NaT here: the date
      columns the drivers convert hold text. */
  function ToDatetimeCell(c: Cell, parse: string -> Option<int>): Result<Cell>
  {
    match c
    case Str(s) => (match parse(s) case Some(d) => Ok(Date(d)) case None => Err(ValueError(s)))
    case Date(d) => Ok(Date(d))
    case _ => Ok(NaN)
  }

  /** Row `i`'s cell of column `c` is text the parser rejects. */
  predicate Unparsed(t: Table, c: string, parse: string -> Option<int>, i: int)
    requires HasColumn(t, c)
  {
    0 <= i < |t| && t[i][c].Str? && parse(t[i][c].text).None?
  }

  /** The converted cell of a convertible cell: the parsed day of text, the
      same day of a day, NaT otherwise. */
  predicate Converted(before: Cell, after: Cell, parse: string -> Option<int>)
  {
    match before
    case Str(s) => parse(s).Some? && after == Date(parse(s).value)
    case Date(d) => after == Date(d)
    case _ => after == NaN
  }

  /** `df[c] = pd.to_datetime(df[c])`: KeyError without the column; the
      ValueError of the first text cell the parser rejects; otherwise every
      cell of the column is converted and every other cell is kept. */
  function ToDatetime(t: Table, c: string, parse: string -> Option<int>): (r: Result<Table>)
    ensures !HasColumn(t, c) ==> r == Err(KeyError(c))
    ensures HasColumn(t, c) ==> (r.Ok? <==> forall i :: 0 <= i < |t| ==> !Unparsed(t, c, parse, i))
    ensures HasColumn(t, c) && r.Err? ==>
      exists i :: Unparsed(t, c, parse, i) && (forall j :: 0 <= j < i ==> !Unparsed(t, c, parse, j))
        && r.error == ValueError(t[i][c].text)
    ensures r.Ok? ==> |r.value| == |t| && HasColumn(r.value, c)
    ensures r.Ok? ==> forall i :: 0 <= i < |t| ==> r.value[i].Keys == t[i].Keys
    ensures r.Ok? ==> forall i :: 0 <= i < |t| ==> Converted(t[i][c], r.value[i][c], parse)
    ensures r.Ok? ==> forall i, c' :: 0 <= i < |t| && c' != c && c' in t[i] ==> r.value[i][c'] == t[i][c']
    ensures r.Ok? ==> forall i :: 0 <= i < |t| ==> r.value[i][c].Date? || r.value[i][c].NaN?
  {
    if !HasColumn(t, c) then Err(KeyError(c))
    else ToDatetimeRows(t, c, parse)
  }

  function ToDatetimeRows(t: Table, c: string, parse: string -> Option<int>): (r: Result<Table>)
    requires HasColumn(t, c)
    ensures r.Ok? <==> forall i :: 0 <= i < |t| ==> !Unparsed(t, c, parse, i)
    ensures r.Err? ==>
      exists i :: Unparsed(t, c, parse, i) && (forall j :: 0 <= j < i ==> !Unparsed(t, c, parse, j))
        && r.error == ValueError(t[i][c].text)
    ensures r.Ok? ==> |r.value| == |t|
    ensures r.Ok? ==> forall i :: 0 <= i < |t| ==>
      && r.value[i].Keys == t[i].Keys
      && Converted(t[i][c], r.value[i][c], parse)
      && (r.value[i][c].Date? || r.value[i][c].NaN?)
      && forall c' :: c' != c && c' in t[i] ==> r.value[i][c'] == t[i][c']
  {
    if |t| == 0 then Ok([])
    else
      var init := t[..|t| - 1];
      assert forall i :: 0 <= i < |init| ==> init[i] == t[i];
      assert forall i :: 0 <= i < |init| ==> (Unparsed(init, c, parse, i) <==> Unparsed(t, c, parse, i));
      match ToDatetimeRows(init, c, parse)
      case Err(e) => Err(e)
      case Ok(rows) =>
        match ToDatetimeCell(t[|t| - 1][c], parse)
        case Err(e) =>
          assert Unparsed(t, c, parse, |t| - 1);
          Err(e)
        case Ok(cell) => Ok(rows + [t[|t| - 1][c := cell]])
  }
}

=== FILE: world.dfy ===
/** The state the batch run works on and the foreign collaborators it
    calls.  Files: the raw and cleaned billing reports, the threshold ledger
    and the forecast files (each a table, by name).  Env: everything
    computed outside the modelled code -- the merged raw reports, the
    isolation forest, the date and number parsers, the time-series statistics and
    Python's float formatting. */
module World {
  import opened Base
  import opened Tables
  import opened Calibration
  import opened Forecasting

  const RawAwsFile := "cost-and-usage-report-aws.csv"
  const RawGcpFile := "cost-and-usage-report-gcp.csv"
  const CleanAwsFile := "clean-cost-and-usage-report-aws.csv"
  const CleanGcpFile := "clean-cost-and-usage-report-gcp.csv"

  /** The files of the working directory; a report is `None` until it has
      been written. */
  datatype Files = Files(
    rawAws: Option<Table>,
    rawGcp: Option<Table>,
    cleanAws: Option<Table>,
    cleanGcp: Option<Table>,
    ledger: seq<string>,                         // outliers.csv
    forecasts: map<string, seq<ForecastRow>>)    // forecasted_<name>_costs.csv

  /** How a step ended: normally, or with an exception.  Either way the
      files carry every write made before the end. */
  datatype Outcome = Completed(files: Files) | Aborted(failure: Failure, files: Files)

  datatype Env = Env(
    mergedAws: Result<Table>,        // what update_csv_aws produces (or the error it raises)
    mergedGcp: Option<Table>,        // what update_csv_gcp writes (None: no export found, nothing written)
    scorer: seq<Cell> -> Fit,        // IsolationForest(random_state=42) fitted and applied to one column
    parseDate: string -> Option<int>,   // pd.to_datetime on one string
    parseNumber: string -> Option<real>, // pd.to_numeric on one string
    stats: Stats,
    show: real -> string)            // str() of a float

  /** `pd.read_csv(name)` of a report. */
  function Read(file: Option<Table>, name: string): (r: Result<Table>)
    ensures file.None? <==> r == Err(FileNotFoundError(name))
    ensures file.Some? ==> r == Ok(file.value)
  {
    match file
    case None => Err(FileNotFoundError(name))
    case Some(t) => Ok(t)
  }

  /** Only the ledger and the forecast files differ. */
  predicate SameReports(a: Files, b: Files)
  {
    a.rawAws == b.rawAws && a.rawGcp == b.rawGcp && a.cleanAws == b.cleanAws && a.cleanGcp == b.cleanGcp
  }
}
